=== FILE: README.md ===
# quizdojo progression and competition core, in Dafny

This project models the rules behind quizdojo's player progression and
head-to-head competition, as the Node backend
(`server-mvp/node-app/src/index.js`) and its two rate limiters
(`roleRateLimit.js`, `rateLimit.js`) implement them. Every request handler
is one atomic step over an immutable store of maps: it takes the store,
the caller, the request fields, `now` (milliseconds) and, where the
handler needs a calendar day, `today` (a day number, 0 = 1970-01-01).
It returns the new store together with a reply or an error tag. A
refused request returns the store unchanged. Most handlers run inside one
database transaction; `POST /leitner/answer` does not (its statements run
one by one on the pool), and the model still takes it as one step.

Modules, one file each:

- `Common` (`common.dfy`): answer ids and the exact-set correctness rule
  shared by training, duels and exams; `Math.max/min` clamping.
- `RateLimit` (`ratelimit.dfy`): the fixed-window counters of
  `loginRateLimit` (per address, one map shared by every instance) and
  `roleRateLimit` (per user and address, admin and user limits), and
  their cleanup sweeps.
- `Progress` (`progress.dfy`): XP in integer hundredths (a wrong training
  answer earns 0.25 XP), `calcLevel` as "the largest n with 10·n² ≤ XP",
  `updateGamification`, the `(user, pool, day)` activity ledger of
  `recordDailyActivity`, and the training answer.
- `Calendar` (`calendar.dfy`): Gregorian years over day numbers and the
  ISO 8601 week key of `weekKeyFromDate` (Thursday rule), with
  `isoWeekStart` and `prevWeekKey`; week keys are the integers
  `year·100 + week`, which order like the `YYYY-Www` strings for the
  four-digit years 1000 to 9999.
- `Streaks` (`streaks.dfy`): the daily streak (consecutive days with at
  least 10 answers, walking back from today) and the weekly streak
  (consecutive ISO weeks with at least 4 such days).
- `Badges` (`badges.dfy`): the ten badge thresholds of `computeBadges`,
  the win-streak scans of `loadDuelStats`, and insert-if-absent awarding.
- `Duels` (`duels.dfy`): the duel life cycle waiting → active →
  finished | expired: create, accept, answer with result rows and
  resolution, reading answers, delete, reset and the expiry sweep.
- `Leitner` (`leitner.dfy`): boxes 1 to 5 and their review intervals,
  seeding a set, the due list in classic and simple sets, answering with
  its per-set statistics, and the mastery milestones.
- `Leaderboard` (`leaderboard.dfy`): the score formula per scope
  (global, trailing seven UTC days, pool), ranking, and the snapshot
  cache of `getLeaderboardWithSnapshot`.
- `Exams` (`exams.dfy`): starting an exam session and scoring a
  submission, with the exam XP `5·correct + 10` when at least 80% is
  right (compared as `5·correct ≥ 4·total`).
- `Parsing` (`parsing.dfy`): JavaScript's `trim`, `split` and `indexOf`
  on strings, `getCookie`, the refresh-token max-age parser
  (`/^(\d+)\s*([smhd])$/i`) and the CSV line parser of `parseCsvLine`.

Randomness (the `ORDER BY random()` question sample of duel creation and
exam start) is an input: the model takes the sampled ids and states what
a sample the query can return looks like. The database is the store; SQL
statements are the map updates they perform.

## Model

| member | source | states |
|---|---|---|
| Common.IsCorrectSelection | server-mvp/node-app/src/index.js:1638-1640 | a selection is correct exactly when the set of selected answer ids equals the set of correct ids: same size and every correct id selected |
| Common.CorrectnessIgnoresOrder | server-mvp/node-app/src/index.js:2653-2655 | the verdict depends only on which ids were selected, not on their order or repetitions |
| Common.Clamp | server-mvp/node-app/src/index.js:1641 | `Math.max(lo, Math.min(hi, x))` lies in [lo, hi], is x inside the range and the nearer bound outside it |
| RateLimit.OrElse | server-mvp/node-app/src/rateLimit.js:13 | `a \|\| fallback` on an optional string: the value when present and non-empty, otherwise the fallback |
| RateLimit.Admit | server-mvp/node-app/src/rateLimit.js:14-25 | a request passes iff the count of its window (reset when more than windowMs has gone by) is below max; an admitted request leaves count+1; the stored window start is kept while the window is open and becomes now after a reset, for admitted requests and refused ones alike; a refused one is not counted; every other key is untouched |
| RateLimit.LoginRateLimit | server-mvp/node-app/src/rateLimit.js:11-25 | the login limiter keys on the address (`req.ip`, then remoteAddress, then 'unknown') and admits iff the windowed count is below max; other addresses keep their buckets |
| RateLimit.RoleMax | server-mvp/node-app/src/roleRateLimit.js:20 | the limit is adminMax for role admin and userMax for every other role or none |
| RateLimit.RoleRateLimit | server-mvp/node-app/src/roleRateLimit.js:11-27 | the role limiter keys on user and address and admits iff the windowed count is below the role's limit; other keys keep their buckets |
| RateLimit.Sweep | server-mvp/node-app/src/rateLimit.js:4-9 | the cleanup keeps exactly the buckets whose window opened at most staleAfter ago, unchanged |
| RateLimit.SweepKeepsDecisions | server-mvp/node-app/src/roleRateLimit.js:4-9 | a sweep at or before a request, with a staleness bound no shorter than the window, changes neither whether the request passes nor the count it is judged by |
| RateLimit.AdmitKeepsBound | server-mvp/node-app/src/roleRateLimit.js:21-26 | every count stays within [0, bound] when every instance's max is at most bound |
| RateLimit.ReplayWithinWindow | server-mvp/node-app/src/roleRateLimit.js:16-26 | within one window at most max minus the current count further requests with one key pass |
| RateLimit.AtMostMaxPerWindow | server-mvp/node-app/src/rateLimit.js:15-25 | starting with no bucket, at most max requests with one key pass inside one window |
| RateLimit.NoBucketNoAdmission | server-mvp/node-app/src/rateLimit.js:20-22 | with max 0 no request is ever admitted |
| RateLimit.LoginRoutesShareCounter | server-mvp/node-app/src/rateLimit.js:1 | all login limiter instances share one map: a request admitted by one route counts against the same address on another route |
| RateLimit.FirstIndexOf | server-mvp/node-app/src/roleRateLimit.js:13 | the position of the first colon in a key, or its length when there is none |
| RateLimit.RoleKeyInjective | server-mvp/node-app/src/roleRateLimit.js:13 | two requests with colon-free user ids share a bucket only when user and address agree |
| RateLimit.UsersBehindOneAddressIndependent | server-mvp/node-app/src/roleRateLimit.js:13-26 | a request of one user never changes another user's bucket on the same address |
| Progress.CalcLevel | server-mvp/node-app/src/index.js:703-706 | the level is the largest n with 10·n² ≤ max(0, xp), xp counted in hundredths |
| Progress.LevelMonotone | server-mvp/node-app/src/index.js:703-706 | more XP never gives a lower level |
| Progress.LevelThresholds | server-mvp/node-app/src/index.js:703-706 | level 1 starts at 10 XP, level 2 at 40 XP and level 10 at 1000 XP |
| Progress.LevelUnique | server-mvp/node-app/src/index.js:703-706 | a level bracketed by its thresholds is the level of that XP |
| Progress.UpdateGamification | server-mvp/node-app/src/index.js:708-724 | the user's XP grows by max(0, delta) (a missing account counts 0), the stored level is the level of the new XP, the award time is now, and no other account changes |
| Progress.AwardMonotone | server-mvp/node-app/src/index.js:708-724 | an award never lowers any user's XP or level |
| Progress.AwardsAdd | server-mvp/node-app/src/index.js:708-724 | two awards to one user add up to one award of the sum of the non-negative parts |
| Progress.RecordDailyActivity | server-mvp/node-app/src/index.js:726-749 | the (user, pool, day) row is created or grows by each delta field, a missing field counting 0, and every other row is unchanged |
| Progress.LedgerSums | server-mvp/node-app/src/index.js:726-749 | after any sequence of events on one row it holds the start value plus the sum of the deltas |
| Progress.LedgerOtherRowsUntouched | server-mvp/node-app/src/index.js:736-747 | recording on one row never changes another row |
| Progress.RecordingCommutes | server-mvp/node-app/src/index.js:736-747 | two recordings give the same ledger in either order |
| Progress.RecordingGrows | server-mvp/node-app/src/index.js:736-747 | with non-negative deltas no counter of any row falls |
| Progress.TrainingAnswer | server-mvp/node-app/src/index.js:2637-2695 | a missing question or selection is 'invalid' and an unknown question is 'question_not_found', with nothing written; otherwise the answer is correct iff the selected set is the correct set, the ledger gets exactly one training answer on the question's pool (training_correct or training_wrong plus total_answered), the accounts are exactly those of the award of 1 or 0.25 XP, and the reply carries the award's XP and level |
| Calendar.YearLength | server-mvp/node-app/src/index.js:828 | a Gregorian year has 366 days when it is a leap year and 365 otherwise; for the years 100 and later this is how `Date.UTC(y, 0, 1)` counts them |
| Calendar.YearOf | server-mvp/node-app/src/index.js:827-828 | `getUTCFullYear()`: the year whose January 1 is on or before the day and whose successor's is after it |
| Calendar.YearOfUnique | server-mvp/node-app/src/index.js:827-828 | any day between a year's start and the next year's start lies in that year |
| Calendar.YearStartOrder | server-mvp/node-app/src/index.js:828 | later years start later, and conversely |
| Calendar.YearOfMonotone | server-mvp/node-app/src/index.js:827-828 | a later day never lies in an earlier year |
| Calendar.IsoWeekday | server-mvp/node-app/src/index.js:825 | `getUTCDay() \|\| 7` is the ISO weekday, 1 for Monday through 7 for Sunday |
| Calendar.ThursdayOf | server-mvp/node-app/src/index.js:825-826 | the Thursday of a date's Monday-to-Sunday week, at most three days away |
| Calendar.ThursdayIsWeekInvariant | server-mvp/node-app/src/index.js:825-826 | all seven days from a Monday share one Thursday |
| Calendar.CodeRoundTrip | server-mvp/node-app/src/index.js:830 | the week key keeps year and week apart: both are read back from it |
| Calendar.WeekNumber | server-mvp/node-app/src/index.js:829 | `Math.ceil((days since January 1 of the Thursday's year + 1) / 7)` lies in [1, 53] |
| Calendar.WeekKeyViaThursday | server-mvp/node-app/src/index.js:824-831 | a date's week key is the key of its Thursday |
| Calendar.January4InWeekOne | server-mvp/node-app/src/index.js:824-831 | January 4 always lies in week 1 of its own year, as ISO 8601 section 3.2.2 requires |
| Calendar.WeekKeyOrder | server-mvp/node-app/src/index.js:824-831 | keys order weeks: a later Thursday never gives a smaller key, and a strictly later one gives a strictly larger key |
| Calendar.SameWeekKey | server-mvp/node-app/src/index.js:824-831 | two dates share a week key exactly when they lie in the same Monday-to-Sunday week |
| Calendar.IsoWeekStartOfKey | server-mvp/node-app/src/index.js:833-841 | `isoWeekStart` of a date's week key is the Monday of that date's week |
| Calendar.IsoWeekStartViaThursday | server-mvp/node-app/src/index.js:833-841 | week w of a year starts w-1 weeks after the Monday of the week holding January 4 |
| Calendar.PrevWeekKeyStep | server-mvp/node-app/src/index.js:843-849 | for a day from ISO year 1 on, `prevWeekKey(weekKey(d))` is `weekKey(d - 7)` |
| Calendar.KeyOfWeekIndex | server-mvp/node-app/src/index.js:824-831 | a date's key is the key of its week's index counted from 1970 |
| Calendar.KeyOfWeekIncreasing | server-mvp/node-app/src/index.js:824-831 | later weeks have strictly larger keys |
| Calendar.KeyOfWeekStep | server-mvp/node-app/src/index.js:843-849 | from ISO year 1 on, `prevWeekKey` of a week's key is the key of the week before |
| Calendar.DatedWeekIndex | server-mvp/node-app/src/index.js:846 | a day of ISO year 1 or later has a week index from the first week of year 1 on, where `prevWeekKey` is defined |
| Calendar.WeekKeyExamples | server-mvp/node-app/src/index.js:824-831 | 2021-01-01, a Friday, is in week 53 of 2020, and 2021-01-04 starts week 1 of 2021 |
| Streaks.SortedDesc | server-mvp/node-app/src/index.js:789 | `Object.keys(...).sort().reverse()` lists every key once, largest first |
| Streaks.SortedDescDescends | server-mvp/node-app/src/index.js:789 | the listed keys strictly decrease |
| Streaks.DailyLoop | server-mvp/node-app/src/index.js:792-800 | the loop counts at most as many days as there are keys |
| Streaks.DailyStreak | server-mvp/node-app/src/index.js:788-802 | the daily streak never exceeds the number of days with activity |
| Streaks.DailyLoopCounts | server-mvp/node-app/src/index.js:792-800 | walking the sorted keys from a cursor no earlier than any key counts exactly the run of consecutive qualifying days ending at the cursor |
| Streaks.DailyStreakCounts | server-mvp/node-app/src/index.js:788-802 | the streak is the number of consecutive days ending today with at least 10 answers each, and 0 as soon as a key lies after today |
| Streaks.DailyStreakExample | server-mvp/node-app/src/index.js:788-802 | 12 answers today, 15 yesterday and 5 the day before give a streak of two |
| Streaks.DailyStreakFutureKey | server-mvp/node-app/src/index.js:789-794 | a day after today listed first stops the walk at once: 20 answers today and 20 tomorrow give a streak of 0 |
| Streaks.TallyCounts | server-mvp/node-app/src/index.js:852-857 | the first loop counts, per week key, the days of that week with at least 10 answers |
| Streaks.ActiveWeeksCount | server-mvp/node-app/src/index.js:858-862 | a week is listed exactly when at least 4 of its days have at least 10 answers each |
| Streaks.ActiveWeekHasDay | server-mvp/node-app/src/index.js:852-862 | every listed week is the week of one of the player's qualifying days |
| Streaks.RunLength | server-mvp/node-app/src/index.js:866-871 | the walk over week keys counts at most as many weeks as are listed |
| Streaks.WeeklyStreak | server-mvp/node-app/src/index.js:851-873 | the weekly streak never exceeds the number of active weeks and is 0 exactly when there is none |
| Streaks.RunCounts | server-mvp/node-app/src/index.js:864-871 | walking keys largest first counts the run of consecutive numbered weeks ending at the cursor's week |
| Streaks.IsoNumbering | server-mvp/node-app/src/index.js:824-849 | ISO week keys with `prevWeekKey` number the weeks from ISO year 1 on: increasing keys, each stepping back to its predecessor |
| Streaks.ActiveWeeksFrom | server-mvp/node-app/src/index.js:852-862 | the active weeks of a player whose days lie in ISO year 1 or later are numbered weeks |
| Streaks.WeeklyStreakCounts | server-mvp/node-app/src/index.js:851-873 | the weekly streak is the number of consecutive active ISO weeks ending with the latest active week, which need not be the current one |
| Badges.ComputeBadges | server-mvp/node-app/src/index.js:924-935 | each badge is listed exactly when its measure reaches its threshold (100 and 1000 correct answers, 7 and 30 streak days, 3 passed exams, 50 box-5 cards, 1 perfect exam, 10 duels, 5 wins in a row, 5 opponents), each at most once |
| Badges.OrderIsComplete | server-mvp/node-app/src/index.js:924-935 | the ordered rule table misses no badge: its filtered list holds exactly the earned badges |
| Badges.KeyRoundTrip | server-mvp/node-app/src/index.js:925-934 | each badge's stored key reads back as that badge |
| Badges.KeyIsInjective | server-mvp/node-app/src/index.js:925-934 | no two badges are stored under the same key |
| Badges.BadgesMonotone | server-mvp/node-app/src/index.js:924-935 | raising any measure never costs a badge |
| Badges.SteppedBadges | server-mvp/node-app/src/index.js:925-928 | erste_1000 implies erste_100, and marathon implies konsequent |
| Badges.CountWhere | server-mvp/node-app/src/index.js:898-915 | the count is exactly the number of exams that are passed (or perfect), and so at most the number of exams |
| Badges.PerfectExamsArePassed | server-mvp/node-app/src/index.js:898-915 | a perfect exam is a passed one, so there are never more perfect exams than passed ones |
| Badges.Totals | server-mvp/node-app/src/index.js:939-948 | wins, losses and draws are exactly the numbers of the player's rows with `is_winner` true, false and null (unresolved rows count as draws); they partition the rows and add up to played |
| Badges.RowsPartition | server-mvp/node-app/src/index.js:941-944 | each result row is a win, a loss or a draw (`is_winner` true, false or null), never two |
| Badges.RunAtIsRun | server-mvp/node-app/src/index.js:966-970 | counting from a position, the wins counted are all wins and the next duel, if any, is not |
| Badges.RunAtIsLongest | server-mvp/node-app/src/index.js:966-970 | no run of wins from a position is longer than the count from that position |
| Badges.BestIsLongestRun | server-mvp/node-app/src/index.js:971-979 | the best-streak value is the length of a run of wins that no other run beats |
| Badges.CurrentWinStreak | server-mvp/node-app/src/index.js:966-970 | the current streak counts the leading wins of the newest-first history and stops at the first other result |
| Badges.BestWinStreak | server-mvp/node-app/src/index.js:971-979 | the best streak is the longest run of consecutive wins anywhere in the history |
| Badges.CurrentAtMostBest | server-mvp/node-app/src/index.js:966-979 | the current win streak never exceeds the best one |
| Badges.AwardBadges | server-mvp/node-app/src/index.js:991-1001 | the held badges become the old ones plus each given key the catalog knows, for this user; existing rows keep their time and new rows get now; no keys means no change |
| Badges.AwardIsIdempotent | server-mvp/node-app/src/index.js:991-1001 | awarding the same keys again, at any later time, changes nothing |
| Duels.QuestionCount | server-mvp/node-app/src/index.js:1436 | the question count lies in [3, 10]: 5 when missing or zero, the request inside the range, the nearer bound outside it |
| Duels.Create | server-mvp/node-app/src/index.js:1421-1459 | a missing pool is 'invalid', challenging oneself 'cannot_duel_self', an unknown pool 'pool_not_found', ten open duels 'too_many_open_duels' and a short sample 'not_enough_questions', with nothing written; an opponent who is no registered user gets no reply and nothing written; otherwise one waiting duel with the clamped count, the sampled ids and a 48-hour expiry is added |
| Duels.CreateWithSample | server-mvp/node-app/src/index.js:1437-1447 | with a sample the random query can return, creation fails for lack of questions exactly when the pool (in the language) has fewer than the count |
| Duels.OpenDuelsAfterInsert | server-mvp/node-app/src/index.js:1427-1432 | adding a duel changes its challenger's open duels by at most that duel |
| Duels.CreateKeepsCap | server-mvp/node-app/src/index.js:1427-1435 | creation never takes a player past ten open duels |
| Duels.Accept | server-mvp/node-app/src/index.js:1502-1525 | accept succeeds iff the duel is waiting, the caller is not the challenger and the opponent is unset or the caller; it then becomes active with the caller as opponent; on failure nothing changes and the error is not_found, cannot_accept_own, not_waiting or forbidden, in that order |
| Duels.AcceptIsExclusive | server-mvp/node-app/src/index.js:1505-1512 | of two different players accepting the same duel one after the other, at most one succeeds |
| Duels.Decide | server-mvp/node-app/src/index.js:1670-1679 | the challenger wins iff both rows exist and it has more correct answers, or as many in less total time; symmetrically for the opponent; otherwise a draw |
| Duels.DecideIsFair | server-mvp/node-app/src/index.js:1670-1679 | swapping the two rows swaps the winner |
| Duels.OutcomeFlags | server-mvp/node-app/src/index.js:1680-1684 | on a draw both `is_winner` are null and both sides get 10 XP; otherwise exactly one flag is true (20 XP) and the other false (5 XP) |
| Duels.CorrectCount | server-mvp/node-app/src/index.js:1648-1655 | the correct count of a player's answers is at most their number |
| Duels.AnswerTime | server-mvp/node-app/src/index.js:1641 | the recorded time lies in [0, 600000]: the request inside the range, 0 when missing or not positive, 600000 above |
| Duels.SetOutcome | server-mvp/node-app/src/index.js:1685-1694 | the update touches only the one result row, and only its flag and XP |
| Duels.Resolve | server-mvp/node-app/src/index.js:1670-1697 | resolution finishes the duel at now; the opponent's row gets the opponent-side flag of the decided outcome and its XP, the challenger's row the challenger-side flag and its XP, every other row is unchanged; the accounts are exactly those of crediting both sides, so each player's XP grows by exactly the XP of their side, nobody else's changes, and stored levels stay consistent |
| Duels.CreditPair | server-mvp/node-app/src/index.js:1695-1696 | two updateGamification calls: each credited player gains their XP with a fresh level and award time, levels stay consistent, and every other account row is unchanged |
| Duels.ResolutionStampsWinner | server-mvp/node-app/src/index.js:1670-1697 | when the challenger's result beats the opponent's, the challenger's row is marked the winner with 20 XP and the opponent's the loser with 5 |
| Duels.Record | server-mvp/node-app/src/index.js:1642-1665 | an accepted answer is appended to the player's answers; the result row is inserted with the count of correct answers and the total time once the player has answered the question count, and an existing row is never overwritten |
| Duels.AnswerRejection | server-mvp/node-app/src/index.js:1605-1634 | a request is turned away, in this order, as invalid, not_found, expired or finished, forbidden, not_active, invalid_question or already_answered |
| Duels.Answer | server-mvp/node-app/src/index.js:1605-1709 | a rejected answer changes nothing and returns its error; an accepted one is graded by set equality, recorded with its clamped time, and the reply carries the correctness |
| Duels.AnswerFinishesDuel | server-mvp/node-app/src/index.js:1670-1697 | an accepted answer finishes the duel exactly when the duel has an opponent and two result rows after the answer |
| Duels.AnswerWithoutFinishing | server-mvp/node-app/src/index.js:1642-1709 | an accepted answer that does not finish the duel leaves the accounts, the duels and every existing result row unchanged |
| Duels.DecideIgnoresOutcome | server-mvp/node-app/src/index.js:1670-1679 | the decision reads only the two rows' correct counts and times, so stamping the outcome does not change it |
| Duels.ResolvedRowsDecide | server-mvp/node-app/src/index.js:1670-1696 | resolution's credits agree with the decision taken over the stamped rows it leaves behind |
| Duels.AnswerFinishingCredits | server-mvp/node-app/src/index.js:1666-1697 | the answer that finishes a duel credits each player with the XP of their side of the outcome decided over the two result rows, and leaves every other account as it was |
| Duels.ResultsAreNeverOverwritten | server-mvp/node-app/src/index.js:1656-1664 | a result row, once written, keeps its correct count and total time through later answers |
| Duels.ResultOnLastAnswer | server-mvp/node-app/src/index.js:1656-1664 | the player's result row appears on the answer that brings the answer count to the question count |
| Duels.FinishedDuelsStayPut | server-mvp/node-app/src/index.js:1612 | an answer never changes a finished duel |
| Duels.ResolutionCredits | server-mvp/node-app/src/index.js:1680-1696 | resolution credits the challenger and the opponent with the XP of their own outcome and nobody else; a non-participant's account row is unchanged and a participant's gets the new level and award time |
| Duels.VisibleAnswers | server-mvp/node-app/src/index.js:1578-1584 | before a duel is finished a participant sees only their own answers; once finished, all of the duel's answers; unknown duel is not_found and a non-participant forbidden |
| Duels.OpponentsOf | server-mvp/node-app/src/index.js:950-957 | the distinct other players of the user's finished duels, from either side |
| Duels.Without | server-mvp/node-app/src/index.js:1725 | deleting duels removes them and, by cascade, their answers and results, and nothing else |
| Duels.Delete | server-mvp/node-app/src/index.js:1711-1727 | a participant may delete a duel that is not active; otherwise not_found, forbidden or duel_active and nothing changes |
| Duels.Reset | server-mvp/node-app/src/index.js:1730-1742 | reset deletes exactly the non-active duels the user created and the finished or expired ones the user was opponent of, and reports how many |
| Duels.ResetSpares | server-mvp/node-app/src/index.js:1733-1737 | reset never removes an active duel, another player's duel, or a waiting duel where the user is only the opponent |
| Duels.CreditExpired | server-mvp/node-app/src/index.js:768-773 | an expired duel gives 5 XP to its challenger and 5 to its opponent when there is one, with a fresh award time for both; levels stay consistent and every other account row is unchanged |
| Duels.ExpireDuels | server-mvp/node-app/src/index.js:758-781 | exactly the waiting or active duels with expires_at before now become expired, each participant gains 5 XP per such duel and role, levels stay consistent, the account rows of players in no expiring duel are unchanged, and answers and results are unchanged |
| Duels.ExpiryTurn | server-mvp/node-app/src/index.js:768-773 | crediting one more expired duel keeps the sweep's accounts short by exactly the outstanding credits, with levels consistent and uninvolved players untouched |
| Leitner.IntervalDays | server-mvp/node-app/src/index.js:646 | the review interval of a box is at least one day, and one day for any box outside [1, 5] |
| Leitner.IntervalsIncrease | server-mvp/node-app/src/index.js:646 | higher boxes wait strictly longer: 1, 2, 5, 8, 14 days |
| Leitner.NextBox | server-mvp/node-app/src/index.js:3072 | a correct answer moves to min(box + 1, 5) and a wrong one to max(box - 1, 1) |
| Leitner.NextBoxInRange | server-mvp/node-app/src/index.js:3071-3072 | a box in [1, 5] stays in [1, 5], moving one step except at the ends |
| Leitner.FourCorrectReachLastBox | server-mvp/node-app/src/index.js:3071-3072 | four correct answers carry a question from box 1 to box 5, and a wrong one drops it back to box 4 |
| Leitner.DueAt | server-mvp/node-app/src/index.js:3073-3082 | classic sets schedule the next review at now plus the box's interval, at least a day ahead; simple sets store no due date |
| Leitner.Seed | server-mvp/node-app/src/index.js:2989-3013 | a missing set id is 'invalid' and a set not owned by the caller 'set_not_found', with nothing written; otherwise every question of the set's pool (in the language, when given) that has no item yet gets a box-1 item, due now in classic sets, and the reply counts them |
| Leitner.SeedIsIdempotent | server-mvp/node-app/src/index.js:3006-3010 | a second seed inserts nothing and changes nothing |
| Leitner.BoxFilter | server-mvp/node-app/src/index.js:2880-2884 | the requested boxes that parse to a number in [1, 5], and only those |
| Leitner.Due | server-mvp/node-app/src/index.js:2879-2907 | a missing set id is 'missing_set_id' and a foreign set 'set_not_found'; otherwise exactly the caller's items of the set in the requested boxes (all boxes when none) and, in classic sets, with no due date or one not after now, whose question exists in the requested language |
| Leitner.DueOverTime | server-mvp/node-app/src/index.js:2898 | in classic sets nothing stops being due as time passes; in simple sets the due list does not depend on time |
| Leitner.NextStreak | server-mvp/node-app/src/index.js:3101-3105 | the study streak grows by one after yesterday, stays after today and restarts at 1 otherwise |
| Leitner.UpdateStats | server-mvp/node-app/src/index.js:3092-3115 | the caller's stats row counts one more session, one more correct or wrong answer, today as last activity; an existing row gets the next streak, a longest streak that never falls and keeps its start time, a new row gets the assumed column defaults; no other row changes |
| Leitner.UpdateKeepsStreaksConsistent | server-mvp/node-app/src/index.js:3106-3113 | the current study streak never exceeds the longest one |
| Leitner.StreakAcrossDays | server-mvp/node-app/src/index.js:3101-3113 | answering on two consecutive days grows the streak by one |
| Leitner.Study | server-mvp/node-app/src/index.js:3068-3082 | the item moves to the next box with the box's due date, and no other item changes |
| Leitner.Answer | server-mvp/node-app/src/index.js:3059-3119 | a missing field is 'invalid', an unknown question 'question_not_found' and a foreign set 'set_not_found', with nothing written; otherwise the box moves, the ledger gets exactly one Leitner answer on the question's pool, the accounts are exactly those of the award (2 XP only when correct), the reply carries the award's XP and level, and the set is studied |
| Leitner.SeedKeepsBoxesInRange | server-mvp/node-app/src/index.js:2999-3002 | seeding keeps every box in [1, 5]: new items start in box 1 |
| Leitner.StudyKeepsBoxesInRange | server-mvp/node-app/src/index.js:3071-3082 | answering keeps every box in [1, 5] |
| Leitner.AnsweredIsNotDueYet | server-mvp/node-app/src/index.js:3073-3082 | in a classic set an answered question leaves the due list until its interval has passed |
| Leitner.FindReached | server-mvp/node-app/src/index.js:3199 | `find(m => pct >= m)` returns the first entry the mastery reaches, and nothing exactly when it reaches none |
| Leitner.FirstReached | server-mvp/node-app/src/index.js:3198-3199 | the selection as written gives 25 as soon as the mastery reaches 25%, whatever higher milestones it reaches |
| Leitner.FirstReachedNeverPassesQuarter | server-mvp/node-app/src/index.js:3198-3199 | as written, 80% yields 25, and 50, 75 and 100 are never selected |
| Leitner.HighestReached | server-mvp/node-app/src/index.js:3197-3199 | the corrected selection is the highest milestone the mastery reaches |
| Leitner.EveryMilestoneReachable | server-mvp/node-app/src/index.js:3198 | each milestone is selected for the masteries from it up to the next one |
| Leitner.CeilDiv | server-mvp/node-app/src/index.js:3224-3226 | `Math.ceil(x / d)` is the least q with x ≤ d·q |
| Leitner.CheckMilestone | server-mvp/node-app/src/index.js:3188-3242 | with the intended selection: missing parameters are 'invalid_params'; no milestone reached or one already recorded writes nothing; otherwise the highest milestone reached is recorded once, with the client's question and mastered counts, the set's session count (0 without stats) and the whole days since the first session rounded up (0 without a start), the reply carries those two, and nothing else changes |
| Leitner.RecordReached | server-mvp/node-app/src/index.js:3201-3242 | after the selection: nothing reached writes nothing and replies no milestone; a milestone already recorded writes nothing and replies alreadyRecorded; otherwise exactly one row is added with the client's counts, the session count and the days taken (the least d with elapsed ≤ d days), and the reply's stats are those two |
| Leitner.CheckMilestoneAsWritten | server-mvp/node-app/src/index.js:3188-3242 | the handler as written: missing parameters are 'invalid_params', the only row it can add is the caller's 25 for the set, and the only milestone it reports is 25 |
| Leitner.AsWrittenStuckAfterQuarter | server-mvp/node-app/src/index.js:3198-3214 | once the caller's 25 is recorded for a set, every later call leaves the store unchanged and, at 25% or more, replies alreadyRecorded |
| Leitner.ReplayAsWritten | server-mvp/node-app/src/index.js:3188-3242 | a sequence of requests handled as written never touches the sets, items or stats |
| Leitner.ReplayAsWrittenOnlyQuarter | server-mvp/node-app/src/index.js:3198-3199 | whatever masteries the player reports, the handler as written adds no milestone for the set other than 25 |
| Leitner.AsWrittenQuarterThenEighty | server-mvp/node-app/src/index.js:3198-3214 | as written, reporting 30% and then 80% records 25 and then answers alreadyRecorded with nothing written |
| Leitner.QuarterThenEighty | server-mvp/node-app/src/index.js:3198-3238 | with the intended selection, reporting 30% and then 80% records 25 and then 75 |
| Leitner.IntendedRecords | server-mvp/node-app/src/index.js:3201-3238 | with the intended selection, a milestone not yet recorded is recorded and reported |
| Leitner.MilestoneRecordedOnce | server-mvp/node-app/src/index.js:3205-3214 | asking again after a milestone was recorded changes nothing and reports it as already recorded |
| Leaderboard.BonusCount | server-mvp/node-app/src/index.js:1760-1769 | the bonus count of a player is exactly the number of the player's exam rows that count in the scope and period, and so at most the number of exam rows |
| Leaderboard.Display | server-mvp/node-app/src/index.js:1792 | the shown name is the display name, else the username, else the email |
| Leaderboard.Candidates | server-mvp/node-app/src/index.js:1771-1782 | the rows before ordering are exactly the opted-in users with a counted ledger row or a counted exam, each with their display name and score |
| Leaderboard.InsertDesc | server-mvp/node-app/src/index.js:1783 | inserting an entry keeps the list ordered by score, highest first, and adds exactly that entry |
| Leaderboard.SortByScore | server-mvp/node-app/src/index.js:1783 | `ORDER BY score DESC` gives a permutation of the rows ordered by score, highest first |
| Leaderboard.Ranking | server-mvp/node-app/src/index.js:1744-1797 | the board is ordered by score, holds min(limit, candidates) of the candidates, and no left-out candidate outscores a listed one |
| Leaderboard.Top | server-mvp/node-app/src/index.js:1783-1784 | the best limit entries of a list, best first, and no left-out entry outscores a kept one |
| Leaderboard.ActivityAtMostGlobal | server-mvp/node-app/src/index.js:1746-1758 | with non-negative counters a weekly or per-pool activity score never exceeds the all-time one |
| Leaderboard.BonusAtMostGlobal | server-mvp/node-app/src/index.js:1764-1765 | the weekly or per-pool bonus count never exceeds the all-time one |
| Leaderboard.GlobalScoreDominates | server-mvp/node-app/src/index.js:1771-1775 | the all-time score bounds the weekly and the per-pool score of every player |
| Leaderboard.WeeklyWindow | server-mvp/node-app/src/index.js:815-822 | the weekly window is the seven UTC days ending today |
| Leaderboard.JsSlice | server-mvp/node-app/src/index.js:1823 | `slice(0, end)`: the first end entries, a negative end counted from the back, and nothing for NaN |
| Leaderboard.Compute | server-mvp/node-app/src/index.js:1744-1797 | a missing or negative limit makes the ranking query fail, and the request gets no reply; otherwise the ranking is returned |
| Leaderboard.WithSnapshot | server-mvp/node-app/src/index.js:1799-1834 | the pool scope always recomputes without touching snapshots; global and weekly serve the newest snapshot of their period sliced to the limit iff its age is at most 6 hours or 30 minutes; otherwise they recompute with min(limit, 50), store exactly those entries and return them |
| Leaderboard.RepeatWithinTtl | server-mvp/node-app/src/index.js:1813-1826 | within the TTL a second request with the same limit gets the same entries, whatever the tables hold by then |
| Leaderboard.ScopeOf | server-mvp/node-app/src/index.js:1910-1916 | the scope is accepted iff it is global, weekly, or pool with a pool id; otherwise invalid_scope or missing_pool_id |
| Leaderboard.Capped | server-mvp/node-app/src/index.js:1917 | the handed-on limit is the request's limit capped at 50, and NaN stays NaN |
| Leaderboard.Leaderboards | server-mvp/node-app/src/index.js:1909-1920 | a rejected scope answers its error and leaves the snapshots alone; an accepted one is the snapshot lookup with the capped limit |
| Leaderboard.WithinLimit | server-mvp/node-app/src/index.js:1821-1828 | whatever the snapshots hold, a successful board never has more entries than a non-negative limit asks for |
| Leaderboard.RouteWithinLimit | server-mvp/node-app/src/index.js:1909-1920 | the route never serves more than 50 entries, nor more than asked |
| Exams.Start | server-mvp/node-app/src/index.js:3249-3289 | a missing pool or count (or count 0) is 'invalid', an unknown pool 'pool_not_found', a negative count leaves the request unanswered and too few questions is 'not_enough_questions', with nothing written; otherwise exactly one open session with the requested count is added |
| Exams.QuestionIds | server-mvp/node-app/src/index.js:3393 | the submitted question ids are those answers that carry one, in order |
| Exams.DistinctBySize | server-mvp/node-app/src/index.js:3394-3395 | `new Set(ids).size !== ids.length` holds exactly when some id repeats |
| Exams.Rejection | server-mvp/node-app/src/index.js:3372-3407 | a submission is refused, in this order, as invalid, not_found, already_submitted, invalid_answer_count, duplicate_questions or invalid_questions, and accepted exactly when none applies |
| Exams.Graded | server-mvp/node-app/src/index.js:3408-3456 | each answer row comes from a submitted answer with a question id and a selection and is graded by set equality; malformed answers yield no row, and well-formed ones one row each |
| Exams.GradedKeepsOrder | server-mvp/node-app/src/index.js:3408-3456 | when every answer is well formed, the rows are the graded answers one for one, in the order submitted |
| Exams.CorrectCount | server-mvp/node-app/src/index.js:3418-3420 | the correct count is at most the number of graded answers, and equal to it exactly when every one is correct |
| Exams.ExamXp | server-mvp/node-app/src/index.js:3462-3464 | the exam's XP is 5 per correct answer plus 10 exactly when 5·correct ≥ 4·total with total > 0 |
| Exams.ExamXpMonotone | server-mvp/node-app/src/index.js:3462-3464 | more correct answers never earn less XP |
| Exams.Finish | server-mvp/node-app/src/index.js:3457-3460 | grading stores the correct count and the finishing time and keeps user, pool and question count |
| Exams.Submit | server-mvp/node-app/src/index.js:3369-3477 | a refused submission changes nothing and answers its error, and a null element in the answers is a server error with everything rolled back; an accepted one finishes the session with the count, appends the graded answers, adds the exam counters to the day's row, sets the accounts to exactly those of the exam award and replies with its XP and level |
| Exams.SubmitOnlyOnce | server-mvp/node-app/src/index.js:3385-3388 | a session is graded once: submitting it again is refused as already_submitted |
| Exams.BonusIffPassed | server-mvp/node-app/src/index.js:3461-3463 | the bonus is awarded exactly when the finished session counts as passed for the badges and the leaderboard |
| Exams.ExamXpBounds | server-mvp/node-app/src/index.js:3461-3464 | an exam's XP is at most 5 per question plus 10 |
| Parsing.Trim | server-mvp/node-app/src/index.js:1034 | `trim()` leaves no white space at either end, never lengthens the string and adds no character |
| Parsing.TrimPadded | server-mvp/node-app/src/index.js:1034-1039 | trimming removes exactly the white-space padding around a string with no white space at its ends |
| Parsing.SplitOn | server-mvp/node-app/src/index.js:1034 | `split(sep)` yields at least one piece and no piece holds the separator |
| Parsing.JoinSplit | server-mvp/node-app/src/index.js:1034 | joining the pieces of a split with the separator gives the string back |
| Parsing.SplitJoin | server-mvp/node-app/src/index.js:1034 | splitting a join of separator-free pieces gives the pieces back |
| Parsing.IndexOf | server-mvp/node-app/src/index.js:1037 | `indexOf(c)` is -1 exactly when c is absent, and otherwise the first position of c |
| Parsing.PartValue | server-mvp/node-app/src/index.js:1036-1040 | a piece yields a value iff it has an '=' and the trimmed text before the first '=' is the name; the value is everything after that '=' |
| Parsing.FirstSome | server-mvp/node-app/src/index.js:1035-1041 | the loop returns the first piece that yields a value, and nothing only when no piece does |
| Parsing.Lookups | server-mvp/node-app/src/index.js:1034-1040 | each piece of the header is looked up after trimming |
| Parsing.GetCookie | server-mvp/node-app/src/index.js:1031-1043 | no header or an empty one yields nothing, and a value never holds the ';' separator |
| Parsing.PieceReads | server-mvp/node-app/src/index.js:1036-1040 | a browser's piece `name=value`, with any leading space, yields its value under its own name and nothing under another |
| Parsing.GetCookieRoundTrip | server-mvp/node-app/src/index.js:1031-1043 | for cookies a browser can send, the lookup returns the first value sent under the name, and nothing when none was sent |
| Parsing.DecimalDigits | server-mvp/node-app/src/index.js:1020 | the decimal spelling of a number reads back through `parseInt(digits, 10)` as that number |
| Parsing.UnitMs | server-mvp/node-app/src/index.js:1022-1025 | the unit letters s, m, h, d (either case) are neither digits nor white space |
| Parsing.MatchDuration | server-mvp/node-app/src/index.js:1018 | `/^(\d+)\s*([smhd])$/i` matches exactly the digits, white space and unit-letter strings, and then returns their number and the unit in milliseconds |
| Parsing.GreedySplit | server-mvp/node-app/src/index.js:1018 | the greedy digit and space runs are the only split of a matching string |
| Parsing.SplitIsUnique | server-mvp/node-app/src/index.js:1018 | any two splits of a matching string into digits, white space and a unit coincide |
| Parsing.RefreshMaxAge | server-mvp/node-app/src/index.js:1016-1027 | a trimmed setting that does not match reads as seven days |
| Parsing.RefreshMaxAgeRoundTrip | server-mvp/node-app/src/index.js:1016-1027 | a number and a unit letter with any padding read back as the number times the unit's milliseconds |
| Parsing.DefaultSettingIsSevenDays | server-mvp/node-app/src/index.js:1017 | the default setting '7d' reads as seven days, the same as the fallback |
| Parsing.TrimAll | server-mvp/node-app/src/index.js:2526 | `map(s => s.trim())` trims each field and keeps their number |
| Parsing.ParseCsvLine | server-mvp/node-app/src/index.js:2503-2527 | the parser as written yields at least one field and every field is trimmed |
| Parsing.ParseCsvLineFixed | server-mvp/node-app/src/index.js:2503-2527 | the corrected parser, which reads a doubled quote as an escape only inside quotes, yields at least one field and every field is trimmed |
| Parsing.BodyReads | server-mvp/node-app/src/index.js:2508-2521 | inside quotes the parser as written reads an escaped field body back up to its closing quote |
| Parsing.BodyReadsQuoted | server-mvp/node-app/src/index.js:2508-2521 | inside quotes the corrected parser reads an escaped field body back up to its closing quote |
| Parsing.FieldReads | server-mvp/node-app/src/index.js:2507-2521 | as written, a quoted field that is non-empty and does not start with a quote is read back |
| Parsing.FieldReadsQuoted | server-mvp/node-app/src/index.js:2507-2521 | corrected, every quoted field is read back |
| Parsing.FixedReadsFields | server-mvp/node-app/src/index.js:2507-2524 | the corrected parser reads an encoded line field by field |
| Parsing.FixedCsvRoundTrip | server-mvp/node-app/src/index.js:2503-2527 | corrected, every non-empty list of trimmed fields survives quoting, joining with commas and parsing |
| Parsing.AsWrittenReadsFields | server-mvp/node-app/src/index.js:2507-2524 | the parser as written reads an encoded line field by field when no field is empty or starts with a quote |
| Parsing.AsWrittenCsvRoundTrip | server-mvp/node-app/src/index.js:2503-2527 | as written, fields survive the round trip when none is empty or starts with a quote |
| Parsing.EmptyQuotedFieldGainsAQuote | server-mvp/node-app/src/index.js:2509-2513 | as written, the quoted empty field `""` parses as one quote character, while the corrected parser gives the empty field |
| Parsing.PlainScan | server-mvp/node-app/src/index.js:2507-2524 | without quote characters the loop collects the pieces between commas |
| Parsing.PlainLine | server-mvp/node-app/src/index.js:2503-2527 | a line without quote characters parses as its comma split, each piece trimmed |

## Left out

- Express routing, middleware, helmet and CORS, JWT signing and checking, bcrypt, mail and the magic-link HTML, `auditLog.js`: foreign libraries and I/O with no rule of their own.
- Schema creation, migrations and `migrateToMultilangPools`: DDL and data migration.
- Leitner.UpdateStats: the `leitner_stats` table is created outside `index.js`, and the insert leaves the streak columns and `started_at` to their column defaults. The model assumes those defaults: 0 for both streaks (`Leitner.NewRowStreakDays`) and the time of the insert for `started_at` (`Leitner.NewRowStartedAt`). The milestone's `days_taken` depends on the second assumption.
- Calendar.YearLength: `Calendar.YearStart` is the proleptic Gregorian calendar for every year. `Date.UTC` reads the years 0 to 99 as 1900 to 1999, so the model departs from the source there. Week keys are compared as `year·100 + week`. The `YYYY-Www` strings order the same way only for the years 1000 to 9999, because the year is not padded below 1000 and has five digits from 10000.
- Timezones: `today` and the local day are parameters. Timezone validation against `pg_timezone_names` and `toLocaleDateString` are not modelled. The Leitner statistics compare their last activity with the database's `CURRENT_DATE`; the model uses the same `today` there, so a difference between the server's and the user's calendar day is not modelled.
- Clocks and timers: `now` is a parameter. `setInterval`, the startup sweep and the limiters' cleanup timers are modelled only by the sweep bodies (`RateLimit.Sweep`, `Duels.ExpireDuels`).
- Concurrency and row locks: every transaction is one atomic step. The compare-and-swap of duel accept is its guard. `POST /leitner/answer` (index.js:3054-3119) runs without `BEGIN`/`COMMIT`; `Leitner.Answer` still applies its writes together, so a request that fails halfway and leaves some of them behind is not modelled.
- Random sampling: the sampled question ids are an input (`Duels.CreateWithSample` and `Exams.Start` state which samples the query can return).
- Floating point: XP is kept in hundredths, so `numeric(10,2)` is exact. The exam's `correct / total >= 0.8` is compared as `5·correct ≥ 4·total`, which agrees with the double comparison for every total below 2^53/5. Accuracy percentages, `toFixed` and `masteryPercentage` are not modelled. `Leitner.CheckMilestone` takes the mastery percentage the client sends as a real number and compares it exactly.
- Postgres intervals: `interval 'N days'` is taken as N·86 400 000 ms. Daylight-saving changes do not apply, since the timestamps are UTC.
- `parseInt` precision: digit strings are read as unbounded integers. The loss of precision above 2^53 is not modelled.
- Parsing.GetCookie: returns the raw value. `decodeURIComponent` and its exception are not modelled.
- Language codes: `lang` is taken as already normalised. `parseLangCategory` is not part of this model, because its regular expression would need a model of its own.
- Duels.Create: the error tag is modelled, but the `available` count that the `not_enough_questions` reply also carries is not. An `opponent_id` naming no user makes the insert fail on the users foreign key (index.js:526); the model gives that request no reply (`Common.NoReply`) and leaves the store unchanged, but does not model the unhandled rejection itself.
- Duel history: `loadDuelStats` reads the finished duels newest first. The model takes that ordered list of outcomes as an input.
- Leaderboard.SortByScore: Postgres does not fix the order of equal scores. The model fixes one order (stable in user order) and states only the score order and the permutation.
- Leaderboard.WithSnapshot: the snapshot table is reduced to the newest row per (scope, period) key, which is the only row the handler reads.
- Streaks.IsoNumbering: `prevWeekKey` is proved to step back one week only from ISO year 1 on. Year 0 and earlier have no `YYYY` spelling.
- The daily-streak quirk is modelled as written, not corrected (`Streaks.DailyStreakFutureKey`): a ledger key after today ends the walk at once.
- Exams.Start: the source passes a negative count to `LIMIT`, and the database rejects it. The handler has no `try` around the query and there is no error middleware, so the request gets no reply. The model returns the `Common.NoReply` tag and writes nothing. How Express reports the rejected promise is not modelled.
- Leaderboard.Compute: `GET /leaderboards` has no `try` either. A negative or unreadable limit makes the `LIMIT` query fail, which leaves the request unanswered and is modelled as `Common.NoReply`.
- Exams.Submit: the submitted question ids are checked, as in the source, only against the session's pool, not against the questions the session was started with.
- Progress.TrainingAnswer: the training answer's writes to `user_question_stats`, `user_wrong_questions` and `user_later_questions` are not modelled, because no rule of this core reads those tables. The same holds for `Exams.Submit`'s writes to those three tables (index.js:3425-3455).
- Admin dashboard, settings, friends, contests, speedrun sessions, pool and question CRUD, JSON import and export: plain SQL pass-through.

## Findings

| source | as written | input that shows it | evidently intended | confidence | as-written member | corrected member |
|---|---|---|---|---|---|---|
| server-mvp/node-app/src/index.js:3198-3199 | `[25, 50, 75, 100].find(m => pct >= m)` takes the first milestone the mastery reaches, which is always 25 | mastery 30% and then 80%: the handler records 25 and then answers alreadyRecorded, so 50, 75 and 100 are never recorded | the highest milestone reached (75 for 80%) | not executed | Leitner.CheckMilestoneAsWritten | Leitner.CheckMilestone |
| server-mvp/node-app/src/index.js:2509-2513 | a `""` pair is read as an escaped quote even outside quotes, so the opening quote of an empty quoted field starts an escape | the line `""` parses as the one field `"` | the empty field, as in section 2 of RFC 4180 | not executed | Parsing.EmptyQuotedFieldGainsAQuote | Parsing.FixedCsvRoundTrip |

=== FILE: badges.dfy ===
/** Badge derivation (`computeBadges`), the duel statistics it draws on
    (`loadDuelStats`), and badge awarding (`awardBadges`) in index.js. */
module Badges {
  import opened Common
  import Duels

  /** The numbers `computeBadges` reads, one per query. */
  datatype Measures = Measures(correctTotal: int, dailyStreak: int, passedExams: int,
                               box5Items: int, perfectExams: int, duelsPlayed: int,
                               currentWinStreak: int, distinctOpponents: int)

  datatype Badge = Erste100 | Erste1000 | Konsequent | Marathon | Pruefungssicher
                 | LeitnerMeister | Perfektionist | Duellant | Unbesiegbar | Sozial

  /** The `badges.key` each badge is stored under. */
  function Key(b: Badge): string {
    match b
    case Erste100 => "erste_100"
    case Erste1000 => "erste_1000"
    case Konsequent => "konsequent"
    case Marathon => "marathon"
    case Pruefungssicher => "pruefungssicher"
    case LeitnerMeister => "leitner_meister"
    case Perfektionist => "perfektionist"
    case Duellant => "duellant"
    case Unbesiegbar => "unbesiegbar"
    case Sozial => "sozial"
  }

  /** The badges in the order `computeBadges` pushes them. */
  const BadgeOrder: seq<Badge> := [Erste100, Erste1000, Konsequent, Marathon, Pruefungssicher,
                                   LeitnerMeister, Perfektionist, Duellant, Unbesiegbar, Sozial]

  /** The rule table: a badge is earned once the measure it watches reaches
      its threshold. */
  function Threshold(b: Badge): int {
    match b
    case Erste100 => 100
    case Erste1000 => 1000
    case Konsequent => 7
    case Marathon => 30
    case Pruefungssicher => 3
    case LeitnerMeister => 50
    case Perfektionist => 1
    case Duellant => 10
    case Unbesiegbar => 5
    case Sozial => 5
  }

  function Measure(m: Measures, b: Badge): int {
    match b
    case Erste100 | Erste1000 => m.correctTotal
    case Konsequent | Marathon => m.dailyStreak
    case Pruefungssicher => m.passedExams
    case LeitnerMeister => m.box5Items
    case Perfektionist => m.perfectExams
    case Duellant => m.duelsPlayed
    case Unbesiegbar => m.currentWinStreak
    case Sozial => m.distinctOpponents
  }

  predicate Earns(m: Measures, b: Badge) {
    Measure(m, b) >= Threshold(b)
  }

  /** The badges of `BadgeOrder` from position `i` on that `m` earns, in order. */
  function EarnedFrom(m: Measures, i: nat): (r: seq<Badge>)
    requires i <= |BadgeOrder|
    ensures |r| <= |BadgeOrder| - i
    decreases |BadgeOrder| - i
  {
    if i == |BadgeOrder| then []
    else (if Earns(m, BadgeOrder[i]) then [BadgeOrder[i]] else []) + EarnedFrom(m, i + 1)
  }

  /** `computeBadges`: the ten threshold tests of the rule table, in push
      order. Stated: each badge is in the list exactly when its measure
      reaches its threshold, and no key is listed twice. */
  function ComputeBadges(m: Measures): (r: seq<Badge>)
    ensures Erste100 in r <==> m.correctTotal >= 100
    ensures Erste1000 in r <==> m.correctTotal >= 1000
    ensures Konsequent in r <==> m.dailyStreak >= 7
    ensures Marathon in r <==> m.dailyStreak >= 30
    ensures Pruefungssicher in r <==> m.passedExams >= 3
    ensures LeitnerMeister in r <==> m.box5Items >= 50
    ensures Perfektionist in r <==> m.perfectExams >= 1
    ensures Duellant in r <==> m.duelsPlayed >= 10
    ensures Unbesiegbar in r <==> m.currentWinStreak >= 5
    ensures Sozial in r <==> m.distinctOpponents >= 5
    ensures forall i, j | 0 <= i < j < |r| :: Key(r[i]) != Key(r[j])
    ensures forall b :: b in r <==> Earns(m, b)
  {
    OrderIsComplete(m);
    var r := EarnedFrom(m, 0);
    InOrderDistinct(m, 0);
    forall i, j | 0 <= i < j < |r| ensures Key(r[i]) != Key(r[j]) {
      KeyIsInjective(r[i], r[j]);
    }
    r
  }

  /** Every badge has a place in `BadgeOrder`, so the table misses none. */
  lemma OrderIsComplete(m: Measures)
    ensures forall b :: b in EarnedFrom(m, 0) <==> Earns(m, b)
  {
    forall b ensures b in EarnedFrom(m, 0) <==> Earns(m, b) {
      var i := match b
        case Erste100 => 0 case Erste1000 => 1 case Konsequent => 2 case Marathon => 3
        case Pruefungssicher => 4 case LeitnerMeister => 5 case Perfektionist => 6
        case Duellant => 7 case Unbesiegbar => 8 case Sozial => 9;
      assert BadgeOrder[i] == b;
      InEarnedFrom(m, 0, b, i);
    }
  }

  lemma {:induction false} InEarnedFrom(m: Measures, k: nat, b: Badge, i: nat)
    requires k <= i < |BadgeOrder| && BadgeOrder[i] == b
    requires forall j | 0 <= j < |BadgeOrder| && j != i :: BadgeOrder[j] != b
    ensures b in EarnedFrom(m, k) <==> Earns(m, b)
    decreases |BadgeOrder| - k
  {
    if k < i {
      InEarnedFrom(m, k + 1, b, i);
    } else {
      NotInEarnedFrom(m, k + 1, b);
    }
  }

  lemma {:induction false} NotInEarnedFrom(m: Measures, k: nat, b: Badge)
    requires k <= |BadgeOrder|
    requires forall j | k <= j < |BadgeOrder| :: BadgeOrder[j] != b
    ensures b !in EarnedFrom(m, k)
    decreases |BadgeOrder| - k
  {
    if k < |BadgeOrder| {
      NotInEarnedFrom(m, k + 1, b);
    }
  }

  /** The badge stored under a `badges.key`, if any. */
  function BadgeOfKey(key: string): Option<Badge> {
    if key == "erste_100" then Some(Erste100)
    else if key == "erste_1000" then Some(Erste1000)
    else if key == "konsequent" then Some(Konsequent)
    else if key == "marathon" then Some(Marathon)
    else if key == "pruefungssicher" then Some(Pruefungssicher)
    else if key == "leitner_meister" then Some(LeitnerMeister)
    else if key == "perfektionist" then Some(Perfektionist)
    else if key == "duellant" then Some(Duellant)
    else if key == "unbesiegbar" then Some(Unbesiegbar)
    else if key == "sozial" then Some(Sozial)
    else None
  }

  /** Reading a badge's key back gives the badge. */
  lemma KeyRoundTrip(b: Badge)
    ensures BadgeOfKey(Key(b)) == Some(b)
  {
  }

  /** No two badges share a key. */
  lemma KeyIsInjective(a: Badge, b: Badge)
    requires a != b
    ensures Key(a) != Key(b)
  {
    KeyRoundTrip(a);
    KeyRoundTrip(b);
  }

  /** `EarnedFrom` lists each badge once. */
  lemma {:induction false} InOrderDistinct(m: Measures, k: nat)
    requires k <= |BadgeOrder|
    ensures forall i, j | 0 <= i < j < |EarnedFrom(m, k)| :: EarnedFrom(m, k)[i] != EarnedFrom(m, k)[j]
    decreases |BadgeOrder| - k
  {
    if k < |BadgeOrder| {
      InOrderDistinct(m, k + 1);
      NotInEarnedFrom(m, k + 1, BadgeOrder[k]);
    }
  }

  /** Measures are "higher is better": raising any of them never costs a badge. */
  lemma BadgesMonotone(m: Measures, n: Measures)
    requires m.correctTotal <= n.correctTotal && m.dailyStreak <= n.dailyStreak
    requires m.passedExams <= n.passedExams && m.box5Items <= n.box5Items
    requires m.perfectExams <= n.perfectExams && m.duelsPlayed <= n.duelsPlayed
    requires m.currentWinStreak <= n.currentWinStreak && m.distinctOpponents <= n.distinctOpponents
    ensures forall b | b in ComputeBadges(m) :: b in ComputeBadges(n)
  {
    var rm, rn := ComputeBadges(m), ComputeBadges(n);
    forall b | b in rm ensures b in rn {
      MeasureMonotone(m, n, b);
    }
  }

  lemma MeasureMonotone(m: Measures, n: Measures, b: Badge)
    requires m.correctTotal <= n.correctTotal && m.dailyStreak <= n.dailyStreak
    requires m.passedExams <= n.passedExams && m.box5Items <= n.box5Items
    requires m.perfectExams <= n.perfectExams && m.duelsPlayed <= n.duelsPlayed
    requires m.currentWinStreak <= n.currentWinStreak && m.distinctOpponents <= n.distinctOpponents
    ensures Earns(m, b) ==> Earns(n, b)
  {
  }

  /** The stepped badges come in pairs: the higher one implies the lower. */
  lemma SteppedBadges(m: Measures)
    ensures Erste1000 in ComputeBadges(m) ==> Erste100 in ComputeBadges(m)
    ensures Marathon in ComputeBadges(m) ==> Konsequent in ComputeBadges(m)
  {
  }

  // ------------------------------------------------------------ exam counts

  /** The `exam_sessions` columns the badge queries look at. */
  datatype ExamRecord = ExamRecord(finished: bool, totalQuestions: int, correctAnswers: int)

  /** `correct_answers::float / total_questions >= 0.8`, as the exact rational
      comparison `5 * correct >= 4 * total`. */
  predicate Passed(e: ExamRecord) {
    e.finished && e.totalQuestions > 0 && 5 * e.correctAnswers >= 4 * e.totalQuestions
  }

  predicate Perfect(e: ExamRecord) {
    e.finished && e.totalQuestions > 0 && e.correctAnswers == e.totalQuestions
  }

  /** The test a `count(*) FILTER` of `loadExamStats` applies: perfect or passed. */
  function Counted(perfect: bool): ExamRecord -> bool {
    (e: ExamRecord) => if perfect then Perfect(e) else Passed(e)
  }

  /** The number of perfect (or passed) exams: exactly the positions whose
      exam meets the test. */
  function CountWhere(es: seq<ExamRecord>, perfect: bool): (n: nat)
    ensures n == |Matching(es, Counted(perfect))|
    ensures n <= |es|
  {
    if es == [] then 0
    else
      MatchingSnoc(es, Counted(perfect));
      CountWhere(es[..|es| - 1], perfect)
      + (if (if perfect then Perfect(es[|es| - 1]) else Passed(es[|es| - 1])) then 1 else 0)
  }

  /** A perfect exam is a passed one, so there are never more perfect exams
      than passed ones. */
  lemma {:induction false} PerfectExamsArePassed(es: seq<ExamRecord>)
    ensures CountWhere(es, true) <= CountWhere(es, false)
  {
    if es != [] {
      PerfectExamsArePassed(es[..|es| - 1]);
    }
  }

  // ------------------------------------------------------------ duel totals

  /** `wins`, `losses`, `draws` and `played` of `loadDuelStats`. */
  datatype DuelTotals = DuelTotals(wins: nat, losses: nat, draws: nat, played: nat)

  function RowsWith(results: map<Duels.PlayerKey, Duels.DuelResult>, u: UserId, flag: Option<bool>)
    : set<Duels.PlayerKey>
  {
    set k | k in results && k.user == u && results[k].isWinner == flag
  }

  function RowsOf(results: map<Duels.PlayerKey, Duels.DuelResult>, u: UserId): set<Duels.PlayerKey> {
    set k | k in results && k.user == u
  }

  /** The totals query over the player's `duel_results` rows: `is_winner`
      true, false or null. Every row is exactly one of the three. A null
      `is_winner` is counted as a draw, and so is the row of a player whose
      duel is not resolved yet, which has no flag either. A player with no
      rows gets 0 everywhere: the null sums are read with `|| 0`. */
  function Totals(results: map<Duels.PlayerKey, Duels.DuelResult>, u: UserId): (t: DuelTotals)
    ensures t.wins == |RowsWith(results, u, Some(true))|
    ensures t.losses == |RowsWith(results, u, Some(false))|
    ensures t.draws == |RowsWith(results, u, None)|
    ensures t.played == |RowsOf(results, u)|
    ensures t.wins + t.losses + t.draws == t.played
  {
    var w := RowsWith(results, u, Some(true));
    var l := RowsWith(results, u, Some(false));
    var d := RowsWith(results, u, None);
    RowsPartition(results, u);
    DuelTotals(|w|, |l|, |d|, |RowsOf(results, u)|)
  }

  lemma RowsPartition(results: map<Duels.PlayerKey, Duels.DuelResult>, u: UserId)
    ensures |RowsOf(results, u)|
            == |RowsWith(results, u, Some(true))| + |RowsWith(results, u, Some(false))|
               + |RowsWith(results, u, None)|
  {
    var w := RowsWith(results, u, Some(true));
    var l := RowsWith(results, u, Some(false));
    var d := RowsWith(results, u, None);
    forall k | k in RowsOf(results, u) ensures k in w + l + d {
      match results[k].isWinner
      case None =>
      case Some(b) =>
    }
    assert RowsOf(results, u) == w + l + d;
    assert w !! l && (w + l) !! d;
  }

  // ------------------------------------------------------------ win streaks

  /** A player's `is_winner` values over finished duels, newest first. */
  type History = seq<Option<bool>>

  /** The wins in a row starting at position `i`, going toward older duels. */
  function RunAt(h: History, i: nat): (n: nat)
    requires i <= |h|
    ensures i + n <= |h|
    decreases |h| - i
  {
    if i == |h| || h[i] != Some(true) then 0 else 1 + RunAt(h, i + 1)
  }

  predicate AllWins(h: History, i: nat, j: nat)
    requires i <= j <= |h|
  {
    forall k | i <= k < j :: h[k] == Some(true)
  }

  /** Positions `a` to `a + n` of the history are all wins. */
  predicate RunOfLength(h: History, a: nat, n: nat) {
    a + n <= |h| && AllWins(h, a, a + n)
  }

  /** The longest run of wins starting at or after position `i`. */
  function BestFrom(h: History, i: nat): nat
    requires i <= |h|
    decreases |h| - i
  {
    if i == |h| then 0 else Max(RunAt(h, i), BestFrom(h, i + 1))
  }

  /** `RunAt` counts the whole run: all those duels are wins and the next is not. */
  lemma {:induction false} RunAtIsRun(h: History, i: nat)
    requires i <= |h|
    ensures AllWins(h, i, i + RunAt(h, i))
    ensures i + RunAt(h, i) == |h| || h[i + RunAt(h, i)] != Some(true)
    decreases |h| - i
  {
    if i < |h| && h[i] == Some(true) {
      RunAtIsRun(h, i + 1);
    }
  }

  /** Any run of wins starting at `i` is at most `RunAt(h, i)` long. */
  lemma {:induction false} RunAtIsLongest(h: History, i: nat, j: nat)
    requires i <= j <= |h| && AllWins(h, i, j)
    ensures j - i <= RunAt(h, i)
    decreases |h| - i
  {
    if i < j {
      RunAtIsLongest(h, i + 1, j);
    }
  }

  /** `BestFrom` is the length of the longest run of wins: every run fits in
      it and some run is that long. */
  lemma {:induction false} BestIsLongestRun(h: History, i: nat)
    requires i <= |h|
    ensures forall a, b | i <= a <= b <= |h| && AllWins(h, a, b) :: b - a <= BestFrom(h, i)
    ensures exists a | i <= a <= |h| :: RunOfLength(h, a, BestFrom(h, i))
    decreases |h| - i
  {
    RunAtIsRun(h, i);
    if i == |h| {
      assert RunOfLength(h, i, BestFrom(h, i));
    } else {
      BestIsLongestRun(h, i + 1);
      forall a, b | i <= a <= b <= |h| && AllWins(h, a, b) ensures b - a <= BestFrom(h, i) {
        if a == i {
          RunAtIsLongest(h, i, b);
        }
      }
      if RunAt(h, i) < BestFrom(h, i + 1) {
        var a :| i + 1 <= a <= |h| && RunOfLength(h, a, BestFrom(h, i + 1));
        assert RunOfLength(h, a, BestFrom(h, i));
      } else {
        assert RunOfLength(h, i, BestFrom(h, i));
      }
    }
  }

  /** `currentWinStreak`: count the leading wins, stop at the first other result. */
  method CurrentWinStreak(h: History) returns (n: nat)
    ensures n <= |h| && AllWins(h, 0, n)
    ensures n == |h| || h[n] != Some(true)
  {
    n := 0;
    while n < |h| && h[n] == Some(true)
      invariant n <= |h| && AllWins(h, 0, n)
      decreases |h| - n
    {
      n := n + 1;
    }
  }

  /** `bestWinStreak`: walk the history from the oldest duel to the newest,
      keeping the current run and the best run seen. */
  method BestWinStreak(h: History) returns (best: nat)
    ensures forall a, b | 0 <= a <= b <= |h| && AllWins(h, a, b) :: b - a <= best
    ensures exists a | 0 <= a <= |h| :: RunOfLength(h, a, best)
  {
    best := 0;
    var running: nat := 0;
    var i := |h|;
    while i > 0
      invariant 0 <= i <= |h|
      invariant running == RunAt(h, i) && best == BestFrom(h, i)
      decreases i
    {
      i := i - 1;
      if h[i] == Some(true) {
        running := running + 1;
        if running > best {
          best := running;
        }
      } else {
        running := 0;
      }
    }
    BestIsLongestRun(h, 0);
  }

  /** The current streak is one of the runs, so it never beats the best one. */
  lemma CurrentAtMostBest(h: History, current: nat, best: nat)
    requires current <= |h| && AllWins(h, 0, current)
    requires forall a, b | 0 <= a <= b <= |h| && AllWins(h, a, b) :: b - a <= best
    ensures current <= best
  {
    assert AllWins(h, 0, current);
  }

  // ------------------------------------------------------------ awarding

  datatype Holding = Holding(user: UserId, badge: string)

  /** `user_badges`: the badges each player holds, with `earned_at`. */
  type Held = map<Holding, Millis>

  /** `awardBadges`: insert each given key the badge catalog knows, keeping
      badges already held (`ON CONFLICT DO NOTHING`); new rows are stamped
      `now`. An empty list issues no statement. */
  function AwardBadges(held: Held, catalog: set<string>, u: UserId, keys: seq<string>, now: Millis): (r: Held)
    ensures forall h :: h in r <==> h in held || (h.user == u && h.badge in keys && h.badge in catalog)
    ensures forall h | h in held :: r[h] == held[h]
    ensures forall h | h in r && h !in held :: r[h] == now
    ensures keys == [] ==> r == held
  {
    if keys == [] then held
    else
      var added := set b | b in keys && b in catalog && Holding(u, b) !in held :: Holding(u, b);
      map h | h in held.Keys + added :: if h in held then held[h] else now
  }

  /** Awarding the same keys again changes nothing, whenever it happens. */
  lemma AwardIsIdempotent(held: Held, catalog: set<string>, u: UserId, keys: seq<string>, now: Millis, later: Millis)
    ensures var once := AwardBadges(held, catalog, u, keys, now);
            AwardBadges(once, catalog, u, keys, later) == once
  {
  }
}

=== FILE: calendar.dfy ===
/** Calendar arithmetic behind the streak calculator and the weekly
    leaderboard window (index.js `weekKeyFromDate`, `isoWeekStart`,
    `prevWeekKey`). Dates are day numbers (0 is 1970-01-01, a Thursday) in the
    proleptic Gregorian calendar; the `Date` object's UTC getters become
    arithmetic on them. A week key `"YYYY-Www"` is represented by the number
    YYYY * 100 + ww, which orders like the string only for the years 1000 to
    9999, whose year part has exactly four digits. Week
    numbering follows ISO 8601:2004 section 4.1.4: weeks start on Monday and
    week 1 of a year is the week that holds its first Thursday. */
module Calendar {
  import opened Common

  // ------------------------------------------------------------ years

  /** Days from 0001-01-01 to January 1 of year `y`. */
  function DaysBeforeYear(y: int): int {
    var p := y - 1;
    365 * p + p / 4 - p / 100 + p / 400
  }

  /** Day number of January 1 of year `y` in the proleptic Gregorian
      calendar. For the years 100 and later this is `Date.UTC(y, 0, 1)` in
      days; `Date.UTC` reads the years 0 to 99 as 1900 to 1999, which this
      definition does not. */
  function YearStart(y: int): Day {
    DaysBeforeYear(y) - DaysBeforeYear(1970)
  }

  predicate IsLeap(y: int) {
    y % 4 == 0 && (y % 100 != 0 || y % 400 == 0)
  }

  /** Stepping a year number across a multiple of `k` bumps its quotient. */
  lemma DivStep4(y: int)
    ensures y / 4 - (y - 1) / 4 == if y % 4 == 0 then 1 else 0
  {
  }

  lemma DivStep100(y: int)
    ensures y / 100 - (y - 1) / 100 == if y % 100 == 0 then 1 else 0
  {
  }

  lemma DivStep400(y: int)
    ensures y / 400 - (y - 1) / 400 == if y % 400 == 0 then 1 else 0
  {
  }

  /** A year has 366 days when it is a leap year and 365 otherwise. */
  lemma YearLength(y: int)
    ensures YearStart(y + 1) - YearStart(y) == if IsLeap(y) then 366 else 365
  {
    DaysBeforeYearStep(y);
    LeapDivisibility(y);
  }

  lemma DaysBeforeYearStep(y: int)
    ensures DaysBeforeYear(y + 1) - DaysBeforeYear(y)
            == 365 + (if y % 4 == 0 then 1 else 0) - (if y % 100 == 0 then 1 else 0)
               + (if y % 400 == 0 then 1 else 0)
  {
    DivStep4(y);
    DivStep100(y);
    DivStep400(y);
  }

  /** Multiples of 400 are multiples of 100, which are multiples of 4. */
  lemma LeapDivisibility(y: int)
    ensures y % 100 == 0 ==> y % 4 == 0
    ensures y % 400 == 0 ==> y % 100 == 0
  {
  }

  lemma {:induction false} YearStartGrows(a: int, b: int)
    requires a <= b
    ensures YearStart(a) + 365 * (b - a) <= YearStart(b)
    decreases b - a
  {
    if a < b {
      YearStartGrows(a, b - 1);
      YearLength(b - 1);
    }
  }

  /** The year holding day `d`. */
  function YearOf(d: Day): (y: int)
    ensures YearStart(y) <= d < YearStart(y + 1)
  {
    if d >= YearStart(1970) then YearUp(1970, d) else YearDown(1969, d)
  }

  function YearUp(y: int, d: Day): (r: int)
    requires YearStart(y) <= d
    ensures YearStart(r) <= d < YearStart(r + 1)
    decreases d - YearStart(y)
  {
    YearLength(y);
    if d < YearStart(y + 1) then y else YearUp(y + 1, d)
  }

  function YearDown(y: int, d: Day): (r: int)
    requires d < YearStart(y + 1)
    ensures YearStart(r) <= d < YearStart(r + 1)
    decreases YearStart(y + 1) - d
  {
    YearLength(y);
    if YearStart(y) <= d then y else YearDown(y - 1, d)
  }

  /** A year is determined by any one of its days. */
  lemma YearOfUnique(d: Day, y: int)
    requires YearStart(y) <= d < YearStart(y + 1)
    ensures YearOf(d) == y
  {
    var z := YearOf(d);
    YearStartOrder(z, y + 1);
    YearStartOrder(y, z + 1);
  }

  /** Later years start later. */
  lemma YearStartOrder(a: int, b: int)
    ensures a < b <==> YearStart(a) < YearStart(b)
  {
    if a < b {
      YearStartGrows(a, b);
    } else {
      YearStartGrows(b, a);
    }
  }

  lemma YearOfMonotone(a: Day, b: Day)
    requires a <= b
    ensures YearOf(a) <= YearOf(b)
  {
    YearStartOrder(YearOf(a), YearOf(b) + 1);
  }

  // ------------------------------------------------------------ weekdays

  /** `getUTCDay()`: 0 for Sunday through 6 for Saturday. */
  function UtcDay(d: Day): int {
    (d + 4) % 7
  }

  /** `getUTCDay() || 7`: the ISO weekday, 1 for Monday through 7 for Sunday. */
  function IsoWeekday(d: Day): (w: int)
    ensures 1 <= w <= 7
    ensures w == (d + 3) % 7 + 1
  {
    if UtcDay(d) == 0 then 7 else UtcDay(d)
  }

  /** The Thursday of the Monday-to-Sunday week holding `d`. */
  function ThursdayOf(d: Day): (t: Day)
    ensures t % 7 == 0
    ensures d - 3 <= t <= d + 3
    ensures IsoWeekday(t) == 4
  {
    d + 4 - IsoWeekday(d)
  }

  /** Days of one Monday-to-Sunday week share their Thursday. */
  lemma ThursdayIsWeekInvariant(a: Day, b: Day)
    requires a % 7 == 4 && a <= b < a + 7
    ensures ThursdayOf(a) == ThursdayOf(b) == a + 3
  {
  }

  // ------------------------------------------------------------ week keys

  /** Encoding of `"${year}-W${week padded to two digits}"`. */
  function WeekCode(year: int, week: int): int {
    year * 100 + week
  }

  /** `weekStr.split('-W').map(Number)` for a code. */
  function CodeYear(code: int): int { code / 100 }
  function CodeWeek(code: int): int { code % 100 }

  lemma CodeRoundTrip(year: int, week: int)
    requires 0 <= week < 100
    ensures CodeYear(WeekCode(year, week)) == year && CodeWeek(WeekCode(year, week)) == week
  {
  }

  /** ISO week-numbering year of `d`: the calendar year of its Thursday. */
  function WeekYear(d: Day): int {
    YearOf(ThursdayOf(d))
  }

  /** `Math.ceil((daysSinceJan1 + 1) / 7)` for the Thursday of `d`. */
  function WeekNumber(d: Day): (w: int)
    ensures 1 <= w <= 53
  {
    var t := ThursdayOf(d);
    var k := t - YearStart(YearOf(t));
    YearLength(YearOf(t));
    (k + 1 + 6) / 7
  }

  /** `weekKeyFromDate`. */
  function WeekKey(d: Day): int {
    WeekCode(WeekYear(d), WeekNumber(d))
  }

  /** The key depends on the date only through its Thursday. */
  lemma WeekKeyViaThursday(d: Day)
    ensures WeekKey(d) == WeekKey(ThursdayOf(d))
  {
    assert ThursdayOf(ThursdayOf(d)) == ThursdayOf(d);
  }

  /** Week 1 of year `y` is the week holding January 4, hence the first
      Thursday of `y`. */
  lemma January4InWeekOne(y: int)
    ensures WeekYear(YearStart(y) + 3) == y && WeekNumber(YearStart(y) + 3) == 1
  {
    var t := ThursdayOf(YearStart(y) + 3);
    YearLength(y);
    YearOfUnique(t, y);
  }

  lemma KeyOrderAcrossYears(a: Day, b: Day)
    requires WeekYear(a) < WeekYear(b)
    ensures WeekKey(a) < WeekKey(b)
  {
    var ya, yb, wa, wb := WeekYear(a), WeekYear(b), WeekNumber(a), WeekNumber(b);
    assert WeekCode(ya, wa) < ya * 100 + 100 <= yb * 100 < WeekCode(yb, wb);
  }

  lemma WeekOfOffsetMonotone(ka: int, kb: int)
    ensures ka <= kb ==> (ka + 7) / 7 <= (kb + 7) / 7
    ensures ka + 7 <= kb ==> (ka + 7) / 7 < (kb + 7) / 7
  {
  }

  lemma MultiplesOfSevenApart(a: int, b: int)
    requires a % 7 == 0 && b % 7 == 0 && a < b
    ensures a + 7 <= b
  {
  }

  lemma KeyOrderWithinYear(a: Day, b: Day)
    requires WeekYear(a) == WeekYear(b)
    ensures ThursdayOf(a) <= ThursdayOf(b) ==> WeekNumber(a) <= WeekNumber(b)
    ensures ThursdayOf(a) < ThursdayOf(b) ==> WeekNumber(a) < WeekNumber(b)
  {
    var ta, tb := ThursdayOf(a), ThursdayOf(b);
    var j := YearStart(WeekYear(a));
    assert WeekNumber(a) == (ta - j + 7) / 7 && WeekNumber(b) == (tb - j + 7) / 7;
    WeekOfOffsetMonotone(ta - j, tb - j);
    if ta < tb {
      MultiplesOfSevenApart(ta, tb);
    }
  }

  /** Keys follow Thursdays: a later week never has a smaller key, and a
      different week always has a different key. */
  lemma WeekKeyOrder(a: Day, b: Day)
    ensures ThursdayOf(a) <= ThursdayOf(b) ==> WeekKey(a) <= WeekKey(b)
    ensures ThursdayOf(a) < ThursdayOf(b) ==> WeekKey(a) < WeekKey(b)
  {
    if ThursdayOf(a) <= ThursdayOf(b) {
      YearOfMonotone(ThursdayOf(a), ThursdayOf(b));
      if WeekYear(a) < WeekYear(b) {
        KeyOrderAcrossYears(a, b);
      } else {
        KeyOrderWithinYear(a, b);
      }
    }
  }

  /** Two dates share a key exactly when they share a Thursday. */
  lemma SameWeekKey(a: Day, b: Day)
    ensures WeekKey(a) == WeekKey(b) <==> ThursdayOf(a) == ThursdayOf(b)
  {
    WeekKeyOrder(a, b);
    WeekKeyOrder(b, a);
  }

  /** `isoWeekStart(year, week)`: the Monday of the week holding January 4,
      moved forward `week - 1` weeks. */
  function IsoWeekStart(year: int, week: int): Day {
    var jan4 := YearStart(year) + 3;
    var mondayWeek1 := jan4 - (IsoWeekday(jan4) - 1);
    mondayWeek1 + (week - 1) * 7
  }

  /** `prevWeekKey`: parse the key, step to the Monday a week before the start
      of that week, and take that Monday's key. A year or week of 0 (falsy
      after `Number`) gives `null`. */
  function PrevWeekKey(code: int): Option<int> {
    var y, w := CodeYear(code), CodeWeek(code);
    if y == 0 || w == 0 then None
    else Some(WeekKey(IsoWeekStart(y, w) - 7))
  }

  /** Two multiples of seven within one span of seven days coincide. */
  lemma SevenSpan(a: int, b: int, lo: int)
    requires a % 7 == 0 && b % 7 == 0
    requires lo <= a < lo + 7 && lo <= b < lo + 7
    ensures a == b
  {
  }

  /** Counting back whole weeks from a Thursday `t` on or after day `j`
      reaches the first Thursday on or after `j`. */
  lemma WholeWeeksBack(t: int, j: int)
    requires t % 7 == 0 && j <= t
    ensures j <= t - 7 * ((t - j) / 7) < j + 7
    ensures (t - 7 * ((t - j) / 7)) % 7 == 0
    ensures (t - j + 7) / 7 - 1 == (t - j) / 7
  {
  }

  /** The start of the week named by `WeekKey(d)` is the Monday of `d`'s week. */
  lemma IsoWeekStartOfKey(d: Day)
    ensures IsoWeekStart(WeekYear(d), WeekNumber(d)) == ThursdayOf(d) - 3
  {
    var t := ThursdayOf(d);
    var j := YearStart(WeekYear(d));
    var first := ThursdayOf(j + 3);
    var w := WeekNumber(d);
    assert w == (t - j + 7) / 7;
    IsoWeekStartViaThursday(WeekYear(d), w);
    var start := IsoWeekStart(WeekYear(d), w);
    assert start == first - 3 + (w - 1) * 7;
    WeeksFromFirstThursday(t, j, first, w);
    assert first + (w - 1) * 7 == t;
    assert start == t - 3;
  }

  /** Week `week` of `year` starts `week - 1` weeks after the Monday before
      the year's first Thursday. */
  lemma IsoWeekStartViaThursday(year: int, week: int)
    ensures IsoWeekStart(year, week) == ThursdayOf(YearStart(year) + 3) - 3 + (week - 1) * 7
  {
  }

  /** A Thursday `t` on or after day `j` lies a whole number of weeks after
      the first Thursday on or after `j`, namely `(t - j + 7) / 7 - 1` weeks. */
  lemma WeeksFromFirstThursday(t: int, j: int, first: int, w: int)
    requires t % 7 == 0 && first % 7 == 0
    requires j <= t && j <= first < j + 7
    requires w == (t - j + 7) / 7
    ensures first + (w - 1) * 7 == t
  {
    WholeWeeksBack(t, j);
    SevenSpan(first, t - 7 * ((t - j) / 7), j);
  }

  lemma ThursdayShift(d: Day)
    ensures ThursdayOf(d - 7) == ThursdayOf(d) - 7
    ensures ThursdayOf(ThursdayOf(d) - 10) == ThursdayOf(d) - 7
  {
  }

  /** Stepping back one key is stepping back seven days. */
  lemma PrevWeekKeyStep(d: Day)
    requires WeekYear(d) != 0
    ensures PrevWeekKey(WeekKey(d)) == Some(WeekKey(d - 7))
  {
    var y, w := WeekYear(d), WeekNumber(d);
    CodeRoundTrip(y, w);
    var code := WeekKey(d);
    assert CodeYear(code) == y && CodeWeek(code) == w;
    IsoWeekStartOfKey(d);
    var start := IsoWeekStart(y, w);
    assert PrevWeekKey(code) == Some(WeekKey(start - 7));
    ThursdayShift(d);
    SameWeekKey(start - 7, d - 7);
  }

  // ------------------------------------------------------------ week numbering

  /** Weeks counted from the week of 1970-01-01: the Thursday of `d` over seven. */
  function WeekIndex(d: Day): int {
    ThursdayOf(d) / 7
  }

  /** The key of the week with index `i`, whose Thursday is day `7 * i`. */
  function KeyOfWeek(i: int): int {
    WeekKey(7 * i)
  }

  /** The index of the first week of ISO year 1. */
  const FirstWeek: int := (YearStart(1) + 6) / 7

  lemma ThursdayOfThursday(i: int)
    ensures ThursdayOf(7 * i) == 7 * i
  {
  }

  /** The key of a day is the key of its week index. */
  lemma KeyOfWeekIndex(d: Day)
    ensures WeekKey(d) == KeyOfWeek(WeekIndex(d))
  {
    WeekKeyViaThursday(d);
    assert 7 * WeekIndex(d) == ThursdayOf(d);
  }

  /** Later weeks have larger keys. */
  lemma KeyOfWeekIncreasing(i: int, j: int)
    requires i < j
    ensures KeyOfWeek(i) < KeyOfWeek(j)
  {
    ThursdayOfThursday(i);
    ThursdayOfThursday(j);
    WeekKeyOrder(7 * i, 7 * j);
  }

  /** From ISO year 1 on, `prevWeekKey` of a week's key is the previous week's key. */
  lemma KeyOfWeekStep(i: int)
    requires i >= FirstWeek
    ensures PrevWeekKey(KeyOfWeek(i)) == Some(KeyOfWeek(i - 1))
  {
    WeekFromFirstIsDated(i);
    PrevWeekKeyStep(7 * i);
    assert 7 * i - 7 == 7 * (i - 1);
  }

  lemma WeekFromFirstIsDated(i: int)
    requires i >= FirstWeek
    ensures WeekYear(7 * i) >= 1
  {
    CeilSeven(YearStart(1), i);
    ThursdayOfThursday(i);
    YearOfFromYearOne(7 * i);
  }

  lemma CeilSeven(y: int, i: int)
    requires i >= (y + 6) / 7
    ensures 7 * i >= y
  {
  }

  /** Days from 0001-01-01 on lie in year 1 or later. */
  lemma YearOfFromYearOne(d: Day)
    requires d >= YearStart(1)
    ensures YearOf(d) >= 1
  {
    YearLength(1);
    YearOfUnique(YearStart(1), 1);
    YearOfMonotone(YearStart(1), d);
  }

  /** A day of ISO year 1 or later lies in a week from `FirstWeek` on. */
  lemma DatedWeekIndex(d: Day)
    requires WeekYear(d) >= 1
    ensures WeekIndex(d) >= FirstWeek
  {
    var th := ThursdayOf(d);
    YearStartGrows(1, YearOf(th));
    assert th >= YearStart(1);
    assert 7 * WeekIndex(d) == th;
  }

  /** 2021-01-01 (day 18628, a Friday) belongs to week 53 of 2020; 2021-01-04
      (a Monday) starts week 1 of 2021. */
  lemma WeekKeyExamples()
    ensures WeekKey(18628) == 202053
    ensures WeekKey(18631) == 202101
  {
    LastWeekOf2020();
    FirstWeekOf2021();
  }

  lemma LastWeekOf2020()
    ensures WeekKey(18628) == 202053
  {
    assert YearStart(2020) == 18262 && YearStart(2021) == 18628;
    YearOfUnique(18627, 2020);
  }

  lemma FirstWeekOf2021()
    ensures WeekKey(18631) == 202101
  {
    assert YearStart(2021) == 18628 && YearStart(2022) == 18993;
    YearOfUnique(18634, 2021);
  }
}

=== FILE: common.dfy ===
/** Shared vocabulary of the progression engine: identifiers, the optional and
    result wrappers, time units, and the exact-set answer rule that training,
    exams and duels all use. */
module Common {

  type UserId = int
  type PoolId = int
  type QuestionId = int
  type AnswerId = int

  /** A calendar day as a day number: 0 is 1970-01-01, 1 is 1970-01-02, ... */
  type Day = int

  /** Milliseconds since the epoch, as `Date.now()` returns. */
  type Millis = int

  const MsPerSecond: int := 1000
  const MsPerMinute: int := 60 * MsPerSecond
  const MsPerHour: int := 60 * MsPerMinute
  const MsPerDay: int := 24 * MsPerHour

  datatype Option<+T> = None | Some(value: T)

  /** The outcome of a request: a reply, or the error tag the handler answers with. */
  datatype Result<+T> = Ok(value: T) | Err(error: string)

  /** The tag of a request whose handler rejects without answering: a query
      fails outside any `try`, no error middleware is installed, and the
      client gets no reply at all. */
  const NoReply: string := "no_reply"

  function Min(a: int, b: int): int { if a <= b then a else b }
  function Max(a: int, b: int): int { if a <= b then b else a }

  /** `Math.max(lo, Math.min(hi, x))`. */
  function Clamp(x: int, lo: int, hi: int): (r: int)
    requires lo <= hi
    ensures lo <= r <= hi
    ensures lo <= x <= hi ==> r == x
    ensures x < lo ==> r == lo
    ensures hi < x ==> r == hi
  {
    Max(lo, Min(hi, x))
  }

  /** A question of the content store: its pool, its language tag and the ids
      of its answers flagged `is_correct`. */
  datatype Question = Question(pool: PoolId, lang: string, correct: set<AnswerId>)

  /** The read-only content the engine consults: existing pools and
      questions, and the registered users that foreign keys may refer to. */
  datatype Catalog = Catalog(pools: set<PoolId>, questions: map<QuestionId, Question>, users: set<UserId>)

  /** The questions a random sampling query draws from (duels, exams): the
      pool's, restricted to one language when a language is given. */
  function PoolQuestions(cat: Catalog, pool: PoolId, lang: string): set<QuestionId> {
    set q | q in cat.questions && cat.questions[q].pool == pool
                               && (lang == "" || cat.questions[q].lang == lang)
  }

  /** `SELECT id FROM answers WHERE question_id=$1 AND is_correct=true`; a
      question that no longer exists has no correct answers. */
  function CorrectAnswers(cat: Catalog, q: QuestionId): set<AnswerId> {
    if q in cat.questions then cat.questions[q].correct else {}
  }

  /** The answers a player selected, as the set the handlers build from the
      submitted array (`new Set(selected_answer_ids)`). */
  function Elements<T>(xs: seq<T>): set<T> {
    set x | x in xs
  }

  /** The correctness test shared by training, exams and duels: the sizes of
      the correct set and of the selected set agree and every correct answer
      is selected. Stated: it holds exactly when the selection, read as a set,
      is the correct set. */
  function IsCorrectSelection(correct: set<AnswerId>, selected: seq<AnswerId>): (r: bool)
    ensures r <==> Elements(selected) == correct
  {
    var sel := Elements(selected);
    if |correct| == |sel| && (forall c | c in correct :: c in sel) then
      SameSizeSubset(correct, sel);
      true
    else
      false
  }

  /** A subset as large as its superset is the superset. */
  lemma SameSizeSubset<T>(a: set<T>, b: set<T>)
    requires a <= b && |a| == |b|
    ensures a == b
  {
    if a != b {
      var extra :| extra in b && extra !in a;
      assert a <= b - {extra};
      SubsetCard(a, b - {extra});
    }
  }

  /** A non-empty set has a member (spelled out so that `:|` can pick one). */
  lemma NonEmptyHasElement(s: set<int>)
    requires s != {}
    ensures exists x :: x in s
  {
    if forall x :: x !in s {
      assert false;
    }
  }

  lemma SubsetCard<T>(a: set<T>, b: set<T>)
    requires a <= b
    ensures |a| <= |b|
  {
    assert b == a + (b - a);
  }

  /** The positions of `xs` whose element satisfies `p`; its size is what a
      filtered `count(*)` returns. */
  function Matching<T>(xs: seq<T>, p: T -> bool): set<int> {
    set i | 0 <= i < |xs| && p(xs[i])
  }

  /** One more element adds its position exactly when it satisfies `p`. */
  lemma MatchingSnoc<T>(xs: seq<T>, p: T -> bool)
    requires xs != []
    ensures |Matching(xs, p)| == |Matching(xs[..|xs| - 1], p)| + (if p(xs[|xs| - 1]) then 1 else 0)
  {
    var init := xs[..|xs| - 1];
    var last: set<int> := if p(xs[|xs| - 1]) then {|xs| - 1} else {};
    assert forall i | 0 <= i < |init| :: init[i] == xs[i];
    assert Matching(xs, p) == Matching(init, p) + last;
    assert |xs| - 1 !in Matching(init, p);
  }

  /** Order of the selection and repeated entries do not affect the verdict. */
  lemma CorrectnessIgnoresOrder(correct: set<AnswerId>, s1: seq<AnswerId>, s2: seq<AnswerId>)
    requires forall x :: x in s1 <==> x in s2
    ensures IsCorrectSelection(correct, s1) == IsCorrectSelection(correct, s2)
  {
    forall x
      ensures x in Elements(s1) <==> x in Elements(s2)
    {
      assert x in s1 <==> x in s2;
    }
    assert Elements(s1) == Elements(s2);
  }
}

=== FILE: duels.dfy ===
/** The duel state machine of index.js: `POST /duels` (create),
    `POST /duels/:id/accept`, `POST /duels/:id/answer` with its result rows and
    resolution, `DELETE /duels/:id`, `POST /duels/reset`, the answer filter of
    `GET /duels/:id`, and the `expireDuels` sweep. A duel moves
    waiting -> active -> finished, and waiting or active -> expired. Each
    handler is one atomic step on the store; an error leaves the store as it
    was. */
module Duels {
  import opened Common
  import Progress

  type DuelId = int

  datatype Status = Waiting | Active | Finished | Expired

  /** A `duels` row. `questionIds` is the frozen sample drawn at creation. */
  datatype Duel = Duel(challenger: UserId, opponent: Option<UserId>, pool: PoolId,
                       questionCount: int, questionIds: seq<QuestionId>, status: Status,
                       isOpen: bool, expiresAt: Millis, finishedAt: Option<Millis>)

  /** One `duel_answers` row, without its (duel, user) key. */
  datatype AnsweredQuestion = AnsweredQuestion(question: QuestionId, selected: seq<AnswerId>,
                                               correct: bool, timeMs: int)

  /** Key of the per-player tables: one duel, one player. */
  datatype PlayerKey = PlayerKey(duel: DuelId, user: UserId)

  /** A `duel_results` row. `isWinner` is `null` for a draw and before
      resolution; `xpEarned` is in hundredths, 0 until resolution. */
  datatype DuelResult = DuelResult(correctCount: int, totalTimeMs: int,
                                   isWinner: Option<bool>, xpEarned: nat)

  /** The duel tables plus the XP accounts that resolution and expiry credit.
      `answers` holds each player's answers of a duel in the order given. */
  datatype Store = Store(duels: map<DuelId, Duel>,
                         answers: map<PlayerKey, seq<AnsweredQuestion>>,
                         results: map<PlayerKey, DuelResult>,
                         accounts: Progress.Accounts)

  datatype Step<T> = Step(store: Store, reply: Result<T>)

  const MaxOpenDuels: nat := 10
  const DefaultQuestionCount: int := 5
  const MinQuestionCount: int := 3
  const MaxQuestionCount: int := 10
  const DuelLifetime: int := 48 * MsPerHour
  const MaxAnswerTime: int := 600000

  predicate IsOpen(d: Duel) {
    d.status == Waiting || d.status == Active
  }

  predicate IsParticipant(d: Duel, u: UserId) {
    d.challenger == u || d.opponent == Some(u)
  }

  // ------------------------------------------------------------ create

  /** The body of `POST /duels`. `questionCount` is the integer
      `parseInt` reads from `question_count`, `None` when it reads nothing;
      `lang` is already trimmed and lower-cased, "" for no filter. */
  datatype CreateRequest = CreateRequest(opponent: Option<UserId>, pool: Option<PoolId>,
                                         questionCount: Option<int>, isOpen: bool, lang: string)

  /** `Math.min(10, Math.max(3, parseInt(question_count || '5', 10) || 5))`:
      a missing, unreadable or zero count means 5, anything else is clamped
      to [3, 10]. */
  function QuestionCount(requested: Option<int>): (n: int)
    ensures MinQuestionCount <= n <= MaxQuestionCount
    ensures requested.None? || requested.value == 0 ==> n == DefaultQuestionCount
    ensures requested.Some? && MinQuestionCount <= requested.value <= MaxQuestionCount ==> n == requested.value
    ensures requested.Some? && requested.value != 0 && requested.value < MinQuestionCount ==> n == MinQuestionCount
    ensures requested.Some? && requested.value > MaxQuestionCount ==> n == MaxQuestionCount
  {
    var raw := if requested.None? || requested.value == 0 then DefaultQuestionCount else requested.value;
    Clamp(raw, MinQuestionCount, MaxQuestionCount)
  }

  /** Ids of the duels `u` challenged that are still waiting or active. */
  function OpenDuelsOf(duels: map<DuelId, Duel>, u: UserId): set<DuelId> {
    set id | id in duels && duels[id].challenger == u && IsOpen(duels[id])
  }

  /** What `ORDER BY random() LIMIT qc` can return: distinct candidates, as
      many as there are up to `qc`. */
  predicate IsSample(sample: seq<QuestionId>, candidates: set<QuestionId>, qc: int) {
    && (forall i, j | 0 <= i < j < |sample| :: sample[i] != sample[j])
    && (forall i | 0 <= i < |sample| :: sample[i] in candidates)
    && |sample| == Min(qc, |candidates|)
  }

  /** `POST /duels`. `sample` is the result of the random sampling query and
      `id` the fresh id the insert generates. The checks run in the order
      invalid, cannot_duel_self, pool_not_found, too_many_open_duels,
      not_enough_questions. The insert then fails on the users foreign key
      when the opponent is no registered user; nothing catches that error, so
      the request gets no reply and nothing is written. */
  function Create(s: Store, cat: Catalog, u: UserId, req: CreateRequest,
                  sample: seq<QuestionId>, id: DuelId, now: Millis): (r: Step<Duel>)
    requires id !in s.duels
    ensures r.reply.Err? ==> r.store == s
    ensures req.pool.None? ==> r.reply == Err("invalid")
    ensures req.pool.Some? && req.opponent == Some(u) ==> r.reply == Err("cannot_duel_self")
    ensures req.pool.Some? && req.opponent != Some(u) && req.pool.value !in cat.pools ==>
              r.reply == Err("pool_not_found")
    ensures (req.pool.Some? && req.opponent != Some(u) && req.pool.value in cat.pools
             && |OpenDuelsOf(s.duels, u)| >= MaxOpenDuels) ==> r.reply == Err("too_many_open_duels")
    ensures (req.pool.Some? && req.opponent != Some(u) && req.pool.value in cat.pools
             && |OpenDuelsOf(s.duels, u)| < MaxOpenDuels && |sample| < QuestionCount(req.questionCount))
            ==> r.reply == Err("not_enough_questions")
    ensures (req.pool.Some? && req.opponent != Some(u) && req.pool.value in cat.pools
             && |OpenDuelsOf(s.duels, u)| < MaxOpenDuels && |sample| >= QuestionCount(req.questionCount)
             && req.opponent.Some? && req.opponent.value !in cat.users)
            ==> r.reply == Err(NoReply)
    ensures r.reply.Ok? <==>
              && req.pool.Some? && req.opponent != Some(u) && req.pool.value in cat.pools
              && |OpenDuelsOf(s.duels, u)| < MaxOpenDuels
              && |sample| >= QuestionCount(req.questionCount)
              && (req.opponent.None? || req.opponent.value in cat.users)
    ensures r.reply.Ok? ==>
              && r.reply.value == Duel(u, req.opponent, req.pool.value, QuestionCount(req.questionCount),
                                       sample, Waiting, req.isOpen, now + DuelLifetime, None)
              && r.store == s.(duels := s.duels[id := r.reply.value])
  {
    if req.pool.None? then Step(s, Err("invalid"))
    else if req.opponent.Some? && req.opponent.value == u then Step(s, Err("cannot_duel_self"))
    else if req.pool.value !in cat.pools then Step(s, Err("pool_not_found"))
    else if |OpenDuelsOf(s.duels, u)| >= MaxOpenDuels then Step(s, Err("too_many_open_duels"))
    else
      var qc := QuestionCount(req.questionCount);
      if |sample| < qc then Step(s, Err("not_enough_questions"))
      else if req.opponent.Some? && req.opponent.value !in cat.users then Step(s, Err(NoReply))
      else
        var d := Duel(u, req.opponent, req.pool.value, qc, sample, Waiting, req.isOpen,
                      now + DuelLifetime, None);
        Step(s.(duels := s.duels[id := d]), Ok(d))
  }

  /** With a sample the query can return, creation runs out of questions
      exactly when the pool (in that language) has fewer than the clamped
      count, and a created duel asks distinct questions of its pool. */
  lemma CreateWithSample(s: Store, cat: Catalog, u: UserId, req: CreateRequest,
                         sample: seq<QuestionId>, id: DuelId, now: Millis)
    requires id !in s.duels && req.pool.Some?
    requires IsSample(sample, PoolQuestions(cat, req.pool.value, req.lang), QuestionCount(req.questionCount))
    ensures var r := Create(s, cat, u, req, sample, id, now);
            r.reply == Err("not_enough_questions") <==>
              && req.opponent != Some(u) && req.pool.value in cat.pools
              && |OpenDuelsOf(s.duels, u)| < MaxOpenDuels
              && |PoolQuestions(cat, req.pool.value, req.lang)| < QuestionCount(req.questionCount)
    ensures var r := Create(s, cat, u, req, sample, id, now);
            r.reply.Ok? ==>
              && |r.reply.value.questionIds| == r.reply.value.questionCount
              && forall i | 0 <= i < |r.reply.value.questionIds| ::
                   r.reply.value.questionIds[i] in cat.questions
                   && cat.questions[r.reply.value.questionIds[i]].pool == req.pool.value
  {
  }

  /** Adding a duel changes the open duels of its challenger by at most that duel. */
  lemma OpenDuelsAfterInsert(duels: map<DuelId, Duel>, id: DuelId, d: Duel, u: UserId)
    requires id !in duels
    ensures OpenDuelsOf(duels[id := d], u)
            == OpenDuelsOf(duels, u) + (if d.challenger == u && IsOpen(d) then {id} else {})
  {
  }

  /** Creation never takes a player past ten open duels. */
  lemma CreateKeepsCap(s: Store, cat: Catalog, u: UserId, req: CreateRequest,
                       sample: seq<QuestionId>, id: DuelId, now: Millis)
    requires id !in s.duels
    requires |OpenDuelsOf(s.duels, u)| <= MaxOpenDuels
    ensures |OpenDuelsOf(Create(s, cat, u, req, sample, id, now).store.duels, u)| <= MaxOpenDuels
  {
    var r := Create(s, cat, u, req, sample, id, now);
    if r.reply.Ok? {
      OpenDuelsAfterInsert(s.duels, id, r.reply.value, u);
    }
  }

  // ------------------------------------------------------------ accept

  /** The guard of the atomic `UPDATE ... WHERE` that accepts a duel. */
  predicate CanAccept(d: Duel, u: UserId) {
    d.status == Waiting && d.challenger != u && (d.opponent.None? || d.opponent == Some(u))
  }

  /** `POST /duels/:id/accept`: one compare-and-swap update that fills in the
      opponent and activates the duel; when it matches no row the error is
      chosen in the order not_found, cannot_accept_own, not_waiting,
      forbidden. */
  function Accept(s: Store, id: DuelId, u: UserId): (r: Step<bool>)
    ensures r.reply.Ok? <==> id in s.duels && CanAccept(s.duels[id], u)
    ensures r.reply.Err? ==> r.store == s
    ensures r.reply.Ok? ==>
              r.store == s.(duels := s.duels[id := s.duels[id].(opponent := Some(u), status := Active)])
    ensures id !in s.duels ==> r.reply == Err("not_found")
    ensures id in s.duels && s.duels[id].challenger == u ==> r.reply == Err("cannot_accept_own")
    ensures id in s.duels && s.duels[id].challenger != u && s.duels[id].status != Waiting ==>
              r.reply == Err("not_waiting")
    ensures id in s.duels && s.duels[id].challenger != u && s.duels[id].status == Waiting
            && s.duels[id].opponent.Some? && s.duels[id].opponent != Some(u) ==>
              r.reply == Err("forbidden")
  {
    if id in s.duels && CanAccept(s.duels[id], u) then
      var d := s.duels[id];
      Step(s.(duels := s.duels[id := d.(opponent := Some(u), status := Active)]), Ok(true))
    else if id !in s.duels then Step(s, Err("not_found"))
    else if s.duels[id].challenger == u then Step(s, Err("cannot_accept_own"))
    else if s.duels[id].status != Waiting then Step(s, Err("not_waiting"))
    else Step(s, Err("forbidden"))
  }

  /** Of two players racing to accept the same duel, at most one gets it. */
  lemma AcceptIsExclusive(s: Store, id: DuelId, u1: UserId, u2: UserId)
    requires u1 != u2
    ensures var r1 := Accept(s, id, u1);
            r1.reply.Ok? ==> Accept(r1.store, id, u2).reply.Err?
  {
  }

  // ------------------------------------------------------------ answer

  /** Outcome of a resolved duel, seen from the challenger's row `a` and the
      opponent's row `b`. */
  datatype Outcome = ChallengerWins | OpponentWins | Draw

  /** Reference order: more correct answers beat fewer, and on equal counts
      the smaller total time wins. */
  predicate Beats(x: DuelResult, y: DuelResult) {
    x.correctCount > y.correctCount
    || (x.correctCount == y.correctCount && x.totalTimeMs < y.totalTimeMs)
  }

  /** The winner rule of the answer handler; a missing row means a draw. */
  function Decide(a: Option<DuelResult>, b: Option<DuelResult>): (o: Outcome)
    ensures o == ChallengerWins <==> a.Some? && b.Some? && Beats(a.value, b.value)
    ensures o == OpponentWins <==> a.Some? && b.Some? && Beats(b.value, a.value)
    ensures o == Draw <==>
              a.None? || b.None?
              || (a.value.correctCount == b.value.correctCount && a.value.totalTimeMs == b.value.totalTimeMs)
  {
    if a.None? || b.None? then Draw
    else if a.value.correctCount > b.value.correctCount then ChallengerWins
    else if b.value.correctCount > a.value.correctCount then OpponentWins
    else if a.value.totalTimeMs < b.value.totalTimeMs then ChallengerWins
    else if b.value.totalTimeMs < a.value.totalTimeMs then OpponentWins
    else Draw
  }

  function Mirror(o: Outcome): Outcome {
    match o
    case ChallengerWins => OpponentWins
    case OpponentWins => ChallengerWins
    case Draw => Draw
  }

  /** The rule does not favour a side: swapping the rows swaps the winner. */
  lemma DecideIsFair(a: Option<DuelResult>, b: Option<DuelResult>)
    ensures Decide(b, a) == Mirror(Decide(a, b))
  {
  }

  /** `is_winner` of the challenger (`challengerSide`) or of the opponent. */
  function WinFlag(o: Outcome, challengerSide: bool): Option<bool> {
    if o == Draw then None
    else Some((o == ChallengerWins) == challengerSide)
  }

  /** `DUEL_XP` for a side: 20 for a win, 5 for a loss, 10 for a draw. */
  function XpFor(flag: Option<bool>): nat {
    match flag
    case Some(true) => Progress.DuelWinXp
    case Some(false) => Progress.DuelLossXp
    case None => Progress.DuelDrawXp
  }

  /** A draw pays 10 to each side; otherwise exactly one side is the winner
      and gets 20 while the other gets 5. */
  lemma OutcomeFlags(o: Outcome)
    ensures o == Draw ==> WinFlag(o, true) == WinFlag(o, false) == None
                          && XpFor(WinFlag(o, true)) == XpFor(WinFlag(o, false)) == Progress.DuelDrawXp
    ensures o != Draw ==> {WinFlag(o, true), WinFlag(o, false)} == {Some(true), Some(false)}
                          && XpFor(WinFlag(o, true)) + XpFor(WinFlag(o, false))
                             == Progress.DuelWinXp + Progress.DuelLossXp
  {
  }

  function Answers(s: Store, k: PlayerKey): seq<AnsweredQuestion> {
    if k in s.answers then s.answers[k] else []
  }

  function Lookup(results: map<PlayerKey, DuelResult>, k: PlayerKey): Option<DuelResult> {
    if k in results then Some(results[k]) else None
  }

  /** `sum(CASE WHEN is_correct THEN 1 ELSE 0 END)` over one player's answers. */
  function CorrectCount(xs: seq<AnsweredQuestion>): (n: nat)
    ensures n <= |xs|
  {
    if xs == [] then 0 else CorrectCount(xs[..|xs| - 1]) + (if xs[|xs| - 1].correct then 1 else 0)
  }

  /** `sum(time_ms)` over one player's answers. */
  function TotalTime(xs: seq<AnsweredQuestion>): int {
    if xs == [] then 0 else TotalTime(xs[..|xs| - 1]) + xs[|xs| - 1].timeMs
  }

  predicate Answered(xs: seq<AnsweredQuestion>, q: QuestionId) {
    exists i | 0 <= i < |xs| :: xs[i].question == q
  }

  /** `Math.max(0, Math.min(600000, parseInt(time_ms || '0', 10) || 0))`. */
  function AnswerTime(requested: Option<int>): (t: int)
    ensures 0 <= t <= MaxAnswerTime
    ensures requested.Some? && 0 <= requested.value <= MaxAnswerTime ==> t == requested.value
    ensures requested.None? || requested.value <= 0 ==> t == 0
    ensures requested.Some? && requested.value > MaxAnswerTime ==> t == MaxAnswerTime
  {
    Clamp(if requested.None? then 0 else requested.value, 0, MaxAnswerTime)
  }

  /** The players of duel `id` that have a result row. */
  function ResultUsers(results: map<PlayerKey, DuelResult>, id: DuelId): set<PlayerKey> {
    set k | k in results && k.duel == id
  }

  /** `UPDATE duel_results SET is_winner, xp_earned WHERE ...`: a no-op when
      the row is missing. */
  function SetOutcome(results: map<PlayerKey, DuelResult>, k: PlayerKey, flag: Option<bool>, xp: nat)
    : (r: map<PlayerKey, DuelResult>)
    ensures r.Keys == results.Keys
    ensures forall j | j in results ::
              r[j] == if j == k then results[j].(isWinner := flag, xpEarned := xp) else results[j]
  {
    if k in results then results[k := results[k].(isWinner := flag, xpEarned := xp)] else results
  }

  /** Resolution of a duel with an opponent: decide, stamp both result rows,
      credit both players, and finish the duel. */
  function Resolve(s: Store, id: DuelId, now: Millis): (r: Store)
    requires id in s.duels && s.duels[id].opponent.Some?
    ensures r.duels == s.duels[id := s.duels[id].(status := Finished, finishedAt := Some(now))]
    ensures r.answers == s.answers
    ensures r.results.Keys == s.results.Keys
    ensures forall k | k in s.results ::
              r.results[k].correctCount == s.results[k].correctCount
              && r.results[k].totalTimeMs == s.results[k].totalTimeMs
    ensures var d := s.duels[id];
            var ka, kb := PlayerKey(id, d.challenger), PlayerKey(id, d.opponent.value);
            var o := Decide(Lookup(s.results, ka), Lookup(s.results, kb));
            forall k | k in s.results ::
              r.results[k] == if k == kb then s.results[k].(isWinner := WinFlag(o, false), xpEarned := XpFor(WinFlag(o, false)))
                              else if k == ka then s.results[k].(isWinner := WinFlag(o, true), xpEarned := XpFor(WinFlag(o, true)))
                              else s.results[k]
    ensures var d := s.duels[id];
            var o := Decide(Lookup(s.results, PlayerKey(id, d.challenger)), Lookup(s.results, PlayerKey(id, d.opponent.value)));
            forall v :: Progress.XpOf(r.accounts, v)
                        == Progress.XpOf(s.accounts, v)
                           + (if v == d.challenger then XpFor(WinFlag(o, true)) else 0)
                           + (if v == d.opponent.value then XpFor(WinFlag(o, false)) else 0)
    ensures var d := s.duels[id];
            var o := Decide(Lookup(s.results, PlayerKey(id, d.challenger)), Lookup(s.results, PlayerKey(id, d.opponent.value)));
            r.accounts == CreditPair(s.accounts, d.challenger, XpFor(WinFlag(o, true)),
                                     d.opponent.value, XpFor(WinFlag(o, false)), now)
    ensures Progress.LevelsConsistent(s.accounts) ==> Progress.LevelsConsistent(r.accounts)
  {
    var d := s.duels[id];
    var ka, kb := PlayerKey(id, d.challenger), PlayerKey(id, d.opponent.value);
    var o := Decide(Lookup(s.results, ka), Lookup(s.results, kb));
    var fa, fb := WinFlag(o, true), WinFlag(o, false);
    var results := SetOutcome(SetOutcome(s.results, ka, fa, XpFor(fa)), kb, fb, XpFor(fb));
    s.(duels := s.duels[id := d.(status := Finished, finishedAt := Some(now))],
       results := results, accounts := CreditPair(s.accounts, d.challenger, XpFor(fa), d.opponent.value, XpFor(fb), now))
  }

  /** Two `updateGamification` calls in a row, `a` first: each credited
      player gains their XP with a fresh level and award time, and every
      other account row stays as it is. */
  function CreditPair(acc: Progress.Accounts, a: UserId, xa: nat, b: UserId, xb: nat, now: Millis)
    : (r: Progress.Accounts)
    ensures forall v :: Progress.XpOf(r, v)
                        == Progress.XpOf(acc, v) + (if v == a then xa else 0) + (if v == b then xb else 0)
    ensures Progress.LevelsConsistent(acc) ==> Progress.LevelsConsistent(r)
    ensures forall v | v in acc && v != a && v != b :: v in r && r[v] == acc[v]
    ensures a in r && b in r && r[a].lastAwardedAt == Some(now) && r[b].lastAwardedAt == Some(now)
    ensures r[a].level == Progress.CalcLevel(r[a].xp) && r[b].level == Progress.CalcLevel(r[b].xp)
  {
    var acc1 := Progress.UpdateGamification(acc, a, xa, now).accounts;
    Progress.UpdateGamification(acc1, b, xb, now).accounts
  }

  datatype AnswerReply = AnswerReply(correct: bool, answered: nat)

  /** Bookkeeping of an accepted answer `x` by player `k` of duel `d`: append
      it, and once the player has answered the duel's question count insert
      the player's result row unless one exists (`ON CONFLICT DO NOTHING`). */
  function Record(s: Store, d: Duel, k: PlayerKey, x: AnsweredQuestion): (r: Store)
    ensures r.duels == s.duels && r.accounts == s.accounts
    ensures r.answers == s.answers[k := Answers(s, k) + [x]]
    ensures r.results.Keys
            == s.results.Keys + (if |Answers(s, k)| + 1 >= d.questionCount then {k} else {})
    ensures forall j | j in s.results :: r.results[j] == s.results[j]
    ensures k !in s.results && k in r.results ==>
              r.results[k] == DuelResult(CorrectCount(r.answers[k]), TotalTime(r.answers[k]), None, 0)
  {
    var mine := Answers(s, k) + [x];
    var results := if |mine| >= d.questionCount && k !in s.results
                   then s.results[k := DuelResult(CorrectCount(mine), TotalTime(mine), None, 0)]
                   else s.results;
    s.(answers := s.answers[k := mine], results := results)
  }

  /** Why `POST /duels/:id/answer` turns a request away, in the handler's
      order; `None` when it goes through. */
  function AnswerRejection(s: Store, id: DuelId, u: UserId, question: Option<QuestionId>,
                           selected: Option<seq<AnswerId>>): (e: Option<string>)
    ensures e.None? ==>
              && question.Some? && selected.Some? && id in s.duels
              && IsOpen(s.duels[id]) && IsParticipant(s.duels[id], u)
              && !(s.duels[id].status == Waiting && s.duels[id].opponent == Some(u))
              && question.value in s.duels[id].questionIds
              && !Answered(Answers(s, PlayerKey(id, u)), question.value)
    ensures e.Some? ==>
              || question.None? || selected.None? || id !in s.duels
              || !IsOpen(s.duels[id]) || !IsParticipant(s.duels[id], u)
              || (s.duels[id].status == Waiting && s.duels[id].opponent == Some(u))
              || question.value !in s.duels[id].questionIds
              || Answered(Answers(s, PlayerKey(id, u)), question.value)
  {
    if question.None? || selected.None? then Some("invalid")
    else if id !in s.duels then Some("not_found")
    else
      var d := s.duels[id];
      if d.status == Expired then Some("expired")
      else if d.status == Finished then Some("finished")
      else if !IsParticipant(d, u) then Some("forbidden")
      else if d.status == Waiting && d.opponent == Some(u) then Some("not_active")
      else if question.value !in d.questionIds then Some("invalid_question")
      else if Answered(Answers(s, PlayerKey(id, u)), question.value) then Some("already_answered")
      else None
  }

  /** `POST /duels/:id/answer`: reject (see `AnswerRejection`), else grade the
      answer by exact-set match, clamp its time, append it, write the
      player's result row once all questions are answered (never
      overwriting one), and resolve the duel once it has an opponent and two
      result rows. */
  function Answer(s: Store, cat: Catalog, id: DuelId, u: UserId, question: Option<QuestionId>,
                  selected: Option<seq<AnswerId>>, timeMs: Option<int>, now: Millis): (r: Step<AnswerReply>)
    ensures r.reply.Err? <==> AnswerRejection(s, id, u, question, selected).Some?
    ensures r.reply.Err? ==> r.store == s && r.reply.error == AnswerRejection(s, id, u, question, selected).value
    ensures r.reply.Ok? ==>
              var k := PlayerKey(id, u);
              var x := AnsweredQuestion(question.value, selected.value,
                                        Elements(selected.value) == CorrectAnswers(cat, question.value),
                                        AnswerTime(timeMs));
              && r.reply.value == AnswerReply(x.correct, |Answers(s, k)| + 1)
              && r.store.answers == s.answers[k := Answers(s, k) + [x]]
  {
    var e := AnswerRejection(s, id, u, question, selected);
    if e.Some? then Step(s, Err(e.value))
    else
      var d := s.duels[id];
      var k := PlayerKey(id, u);
      var ok := IsCorrectSelection(CorrectAnswers(cat, question.value), selected.value);
      var s1 := Record(s, d, k, AnsweredQuestion(question.value, selected.value, ok, AnswerTime(timeMs)));
      var s2 := if d.opponent.Some? && |ResultUsers(s1.results, id)| >= 2 then Resolve(s1, id, now) else s1;
      Step(s2, Ok(AnswerReply(ok, |Answers(s, k)| + 1)))
  }

  /** A result row, once written, keeps its correct count and time: later
      answers neither rewrite nor remove it. */
  lemma ResultsAreNeverOverwritten(s: Store, cat: Catalog, id: DuelId, u: UserId, question: Option<QuestionId>,
                                   selected: Option<seq<AnswerId>>, timeMs: Option<int>, now: Millis,
                                   k: PlayerKey)
    requires k in s.results
    ensures var r := Answer(s, cat, id, u, question, selected, timeMs, now);
            k in r.store.results
            && r.store.results[k].correctCount == s.results[k].correctCount
            && r.store.results[k].totalTimeMs == s.results[k].totalTimeMs
  {
  }

  /** The player's result row appears on the answer that completes the
      duel's question count, with the count of correct answers and the total
      time of all of them. */
  lemma ResultOnLastAnswer(s: Store, cat: Catalog, id: DuelId, u: UserId, question: Option<QuestionId>,
                           selected: Option<seq<AnswerId>>, timeMs: Option<int>, now: Millis)
    requires AnswerRejection(s, id, u, question, selected).None?
    requires PlayerKey(id, u) !in s.results
    ensures var r := Answer(s, cat, id, u, question, selected, timeMs, now);
            var k := PlayerKey(id, u);
            var mine := r.store.answers[k];
            (k in r.store.results <==> |mine| >= s.duels[id].questionCount)
            && (k in r.store.results ==>
                  r.store.results[k].correctCount == CorrectCount(mine)
                  && r.store.results[k].totalTimeMs == TotalTime(mine))
  {
  }

  /** An accepted answer finishes the duel exactly when the duel has an
      opponent and, after the answer, two result rows. */
  lemma AnswerFinishesDuel(s: Store, cat: Catalog, id: DuelId, u: UserId, question: Option<QuestionId>,
                           selected: Option<seq<AnswerId>>, timeMs: Option<int>, now: Millis)
    requires AnswerRejection(s, id, u, question, selected).None?
    ensures var r := Answer(s, cat, id, u, question, selected, timeMs, now);
            id in r.store.duels
            && (r.store.duels[id].status == Finished
                <==> s.duels[id].opponent.Some? && |ResultUsers(r.store.results, id)| >= 2)
  {
  }

  /** An accepted answer that does not finish the duel touches neither the
      accounts nor the duels, and leaves every existing result row as it
      was. */
  lemma AnswerWithoutFinishing(s: Store, cat: Catalog, id: DuelId, u: UserId, question: Option<QuestionId>,
                               selected: Option<seq<AnswerId>>, timeMs: Option<int>, now: Millis)
    requires AnswerRejection(s, id, u, question, selected).None?
    ensures var r := Answer(s, cat, id, u, question, selected, timeMs, now);
            !(s.duels[id].opponent.Some? && |ResultUsers(r.store.results, id)| >= 2) ==>
              && r.store.accounts == s.accounts && r.store.duels == s.duels
              && forall j | j in s.results :: j in r.store.results && r.store.results[j] == s.results[j]
  {
    var d := s.duels[id];
    var ok := IsCorrectSelection(CorrectAnswers(cat, question.value), selected.value);
    var s1 := Record(s, d, PlayerKey(id, u), AnsweredQuestion(question.value, selected.value, ok, AnswerTime(timeMs)));
    if !(d.opponent.Some? && |ResultUsers(s1.results, id)| >= 2) {
      assert Answer(s, cat, id, u, question, selected, timeMs, now).store == s1;
    }
  }

  /** `Decide` reads only the correct counts and times of the two rows, so
      stamping the outcome on them does not change it. */
  lemma DecideIgnoresOutcome(a: Option<DuelResult>, b: Option<DuelResult>,
                             a': Option<DuelResult>, b': Option<DuelResult>)
    requires a.Some? <==> a'.Some?
    requires b.Some? <==> b'.Some?
    requires a.Some? ==> a'.value.correctCount == a.value.correctCount && a'.value.totalTimeMs == a.value.totalTimeMs
    requires b.Some? ==> b'.value.correctCount == b.value.correctCount && b'.value.totalTimeMs == b.value.totalTimeMs
    ensures Decide(a', b') == Decide(a, b)
  {
  }

  /** Resolution's credits, read off the stamped rows it leaves behind. */
  lemma ResolvedRowsDecide(s: Store, id: DuelId, now: Millis, v: UserId)
    requires id in s.duels && s.duels[id].opponent.Some?
    ensures var r := Resolve(s, id, now);
            var d := s.duels[id];
            var o := Decide(Lookup(r.results, PlayerKey(id, d.challenger)),
                            Lookup(r.results, PlayerKey(id, d.opponent.value)));
            && Progress.XpOf(r.accounts, v)
               == Progress.XpOf(s.accounts, v)
                  + (if v == d.challenger then XpFor(WinFlag(o, true)) else 0)
                  + (if v == d.opponent.value then XpFor(WinFlag(o, false)) else 0)
            && (v in s.accounts && !IsParticipant(d, v) ==> v in r.accounts && r.accounts[v] == s.accounts[v])
  {
    var r := Resolve(s, id, now);
    var d := s.duels[id];
    var ka, kb := PlayerKey(id, d.challenger), PlayerKey(id, d.opponent.value);
    DecideIgnoresOutcome(Lookup(s.results, ka), Lookup(s.results, kb), Lookup(r.results, ka), Lookup(r.results, kb));
  }

  /** The answer that finishes a duel credits each player with the XP of
      their side of the outcome decided over the two result rows, and
      leaves every other account as it was. */
  lemma AnswerFinishingCredits(s: Store, cat: Catalog, id: DuelId, u: UserId, question: Option<QuestionId>,
                               selected: Option<seq<AnswerId>>, timeMs: Option<int>, now: Millis, v: UserId)
    requires AnswerRejection(s, id, u, question, selected).None?
    ensures var r := Answer(s, cat, id, u, question, selected, timeMs, now);
            var d := s.duels[id];
            d.opponent.Some? && |ResultUsers(r.store.results, id)| >= 2 ==>
              var o := Decide(Lookup(r.store.results, PlayerKey(id, d.challenger)),
                              Lookup(r.store.results, PlayerKey(id, d.opponent.value)));
              && r.store.duels[id].status == Finished
              && Progress.XpOf(r.store.accounts, v)
                 == Progress.XpOf(s.accounts, v)
                    + (if v == d.challenger then XpFor(WinFlag(o, true)) else 0)
                    + (if v == d.opponent.value then XpFor(WinFlag(o, false)) else 0)
              && (v in s.accounts && !IsParticipant(d, v) ==>
                    v in r.store.accounts && r.store.accounts[v] == s.accounts[v])
  {
    var d := s.duels[id];
    var ok := IsCorrectSelection(CorrectAnswers(cat, question.value), selected.value);
    var s1 := Record(s, d, PlayerKey(id, u), AnsweredQuestion(question.value, selected.value, ok, AnswerTime(timeMs)));
    if d.opponent.Some? && |ResultUsers(s1.results, id)| >= 2 {
      assert Answer(s, cat, id, u, question, selected, timeMs, now).store == Resolve(s1, id, now);
      ResolvedRowsDecide(s1, id, now, v);
    } else {
      assert Answer(s, cat, id, u, question, selected, timeMs, now).store == s1;
    }
  }

  /** A duel finishes on the answer that gives it an opponent's and a
      challenger's result; every answer after that is turned away with
      "finished" and changes nothing, so a duel is resolved at most once. */
  lemma FinishedDuelsStayPut(s: Store, cat: Catalog, id: DuelId, u: UserId, question: Option<QuestionId>,
                             selected: Option<seq<AnswerId>>, timeMs: Option<int>, now: Millis)
    requires id in s.duels && s.duels[id].status == Finished
    ensures var r := Answer(s, cat, id, u, question, selected, timeMs, now);
            r.store == s && (question.Some? && selected.Some? ==> r.reply == Err("finished"))
  {
  }

  /** Resolution credits the challenger and the opponent with the XP of
      their outcomes and leaves every other account alone. */
  lemma ResolutionCredits(s: Store, id: DuelId, now: Millis, v: UserId)
    requires id in s.duels && s.duels[id].opponent.Some?
    requires s.duels[id].challenger != s.duels[id].opponent.value
    ensures var d := s.duels[id];
            var o := Decide(Lookup(s.results, PlayerKey(id, d.challenger)),
                            Lookup(s.results, PlayerKey(id, d.opponent.value)));
            var gained := Progress.XpOf(Resolve(s, id, now).accounts, v) - Progress.XpOf(s.accounts, v);
            && (v == d.challenger ==> gained == XpFor(WinFlag(o, true)))
            && (v == d.opponent.value ==> gained == XpFor(WinFlag(o, false)))
            && (!IsParticipant(d, v) ==> gained == 0)
    ensures var acc := Resolve(s, id, now).accounts;
            && (v in s.accounts && !IsParticipant(s.duels[id], v) ==> v in acc && acc[v] == s.accounts[v])
            && (IsParticipant(s.duels[id], v) ==>
                  v in acc && acc[v].lastAwardedAt == Some(now) && acc[v].level == Progress.CalcLevel(acc[v].xp))
  {
  }

  /** When the challenger's result beats the opponent's, resolution marks the
      challenger's row as the winner with 20 XP and the opponent's as the
      loser with 5. */
  lemma ResolutionStampsWinner(s: Store, id: DuelId, now: Millis)
    requires id in s.duels && s.duels[id].opponent.Some?
    requires s.duels[id].challenger != s.duels[id].opponent.value
    requires PlayerKey(id, s.duels[id].challenger) in s.results
    requires PlayerKey(id, s.duels[id].opponent.value) in s.results
    requires Beats(s.results[PlayerKey(id, s.duels[id].challenger)], s.results[PlayerKey(id, s.duels[id].opponent.value)])
    ensures var d := s.duels[id];
            var r := Resolve(s, id, now).results;
            && r[PlayerKey(id, d.challenger)].isWinner == Some(true)
            && r[PlayerKey(id, d.challenger)].xpEarned == Progress.DuelWinXp
            && r[PlayerKey(id, d.opponent.value)].isWinner == Some(false)
            && r[PlayerKey(id, d.opponent.value)].xpEarned == Progress.DuelLossXp
  {
  }

  // ------------------------------------------------------------ reading

  /** The `duel_answers` rows `GET /duels/:id` returns: before the duel is
      finished only the caller's own, afterwards everyone's. */
  function VisibleAnswers(s: Store, id: DuelId, u: UserId): (r: Result<map<PlayerKey, seq<AnsweredQuestion>>>)
    ensures id !in s.duels ==> r == Err("not_found")
    ensures id in s.duels && !IsParticipant(s.duels[id], u) ==> r == Err("forbidden")
    ensures r.Ok? ==> id in s.duels && IsParticipant(s.duels[id], u)
    ensures r.Ok? ==> forall k | k in r.value :: k in s.answers && r.value[k] == s.answers[k] && k.duel == id
    ensures r.Ok? && s.duels[id].status != Finished ==> forall k | k in r.value :: k.user == u
    ensures r.Ok? ==> forall k | k in s.answers && k.duel == id
                        && (k.user == u || s.duels[id].status == Finished) :: k in r.value
  {
    if id !in s.duels then Err("not_found")
    else if !IsParticipant(s.duels[id], u) then Err("forbidden")
    else
      var all := s.duels[id].status == Finished;
      Ok(map k | k in s.answers && k.duel == id && (all || k.user == u) :: s.answers[k])
  }

  /** The other players of `u`'s finished duels (the `UNION` behind
      `distinctOpponents`). */
  function OpponentsOf(duels: map<DuelId, Duel>, u: UserId): (r: set<UserId>)
    ensures forall v :: v in r <==>
              exists id | id in duels && duels[id].status == Finished ::
                (duels[id].challenger == u && duels[id].opponent == Some(v))
                || (duels[id].opponent == Some(u) && duels[id].challenger == v)
  {
    var asChallenger := set id | id in duels && duels[id].challenger == u && duels[id].status == Finished
                                 && duels[id].opponent.Some? :: duels[id].opponent.value;
    var asOpponent := set id | id in duels && duels[id].opponent == Some(u) && duels[id].status == Finished
                               :: duels[id].challenger;
    asChallenger + asOpponent
  }

  // ------------------------------------------------------------ delete and reset

  /** The store without duel `id` and, by cascade, without its answers and results. */
  function Without(s: Store, ids: set<DuelId>): (r: Store)
    ensures r.duels.Keys == s.duels.Keys - ids
    ensures forall id | id in r.duels :: r.duels[id] == s.duels[id]
    ensures forall k :: k in r.answers <==> k in s.answers && k.duel !in ids
    ensures forall k :: k in r.results <==> k in s.results && k.duel !in ids
    ensures r.accounts == s.accounts
  {
    Store(map id | id in s.duels && id !in ids :: s.duels[id],
          map k | k in s.answers && k.duel !in ids :: s.answers[k],
          map k | k in s.results && k.duel !in ids :: s.results[k],
          s.accounts)
  }

  /** `DELETE /duels/:id`: a participant may delete any duel that is not active. */
  function Delete(s: Store, id: DuelId, u: UserId): (r: Step<bool>)
    ensures r.reply.Ok? <==> id in s.duels && IsParticipant(s.duels[id], u) && s.duels[id].status != Active
    ensures r.reply.Ok? ==> r.store == Without(s, {id})
    ensures r.reply.Err? ==> r.store == s
    ensures id !in s.duels ==> r.reply == Err("not_found")
    ensures id in s.duels && !IsParticipant(s.duels[id], u) ==> r.reply == Err("forbidden")
    ensures id in s.duels && IsParticipant(s.duels[id], u) && s.duels[id].status == Active ==>
              r.reply == Err("duel_active")
  {
    if id !in s.duels then Step(s, Err("not_found"))
    else if !IsParticipant(s.duels[id], u) then Step(s, Err("forbidden"))
    else if s.duels[id].status == Active then Step(s, Err("duel_active"))
    else Step(Without(s, {id}), Ok(true))
  }

  /** The `WHERE` of `POST /duels/reset`: duels `u` created that are not
      active, and finished or expired duels `u` was invited to. */
  predicate ResetRemoves(d: Duel, u: UserId) {
    d.status != Active
    && (d.challenger == u || (d.opponent == Some(u) && (d.status == Finished || d.status == Expired)))
  }

  /** `POST /duels/reset`, replying with the number of deleted duels. */
  function Reset(s: Store, u: UserId): (r: Step<nat>)
    ensures r.reply.Ok?
    ensures forall id | id in s.duels ::
              id in r.store.duels <==> !ResetRemoves(s.duels[id], u)
    ensures r.reply.value == |s.duels.Keys - r.store.duels.Keys|
  {
    var gone := set id | id in s.duels && ResetRemoves(s.duels[id], u);
    var r := Without(s, gone);
    assert s.duels.Keys - r.duels.Keys == gone;
    Step(r, Ok(|gone|))
  }

  /** Reset never removes an active duel, anyone else's duel, or a waiting
      invitation addressed to `u`. */
  lemma ResetSpares(s: Store, u: UserId, id: DuelId)
    requires id in s.duels
    requires || s.duels[id].status == Active
             || !IsParticipant(s.duels[id], u)
             || (s.duels[id].status == Waiting && s.duels[id].challenger != u)
    ensures id in Reset(s, u).store.duels && Reset(s, u).store.duels[id] == s.duels[id]
  {
  }

  // ------------------------------------------------------------ expiry

  /** The `WHERE` of the expiry update. */
  predicate Expires(d: Duel, now: Millis) {
    IsOpen(d) && d.expiresAt < now
  }

  function ExpiringIds(duels: map<DuelId, Duel>, now: Millis): set<DuelId> {
    set id | id in duels && Expires(duels[id], now)
  }

  /** `v` plays duel `d` as its challenger (`asChallenger`) or as its opponent. */
  predicate PlaysAs(d: Duel, v: UserId, asChallenger: bool) {
    if asChallenger then d.challenger == v else d.opponent == Some(v)
  }

  function RoleIds(duels: map<DuelId, Duel>, ids: set<DuelId>, v: UserId, asChallenger: bool): set<DuelId> {
    set id | id in ids && id in duels && PlaysAs(duels[id], v, asChallenger)
  }

  /** Number of duels among `ids` in which `v` plays, counting each role. */
  function Involvement(duels: map<DuelId, Duel>, ids: set<DuelId>, v: UserId): nat {
    |RoleIds(duels, ids, v, true)| + |RoleIds(duels, ids, v, false)|
  }

  lemma RoleIdsTurn(duels: map<DuelId, Duel>, ids: set<DuelId>, id: DuelId, v: UserId, asChallenger: bool)
    requires id in ids && id in duels
    ensures |RoleIds(duels, ids, v, asChallenger)|
            == |RoleIds(duels, ids - {id}, v, asChallenger)| + (if PlaysAs(duels[id], v, asChallenger) then 1 else 0)
  {
    var rest := RoleIds(duels, ids - {id}, v, asChallenger);
    var here: set<DuelId> := if PlaysAs(duels[id], v, asChallenger) then {id} else {};
    assert RoleIds(duels, ids, v, asChallenger) == rest + here;
    assert id !in rest;
  }

  /** Taking one duel out of `ids` takes out its roles. */
  lemma InvolvementTurn(duels: map<DuelId, Duel>, ids: set<DuelId>, id: DuelId, v: UserId)
    requires id in ids && id in duels
    ensures Involvement(duels, ids, v)
            == Involvement(duels, ids - {id}, v)
               + (if duels[id].challenger == v then 1 else 0)
               + (if duels[id].opponent == Some(v) then 1 else 0)
  {
    RoleIdsTurn(duels, ids, id, v, true);
    RoleIdsTurn(duels, ids, id, v, false);
  }

  function ExpireStatuses(duels: map<DuelId, Duel>, now: Millis): map<DuelId, Duel> {
    map id | id in duels :: if Expires(duels[id], now) then duels[id].(status := Expired) else duels[id]
  }

  /** Credits one expired duel: 5 XP to the challenger and 5 to the opponent
      when there is one. */
  function CreditExpired(acc: Progress.Accounts, d: Duel, now: Millis): (r: Progress.Accounts)
    ensures forall v :: Progress.XpOf(r, v)
              == Progress.XpOf(acc, v)
                 + Progress.DuelExpiredXp * ((if d.challenger == v then 1 else 0)
                                             + (if d.opponent == Some(v) then 1 else 0))
    ensures Progress.LevelsConsistent(acc) ==> Progress.LevelsConsistent(r)
    ensures forall v | v in acc && !IsParticipant(d, v) :: v in r && r[v] == acc[v]
    ensures forall v | IsParticipant(d, v) :: v in r && r[v].lastAwardedAt == Some(now)
  {
    var a := Progress.UpdateGamification(acc, d.challenger, Progress.DuelExpiredXp, now).accounts;
    if d.opponent.Some? then Progress.UpdateGamification(a, d.opponent.value, Progress.DuelExpiredXp, now).accounts
    else a
  }

  /** The sweep's accounts `acc` with the duels `todo` of `all` still to
      credit: XP short by exactly the outstanding credits, levels kept
      consistent, and the players of no expiring duel untouched. */
  ghost predicate ExpiryCredited(s: Store, all: set<DuelId>, todo: set<DuelId>, acc: Progress.Accounts) {
    && (forall v :: Progress.XpOf(acc, v) + Progress.DuelExpiredXp * Involvement(s.duels, todo, v)
                    == Progress.XpOf(s.accounts, v) + Progress.DuelExpiredXp * Involvement(s.duels, all, v))
    && (Progress.LevelsConsistent(s.accounts) ==> Progress.LevelsConsistent(acc))
    && (forall v | v in s.accounts && Involvement(s.duels, all, v) == 0 :: v in acc && acc[v] == s.accounts[v])
  }

  /** Crediting one more expired duel keeps `ExpiryCredited`. */
  lemma ExpiryTurn(s: Store, all: set<DuelId>, todo: set<DuelId>, id: DuelId, acc: Progress.Accounts, now: Millis)
    requires all == ExpiringIds(s.duels, now) && todo <= all && id in todo
    requires ExpiryCredited(s, all, todo, acc)
    ensures ExpiryCredited(s, all, todo - {id}, CreditExpired(acc, s.duels[id], now))
  {
    var acc' := CreditExpired(acc, s.duels[id], now);
    forall v
      ensures Progress.XpOf(acc', v) + Progress.DuelExpiredXp * Involvement(s.duels, todo - {id}, v)
              == Progress.XpOf(s.accounts, v) + Progress.DuelExpiredXp * Involvement(s.duels, all, v)
    {
      InvolvementTurn(s.duels, todo, id, v);
    }
    forall v | v in s.accounts && Involvement(s.duels, all, v) == 0
      ensures v in acc' && acc'[v] == s.accounts[v]
    {
      InvolvementTurn(s.duels, all, id, v);
    }
  }

  /** `expireDuels`: every waiting or active duel past its expiry becomes
      expired, and each of its players gains 5 XP per such duel. Nothing
      else changes. */
  method ExpireDuels(s: Store, now: Millis) returns (r: Store)
    ensures r.duels.Keys == s.duels.Keys
    ensures forall id | id in s.duels ::
              r.duels[id] == if Expires(s.duels[id], now) then s.duels[id].(status := Expired) else s.duels[id]
    ensures r.answers == s.answers && r.results == s.results
    ensures forall v :: Progress.XpOf(r.accounts, v)
              == Progress.XpOf(s.accounts, v)
                 + Progress.DuelExpiredXp * Involvement(s.duels, ExpiringIds(s.duels, now), v)
    ensures Progress.LevelsConsistent(s.accounts) ==> Progress.LevelsConsistent(r.accounts)
    ensures forall v | v in s.accounts && Involvement(s.duels, ExpiringIds(s.duels, now), v) == 0 ::
              v in r.accounts && r.accounts[v] == s.accounts[v]
  {
    var all := ExpiringIds(s.duels, now);
    var todo := all;
    var acc := s.accounts;
    while todo != {}
      invariant todo <= all
      invariant ExpiryCredited(s, all, todo, acc)
      decreases |todo|
    {
      NonEmptyHasElement(todo);
      var id :| id in todo;
      ExpiryTurn(s, all, todo, id, acc, now);
      acc := CreditExpired(acc, s.duels[id], now);
      todo := todo - {id};
    }
    r := s.(duels := ExpireStatuses(s.duels, now), accounts := acc);
  }
}

=== FILE: exams.dfy ===
/** Exams in index.js: `POST /exams/start` opens a session over a number of
    questions of one pool, `POST /exams/submit` grades the answers once,
    finishes the session, books the exam into the activity ledger and awards
    5 XP per correct answer plus a 10 XP bonus at 80% or more. */
module Exams {
  import opened Common
  import Progress
  import Badges

  type SessionId = int

  /** An `exam_sessions` row. */
  datatype Session = Session(user: UserId, pool: PoolId, totalQuestions: int, correctAnswers: int,
                             finishedAt: Option<Millis>)

  /** One element of the submitted `answers` array; a missing or malformed
      field is `None`. */
  datatype Submitted = Submitted(question: Option<QuestionId>, selected: Option<seq<AnswerId>>)

  /** An `exam_answers` row. */
  datatype ExamAnswer = ExamAnswer(session: SessionId, question: QuestionId, selected: seq<AnswerId>, correct: bool)

  datatype Exams = Exams(sessions: map<SessionId, Session>, answers: seq<ExamAnswer>)

  datatype State = State(progress: Progress.Progress, exams: Exams)

  // ------------------------------------------------------------ start

  /** `POST /exams/start`, with `id` the id the insert generates. The checks
      run in the order invalid, pool_not_found, not_enough_questions; a
      negative count makes the sampling query fail, and with no `try` around
      it the request gets no reply. */
  function Start(e: Exams, cat: Catalog, u: UserId, pool: Option<PoolId>, count: Option<int>, lang: string,
                 id: SessionId): (r: (Exams, Result<SessionId>))
    requires id !in e.sessions
    ensures r.1.Err? ==> r.0 == e
    ensures pool.None? || count.None? || count == Some(0) ==> r.1 == Err("invalid")
    ensures pool.Some? && count.Some? && count.value != 0 && pool.value !in cat.pools ==> r.1 == Err("pool_not_found")
    ensures pool.Some? && count.Some? && count.value < 0 && pool.value in cat.pools ==> r.1 == Err(NoReply)
    ensures (pool.Some? && count.Some? && count.value > 0 && pool.value in cat.pools
             && |PoolQuestions(cat, pool.value, lang)| < count.value) ==> r.1 == Err("not_enough_questions")
    ensures r.1.Ok? <==> (pool.Some? && count.Some? && count.value > 0 && pool.value in cat.pools
                          && |PoolQuestions(cat, pool.value, lang)| >= count.value)
    ensures r.1.Ok? ==> r.1.value == id && r.0 == e.(sessions := e.sessions[id := Session(u, pool.value, count.value, 0, None)])
  {
    if pool.None? || count.None? || count.value == 0 then (e, Err("invalid"))
    else if pool.value !in cat.pools then (e, Err("pool_not_found"))
    else if count.value < 0 then (e, Err(NoReply))
    else if |PoolQuestions(cat, pool.value, lang)| < count.value then (e, Err("not_enough_questions"))
    else (e.(sessions := e.sessions[id := Session(u, pool.value, count.value, 0, None)]), Ok(id))
  }

  // ------------------------------------------------------------ validation

  /** `answers.map(a => a?.question_id).filter(Boolean)`. */
  function QuestionIds(answers: seq<Submitted>): (ids: seq<QuestionId>)
    ensures |ids| <= |answers|
    ensures forall q :: q in ids <==> exists i | 0 <= i < |answers| :: answers[i].question == Some(q)
  {
    if answers == [] then []
    else
      var a := answers[|answers| - 1];
      var rest := QuestionIds(answers[..|answers| - 1]);
      assert forall i | 0 <= i < |answers| - 1 :: answers[..|answers| - 1][i] == answers[i];
      if a.question.Some? then rest + [a.question.value] else rest
  }

  predicate Distinct(ids: seq<QuestionId>) {
    forall i, j | 0 <= i < j < |ids| :: ids[i] != ids[j]
  }

  /** `new Set(ids).size !== ids.length` is the same test as a repeated id. */
  lemma {:induction false} DistinctBySize(ids: seq<QuestionId>)
    ensures |Elements(ids)| == |ids| <==> Distinct(ids)
  {
    if ids != [] {
      var init := ids[..|ids| - 1];
      var x := ids[|ids| - 1];
      DistinctBySize(init);
      assert ids == init + [x];
      assert Elements(ids) == Elements(init) + {x};
      assert |Elements(init)| <= |init| by { ElementsAtMostLength(init); }
      if x in init {
        assert Elements(ids) == Elements(init);
        var k :| 0 <= k < |init| && init[k] == x;
        assert ids[k] == ids[|ids| - 1];
      } else {
        assert x !in Elements(init);
        if Distinct(init) {
          assert forall i | 0 <= i < |init| :: ids[i] == init[i] && init[i] != x;
        }
      }
    }
  }

  lemma {:induction false} ElementsAtMostLength(xs: seq<QuestionId>)
    ensures |Elements(xs)| <= |xs|
  {
    if xs != [] {
      var init := xs[..|xs| - 1];
      ElementsAtMostLength(init);
      assert xs == init + [xs[|xs| - 1]];
      assert Elements(xs) == Elements(init) + {xs[|xs| - 1]};
    }
  }

  /** Every id names a question of the session's pool (the count of matching
      rows equals the count of distinct ids). */
  predicate AllInPool(cat: Catalog, ids: seq<QuestionId>, pool: PoolId) {
    forall i | 0 <= i < |ids| :: ids[i] in cat.questions && cat.questions[ids[i]].pool == pool
  }

  /** The first reason the submission is refused, in the handler's order. */
  function Rejection(e: Exams, cat: Catalog, u: UserId, session: Option<SessionId>,
                     answers: Option<seq<Submitted>>): (err: Option<string>)
    ensures session.None? || answers.None? ==> err == Some("invalid")
    ensures session.Some? && answers.Some? ==>
              (session.value !in e.sessions || e.sessions[session.value].user != u ==> err == Some("not_found"))
    ensures session.Some? && answers.Some? && session.value in e.sessions && e.sessions[session.value].user == u ==>
              var s := e.sessions[session.value];
              var n := |answers.value|;
              var ids := QuestionIds(answers.value);
              && (s.finishedAt.Some? ==> err == Some("already_submitted"))
              && (s.finishedAt.None? && (n == 0 || n != s.totalQuestions) ==> err == Some("invalid_answer_count"))
              && (s.finishedAt.None? && 0 < n == s.totalQuestions && !Distinct(ids) ==> err == Some("duplicate_questions"))
              && (s.finishedAt.None? && 0 < n == s.totalQuestions && Distinct(ids) && !AllInPool(cat, ids, s.pool)
                  ==> err == Some("invalid_questions"))
    ensures err.None? <==>
              && session.Some? && answers.Some? && session.value in e.sessions
              && e.sessions[session.value].user == u
              && e.sessions[session.value].finishedAt.None?
              && |answers.value| > 0 && |answers.value| == e.sessions[session.value].totalQuestions
              && Distinct(QuestionIds(answers.value))
              && AllInPool(cat, QuestionIds(answers.value), e.sessions[session.value].pool)
  {
    if session.None? || answers.None? then Some("invalid")
    else if session.value !in e.sessions || e.sessions[session.value].user != u then Some("not_found")
    else
      var s := e.sessions[session.value];
      if s.finishedAt.Some? then Some("already_submitted")
      else if |answers.value| == 0 || |answers.value| != s.totalQuestions then Some("invalid_answer_count")
      else if !Distinct(QuestionIds(answers.value)) then Some("duplicate_questions")
      else if !AllInPool(cat, QuestionIds(answers.value), s.pool) then Some("invalid_questions")
      else None
  }

  // ------------------------------------------------------------ grading

  /** The `exam_answers` rows the grading loop inserts: one per answer that
      has a question id and a selection array, in order, each graded by
      exact-set match. */
  function Graded(cat: Catalog, sid: SessionId, answers: seq<Submitted>): (rows: seq<ExamAnswer>)
    ensures |rows| <= |answers|
    ensures forall k | 0 <= k < |rows| :: rows[k].session == sid
              && rows[k].correct == (Elements(rows[k].selected) == CorrectAnswers(cat, rows[k].question))
    ensures forall k | 0 <= k < |rows| :: exists i | 0 <= i < |answers| ::
              answers[i] == Submitted(Some(rows[k].question), Some(rows[k].selected))
    ensures (forall i | 0 <= i < |answers| :: answers[i].question.Some? && answers[i].selected.Some?)
              ==> |rows| == |answers|
  {
    if answers == [] then []
    else
      var a := answers[|answers| - 1];
      var rest := Graded(cat, sid, answers[..|answers| - 1]);
      assert forall i | 0 <= i < |answers| - 1 :: answers[..|answers| - 1][i] == answers[i];
      if a.question.Some? && a.selected.Some? then
        var correct := IsCorrectSelection(CorrectAnswers(cat, a.question.value), a.selected.value);
        rest + [ExamAnswer(sid, a.question.value, a.selected.value, correct)]
      else rest
  }

  /** The row one well-formed answer yields. */
  function GradeOne(cat: Catalog, sid: SessionId, a: Submitted): ExamAnswer
    requires a.question.Some? && a.selected.Some?
  {
    ExamAnswer(sid, a.question.value, a.selected.value,
               IsCorrectSelection(CorrectAnswers(cat, a.question.value), a.selected.value))
  }

  predicate WellFormed(answers: seq<Submitted>) {
    forall i | 0 <= i < |answers| :: answers[i].question.Some? && answers[i].selected.Some?
  }

  /** When every answer is well formed, row `k` grades answer `k`. */
  lemma {:induction false} GradedKeepsOrder(cat: Catalog, sid: SessionId, answers: seq<Submitted>)
    requires WellFormed(answers)
    ensures Graded(cat, sid, answers) == seq(|answers|, k requires 0 <= k < |answers| => GradeOne(cat, sid, answers[k]))
  {
    if answers != [] {
      var init := answers[..|answers| - 1];
      assert WellFormed(init) by {
        forall i | 0 <= i < |init| ensures init[i] == answers[i] { }
      }
      GradedKeepsOrder(cat, sid, init);
      var last := GradeOne(cat, sid, answers[|answers| - 1]);
      assert Graded(cat, sid, answers) == Graded(cat, sid, init) + [last];
      var all := seq(|answers|, k requires 0 <= k < |answers| => GradeOne(cat, sid, answers[k]));
      var front := seq(|init|, k requires 0 <= k < |init| => GradeOne(cat, sid, init[k]));
      assert all == front + [last] by {
        forall k | 0 <= k < |init| ensures all[k] == front[k] { assert init[k] == answers[k]; }
      }
    }
  }

  function CorrectCount(rows: seq<ExamAnswer>): (n: nat)
    ensures n <= |rows|
    ensures n == |rows| <==> forall k | 0 <= k < |rows| :: rows[k].correct
  {
    if rows == [] then 0
    else
      var rest := CorrectCount(rows[..|rows| - 1]);
      assert forall k | 0 <= k < |rows| - 1 :: rows[..|rows| - 1][k] == rows[k];
      rest + (if rows[|rows| - 1].correct then 1 else 0)
  }

  /** The XP of an exam, in hundredths: 5 per correct answer and the bonus
      exactly when the exam counts as passed for the badges (80% or more of a
      non-empty exam). The float comparison `c / t >= 0.8` is read as
      `5c >= 4t`. When `5c >= 4t`, `c / t` is at least 0.8, and rounding to
      double is monotone, so the float test passes too. When `5c < 4t`,
      `c / t` lies at least `1 / (5t)` below 0.8. The double nearest 0.8 is
      within 2^-54 of it, and a quotient rounds up to that double only from
      within half an ulp (2^-54) below it. So the float test fails as long as
      `1 / (5t) > 2^-53`, that is for `t` below 2^53 / 5 (about 1.8·10^15),
      far beyond any exam size. */
  function ExamXp(correct: nat, total: int): (xp: nat)
    ensures xp == Progress.ExamCorrectXp * correct
                  + (if Badges.Passed(Badges.ExamRecord(true, total, correct)) then Progress.ExamBonusXp else 0)
  {
    var bonus := if total > 0 && 5 * correct >= 4 * total then Progress.ExamBonusXp else 0;
    Progress.ExamCorrectXp * correct + bonus
  }

  /** More correct answers never earn less. */
  lemma ExamXpMonotone(c1: nat, c2: nat, total: int)
    requires c1 <= c2
    ensures ExamXp(c1, total) <= ExamXp(c2, total)
  {
    if Badges.Passed(Badges.ExamRecord(true, total, c1)) {
      assert Badges.Passed(Badges.ExamRecord(true, total, c2));
    }
  }

  // ------------------------------------------------------------ submit

  datatype SubmitReply = SubmitReply(correct: nat, total: nat, xpAwarded: nat, bonusAwarded: nat, xp: nat, level: nat)

  datatype SubmitStep = SubmitStep(state: State, reply: Result<SubmitReply>)

  /** The session after grading: its score and its finishing time. */
  function Finish(s: Session, correct: nat, now: Millis): (r: Session)
    ensures r.user == s.user && r.pool == s.pool && r.totalQuestions == s.totalQuestions
    ensures r.correctAnswers == correct && r.finishedAt == Some(now)
  {
    s.(correctAnswers := correct, finishedAt := Some(now))
  }

  /** The submitted array as the validation reads it: a `null` element
      (`None`) has no `question_id` for `a?.question_id`, so it reads as an
      element without fields. */
  function Fields(answers: Option<seq<Option<Submitted>>>): (r: Option<seq<Submitted>>)
    ensures r.None? <==> answers.None?
    ensures r.Some? ==> |r.value| == |answers.value|
  {
    if answers.None? then None
    else Some(seq(|answers.value|, i requires 0 <= i < |answers.value| =>
                if answers.value[i].Some? then answers.value[i].value else Submitted(None, None)))
  }

  /** The array holds a `null` element, which the grading loop cannot
      destructure. */
  predicate HasNull(answers: seq<Option<Submitted>>) {
    exists i | 0 <= i < |answers| :: answers[i].None?
  }

  /** `POST /exams/submit`, one transaction: refused with nothing written, or
      the session finished with its score, the graded answers stored, the
      exam booked on the session's pool for `localDay` and its XP awarded.
      A `null` element passes every check, then throws in the grading loop;
      the `catch` rolls back and answers `server_error`. */
  function Submit(st: State, cat: Catalog, u: UserId, session: Option<SessionId>,
                  answers: Option<seq<Option<Submitted>>>, localDay: Day, now: Millis): (r: SubmitStep)
    ensures r.reply.Err? <==>
              Rejection(st.exams, cat, u, session, Fields(answers)).Some? || (answers.Some? && HasNull(answers.value))
    ensures r.reply.Err? ==> r.state == st
    ensures Rejection(st.exams, cat, u, session, Fields(answers)).Some? ==>
              r.reply == Err(Rejection(st.exams, cat, u, session, Fields(answers)).value)
    ensures Rejection(st.exams, cat, u, session, Fields(answers)).None? && HasNull(answers.value) ==>
              r.reply == Err("server_error")
    ensures r.reply.Ok? ==>
              var sid := session.value;
              var s := st.exams.sessions[sid];
              var rows := Graded(cat, sid, Fields(answers).value);
              var c := r.reply.value.correct;
              var award := Progress.UpdateGamification(st.progress.accounts, u, ExamXp(c, s.totalQuestions), now);
              && (forall i | 0 <= i < |answers.value| :: answers.value[i].Some?)
              && c == CorrectCount(rows) && c <= s.totalQuestions
              && r.reply.value.total == s.totalQuestions
              && r.reply.value.xpAwarded == ExamXp(c, s.totalQuestions)
              && r.state.exams.sessions == st.exams.sessions[sid := Finish(s, c, now)]
              && r.state.exams.answers == st.exams.answers + rows
              && r.state.progress.ledger == Progress.RecordDailyActivity(st.progress.ledger, u, s.pool, localDay,
                   Progress.Delta(None, None, None, Some(c), Some(s.totalQuestions), Some(s.totalQuestions)))
              && r.state.progress.accounts == award.accounts
              && r.reply.value.xp == award.xp && r.reply.value.level == award.level
              && Progress.XpOf(r.state.progress.accounts, u) == Progress.XpOf(st.progress.accounts, u) + ExamXp(c, s.totalQuestions)
  {
    var fields := Fields(answers);
    var why := Rejection(st.exams, cat, u, session, fields);
    if why.Some? then SubmitStep(st, Err(why.value))
    else if HasNull(answers.value) then SubmitStep(st, Err("server_error"))
    else
      var sid := session.value;
      var s := st.exams.sessions[sid];
      var rows := Graded(cat, sid, fields.value);
      var c := CorrectCount(rows);
      var t := s.totalQuestions;
      var xp := ExamXp(c, t);
      var ledger := Progress.RecordDailyActivity(st.progress.ledger, u, s.pool, localDay,
                      Progress.Delta(None, None, None, Some(c), Some(t), Some(t)));
      var award := Progress.UpdateGamification(st.progress.accounts, u, xp, now);
      var exams := Exams(st.exams.sessions[sid := Finish(s, c, now)], st.exams.answers + rows);
      var bonus := xp - Progress.ExamCorrectXp * c;
      SubmitStep(State(Progress.Progress(award.accounts, ledger), exams),
                 Ok(SubmitReply(c, |fields.value|, xp, bonus, award.xp, award.level)))
  }

  /** A session is graded once: submitting it again is refused as
      already_submitted. */
  lemma SubmitOnlyOnce(st: State, cat: Catalog, u: UserId, session: Option<SessionId>, answers: Option<seq<Option<Submitted>>>,
                       again: Option<seq<Option<Submitted>>>, localDay: Day, now: Millis, later: Millis)
    requires Submit(st, cat, u, session, answers, localDay, now).reply.Ok?
    requires again.Some?
    ensures Submit(Submit(st, cat, u, session, answers, localDay, now).state, cat, u, session, again, localDay, later).reply
            == Err("already_submitted")
  {
    var st' := Submit(st, cat, u, session, answers, localDay, now).state;
    assert st'.exams.sessions[session.value].finishedAt == Some(now);
  }

  /** A submitted exam carries the bonus exactly when the stored session
      counts as passed for the badges. */
  lemma BonusIffPassed(st: State, cat: Catalog, u: UserId, session: Option<SessionId>, answers: Option<seq<Option<Submitted>>>,
                       localDay: Day, now: Millis)
    requires Submit(st, cat, u, session, answers, localDay, now).reply.Ok?
    ensures var r := Submit(st, cat, u, session, answers, localDay, now);
            var s := r.state.exams.sessions[session.value];
            (r.reply.value.bonusAwarded == Progress.ExamBonusXp <==>
               Badges.Passed(Badges.ExamRecord(s.finishedAt.Some?, s.totalQuestions, s.correctAnswers)))
            && (r.reply.value.bonusAwarded == 0 <==>
               !Badges.Passed(Badges.ExamRecord(s.finishedAt.Some?, s.totalQuestions, s.correctAnswers)))
  {
  }

  /** The XP of one exam is at most 5 per question plus the bonus, and an
      exam without a wrong or skipped answer earns all of it. */
  lemma ExamXpBounds(st: State, cat: Catalog, u: UserId, session: Option<SessionId>, answers: Option<seq<Option<Submitted>>>,
                     localDay: Day, now: Millis)
    requires Submit(st, cat, u, session, answers, localDay, now).reply.Ok?
    ensures var r := Submit(st, cat, u, session, answers, localDay, now);
            var t := r.reply.value.total;
            && r.reply.value.xpAwarded <= Progress.ExamCorrectXp * t + Progress.ExamBonusXp
            && (r.reply.value.correct == t ==> r.reply.value.xpAwarded == Progress.ExamCorrectXp * t + Progress.ExamBonusXp)
  {
    var r := Submit(st, cat, u, session, answers, localDay, now);
    ExamXpMonotone(r.reply.value.correct, r.reply.value.total, r.reply.value.total);
  }
}

=== FILE: leaderboard.dfy ===
/** The leaderboards of index.js: `getLeaderboard` (score formula, scope
    filters, ranking) and `getLeaderboardWithSnapshot` (the snapshot cache of
    the global and weekly boards), plus the limit handling of the
    `GET /leaderboards` route and `weeklyWindowUtc`. The tables the ranking
    query reads are given as lists of rows. */
module Leaderboard {
  import opened Common
  import Progress

  /** `global`, `weekly`, or `pool` with its pool id. */
  datatype Scope = Global | Weekly | InPool(pool: PoolId)

  datatype UserRow = UserRow(id: UserId, username: string, email: string, displayName: string, optIn: bool)

  /** One `user_activity_daily` row. */
  datatype LedgerRow = LedgerRow(key: Progress.LedgerKey, counters: Progress.Counters)

  /** The `exam_sessions` columns the bonus count reads. */
  datatype ExamRow = ExamRow(user: UserId, pool: PoolId, finishedAt: Option<Millis>,
                             totalQuestions: int, correctAnswers: int)

  datatype Tables = Tables(users: seq<UserRow>, activity: seq<LedgerRow>, exams: seq<ExamRow>)

  datatype Entry = Entry(user: UserId, display: string, score: int)

  /** Points of a passed exam (`XP_RULES.exam_bonus`). */
  const ExamBonusPoints: int := 10
  const WeekDays: int := 7

  /** Row filter of the `activity` part: the last seven UTC days for
      `weekly`, one pool for `pool`. */
  predicate ActivityCounts(scope: Scope, r: LedgerRow, todayUtc: Day) {
    match scope
    case Global => true
    case Weekly => r.key.day >= todayUtc - (WeekDays - 1)
    case InPool(p) => r.key.pool == p
  }

  /** Row filter of the `exam_bonus` part: finished exams with at least 80%
      correct, finished in the last six days for `weekly`, in one pool for
      `pool`. */
  predicate ExamCounts(scope: Scope, e: ExamRow, now: Millis) {
    && e.finishedAt.Some? && e.totalQuestions > 0 && 5 * e.correctAnswers >= 4 * e.totalQuestions
    && (scope.Weekly? ==> e.finishedAt.value >= now - (WeekDays - 1) * MsPerDay)
    && (scope.InPool? ==> e.pool == scope.pool)
  }

  /** The score of one ledger row: 1 per training, 2 per Leitner and 5 per exam question right. */
  function Points(c: Progress.Counters): int {
    c.trainingCorrect + 2 * c.leitnerCorrect + 5 * c.examCorrect
  }

  /** `sum(...)` of the player's counted ledger rows, weighted by `Points`. */
  function ActivityScore(rows: seq<LedgerRow>, u: UserId, scope: Scope, todayUtc: Day): int {
    if rows == [] then 0
    else
      var r := rows[|rows| - 1];
      ActivityScore(rows[..|rows| - 1], u, scope, todayUtc)
      + (if r.key.user == u && ActivityCounts(scope, r, todayUtc) then Points(r.counters) else 0)
  }

  predicate HasActivity(rows: seq<LedgerRow>, u: UserId, scope: Scope, todayUtc: Day) {
    exists i | 0 <= i < |rows| :: rows[i].key.user == u && ActivityCounts(scope, rows[i], todayUtc)
  }

  /** The exam rows the bonus subquery keeps for player `u`. */
  function BonusFor(u: UserId, scope: Scope, now: Millis): ExamRow -> bool {
    (e: ExamRow) => e.user == u && ExamCounts(scope, e, now)
  }

  /** `count(*)` of the player's counted exams: exactly the rows the
      subquery keeps. */
  function BonusCount(exams: seq<ExamRow>, u: UserId, scope: Scope, now: Millis): (n: nat)
    ensures n == |Matching(exams, BonusFor(u, scope, now))|
    ensures n <= |exams|
  {
    if exams == [] then 0
    else
      var e := exams[|exams| - 1];
      MatchingSnoc(exams, BonusFor(u, scope, now));
      BonusCount(exams[..|exams| - 1], u, scope, now) + (if e.user == u && ExamCounts(scope, e, now) then 1 else 0)
  }

  function Score(t: Tables, u: UserId, scope: Scope, todayUtc: Day, now: Millis): int {
    ActivityScore(t.activity, u, scope, todayUtc) + ExamBonusPoints * BonusCount(t.exams, u, scope, now)
  }

  /** `display_name || username || email`. */
  function Display(u: UserRow): (d: string)
    ensures u.displayName != "" ==> d == u.displayName
    ensures u.displayName == "" && u.username != "" ==> d == u.username
    ensures u.displayName == "" && u.username == "" ==> d == u.email
  {
    if u.displayName != "" then u.displayName else if u.username != "" then u.username else u.email
  }

  /** Who appears at all: opted in, with a counted ledger row or a counted exam. */
  predicate Listed(t: Tables, u: UserRow, scope: Scope, todayUtc: Day, now: Millis) {
    u.optIn && (HasActivity(t.activity, u.id, scope, todayUtc) || BonusCount(t.exams, u.id, scope, now) > 0)
  }

  /** The rows of the ranking query before `ORDER BY` and `LIMIT`. */
  function Candidates(t: Tables, users: seq<UserRow>, scope: Scope, todayUtc: Day, now: Millis): (r: seq<Entry>)
    ensures |r| <= |users|
    ensures forall e | e in r :: exists u | u in users :: (Listed(t, u, scope, todayUtc, now)
              && e == Entry(u.id, Display(u), Score(t, u.id, scope, todayUtc, now)))
    ensures forall u | u in users && Listed(t, u, scope, todayUtc, now) ::
              Entry(u.id, Display(u), Score(t, u.id, scope, todayUtc, now)) in r
  {
    if users == [] then []
    else
      var u := users[|users| - 1];
      var rest := Candidates(t, users[..|users| - 1], scope, todayUtc, now);
      assert forall x | x in users :: x in users[..|users| - 1] || x == u;
      if Listed(t, u, scope, todayUtc, now) then rest + [Entry(u.id, Display(u), Score(t, u.id, scope, todayUtc, now))]
      else rest
  }

  // ------------------------------------------------------------ ranking

  predicate SortedDesc(s: seq<Entry>) {
    forall i, j | 0 <= i < j < |s| :: s[i].score >= s[j].score
  }

  /** Insert `e` after every entry that scores at least as much. */
  function InsertDesc(s: seq<Entry>, e: Entry): (r: seq<Entry>)
    requires SortedDesc(s)
    ensures SortedDesc(r)
    ensures multiset(r) == multiset(s) + multiset{e}
    ensures forall x | x in r :: x == e || x in s
  {
    if s == [] then [e]
    else if s[0].score >= e.score then
      var tail := InsertDesc(s[1..], e);
      assert s == [s[0]] + s[1..];
      ConsSorted(s, e, tail);
      [s[0]] + tail
    else
      [e] + s
  }

  lemma ConsSorted(s: seq<Entry>, e: Entry, tail: seq<Entry>)
    requires SortedDesc(s) && s != [] && e.score <= s[0].score
    requires SortedDesc(tail) && forall x | x in tail :: x == e || x in s[1..]
    ensures SortedDesc([s[0]] + tail)
  {
    forall j | 0 <= j < |tail| ensures tail[j].score <= s[0].score {
      assert tail[j] in tail;
      if tail[j] != e {
        var k :| 0 <= k < |s[1..]| && s[1..][k] == tail[j];
        assert s[k + 1] == tail[j];
      }
    }
  }

  /** `ORDER BY score DESC`, as an insertion sort. */
  function SortByScore(s: seq<Entry>): (r: seq<Entry>)
    ensures SortedDesc(r)
    ensures multiset(r) == multiset(s)
  {
    if s == [] then []
    else
      assert s == s[..|s| - 1] + [s[|s| - 1]];
      InsertDesc(SortByScore(s[..|s| - 1]), s[|s| - 1])
  }

  /** The ranking `getLeaderboard` returns for a non-negative `LIMIT`: the
      listed players by descending score, cut to the limit. Stated: sorted,
      as long as the limit allows, drawn from the candidates, and nobody left
      out outscores anybody shown. */
  function Ranking(t: Tables, scope: Scope, limit: nat, todayUtc: Day, now: Millis): (r: seq<Entry>)
    ensures SortedDesc(r)
    ensures |r| == Min(limit, |Candidates(t, t.users, scope, todayUtc, now)|)
    ensures multiset(r) <= multiset(Candidates(t, t.users, scope, todayUtc, now))
    ensures forall e | e in Candidates(t, t.users, scope, todayUtc, now) && e !in r ::
              forall x | x in r :: e.score <= x.score
  {
    Top(Candidates(t, t.users, scope, todayUtc, now), limit)
  }

  /** The best `limit` entries of `s`, best first. */
  function Top(s: seq<Entry>, limit: nat): (r: seq<Entry>)
    ensures SortedDesc(r)
    ensures |r| == Min(limit, |s|)
    ensures multiset(r) <= multiset(s)
    ensures forall e | e in s && e !in r :: forall x | x in r :: e.score <= x.score
  {
    var all := SortByScore(s);
    var k := Min(limit, |all|);
    PrefixIsTop(all, k);
    assert forall e | e in s :: e in multiset(all);
    all[..k]
  }

  /** A prefix of a descending list holds its best entries. */
  lemma PrefixIsTop(all: seq<Entry>, k: nat)
    requires SortedDesc(all) && k <= |all|
    ensures multiset(all[..k]) <= multiset(all)
    ensures forall e | e in all && e !in all[..k] :: forall x | x in all[..k] :: e.score <= x.score
  {
    assert all == all[..k] + all[k..];
    forall e | e in all && e !in all[..k]
      ensures forall x | x in all[..k] :: e.score <= x.score
    {
      assert e in all[k..];
      var j :| k <= j < |all| && all[j] == e;
      forall x | x in all[..k] ensures e.score <= x.score {
        var i :| 0 <= i < k && all[i] == x;
      }
    }
  }

  // ------------------------------------------------------------ scores across scopes

  /** A filtered score never exceeds the unfiltered one when counters are
      non-negative. */
  lemma {:induction false} ActivityAtMostGlobal(rows: seq<LedgerRow>, u: UserId, scope: Scope, todayUtc: Day)
    requires forall i | 0 <= i < |rows| :: Progress.NonNegative(rows[i].counters)
    ensures ActivityScore(rows, u, scope, todayUtc) <= ActivityScore(rows, u, Global, todayUtc)
  {
    if rows != [] {
      ActivityAtMostGlobal(rows[..|rows| - 1], u, scope, todayUtc);
    }
  }

  lemma {:induction false} BonusAtMostGlobal(exams: seq<ExamRow>, u: UserId, scope: Scope, now: Millis)
    ensures BonusCount(exams, u, scope, now) <= BonusCount(exams, u, Global, now)
  {
    if exams != [] {
      BonusAtMostGlobal(exams[..|exams| - 1], u, scope, now);
    }
  }

  /** The all-time score bounds the weekly and the per-pool score. */
  lemma GlobalScoreDominates(t: Tables, u: UserId, scope: Scope, todayUtc: Day, now: Millis)
    requires forall i | 0 <= i < |t.activity| :: Progress.NonNegative(t.activity[i].counters)
    ensures Score(t, u, scope, todayUtc, now) <= Score(t, u, Global, todayUtc, now)
  {
    ActivityAtMostGlobal(t.activity, u, scope, todayUtc);
    BonusAtMostGlobal(t.exams, u, scope, now);
  }

  // ------------------------------------------------------------ snapshots

  const SnapshotLimit: int := 50
  const GlobalTtl: int := 6 * MsPerHour
  const WeeklyTtl: int := 30 * MsPerMinute
  const DefaultLimit: int := 10

  /** `SNAPSHOT_TTL_MS[scope] || 0`. */
  function Ttl(scope: Scope): int {
    match scope
    case Global => GlobalTtl
    case Weekly => WeeklyTtl
    case InPool(_) => 0
  }

  /** `weeklyWindowUtc`: the UTC day six days back and today. */
  function WeeklyWindow(todayUtc: Day): (w: (Day, Day))
    ensures w.1 - w.0 + 1 == WeekDays
    ensures w.1 == todayUtc
  {
    (todayUtc - (WeekDays - 1), todayUtc)
  }

  /** The snapshot a scope reads and writes: no period for `global`, the
      weekly window for `weekly`. */
  datatype SnapshotKey = SnapshotKey(scope: Scope, periodStart: Option<Day>, periodEnd: Option<Day>)

  function KeyFor(scope: Scope, todayUtc: Day): SnapshotKey {
    if scope.Weekly? then SnapshotKey(scope, Some(WeeklyWindow(todayUtc).0), Some(WeeklyWindow(todayUtc).1))
    else SnapshotKey(scope, None, None)
  }

  datatype Snapshot = Snapshot(computedAt: Millis, entries: seq<Entry>)

  /** The newest `leaderboard_snapshots` row per key; older rows are never read again. */
  type Snapshots = map<SnapshotKey, Snapshot>

  /** `entries.slice(0, end)` in JavaScript: a negative end counts from the
      back, and an unreadable one (`None`, NaN) is 0. */
  function JsSlice(s: seq<Entry>, end: Option<int>): (r: seq<Entry>)
    ensures end.Some? && end.value >= 0 ==> r == s[..Min(end.value, |s|)]
    ensures end.Some? && end.value < 0 ==> r == s[..Max(|s| + end.value, 0)]
    ensures end.None? ==> r == []
  {
    if end.None? then []
    else if end.value >= 0 then s[..Min(end.value, |s|)]
    else s[..Max(|s| + end.value, 0)]
  }

  /** `getLeaderboard`, which fails (the database rejects the `LIMIT`) for
      a negative or unreadable limit; `/leaderboards` has no `try`, so such a
      request gets no reply. */
  function Compute(t: Tables, scope: Scope, limit: Option<int>, todayUtc: Day, now: Millis): (r: Result<seq<Entry>>)
    ensures r.Ok? <==> limit.Some? && limit.value >= 0
    ensures r.Ok? ==> r.value == Ranking(t, scope, limit.value, todayUtc, now)
    ensures r.Err? ==> r.error == NoReply
  {
    if limit.None? || limit.value < 0 then Err(NoReply)
    else Ok(Ranking(t, scope, limit.value, todayUtc, now))
  }

  /** A snapshot is served while its age is at most the scope's TTL. */
  predicate Fresh(scope: Scope, s: Snapshot, now: Millis) {
    Ttl(scope) > 0 && now - s.computedAt <= Ttl(scope)
  }

  /** `getLeaderboardWithSnapshot`: the pool board is always computed; the
      global and weekly boards are served from a fresh snapshot, cut to the
      limit, or else computed with at most 50 entries and stored. */
  function WithSnapshot(snaps: Snapshots, t: Tables, scope: Scope, limit: Option<int>,
                        todayUtc: Day, now: Millis): (r: (Snapshots, Result<seq<Entry>>))
    ensures scope.InPool? ==> r == (snaps, Compute(t, scope, limit, todayUtc, now))
    ensures !scope.InPool? && KeyFor(scope, todayUtc) in snaps && Fresh(scope, snaps[KeyFor(scope, todayUtc)], now) ==>
              r == (snaps, Ok(JsSlice(snaps[KeyFor(scope, todayUtc)].entries, limit)))
    ensures !scope.InPool? && !(KeyFor(scope, todayUtc) in snaps && Fresh(scope, snaps[KeyFor(scope, todayUtc)], now)) ==>
              var capped := if limit.Some? then Some(Min(limit.value, SnapshotLimit)) else None;
              && r.1 == Compute(t, scope, capped, todayUtc, now)
              && (r.1.Ok? ==> r.0 == snaps[KeyFor(scope, todayUtc) := Snapshot(now, r.1.value)] && |r.1.value| <= SnapshotLimit)
              && (r.1.Err? ==> r.0 == snaps)
  {
    if scope.InPool? then (snaps, Compute(t, scope, limit, todayUtc, now))
    else
      var key := KeyFor(scope, todayUtc);
      if key in snaps && Fresh(scope, snaps[key], now) then (snaps, Ok(JsSlice(snaps[key].entries, limit)))
      else
        var capped := if limit.Some? then Some(Min(limit.value, SnapshotLimit)) else None;
        var computed := Compute(t, scope, capped, todayUtc, now);
        if computed.Err? then (snaps, computed)
        else (snaps[key := Snapshot(now, computed.value)], computed)
  }

  /** Within the TTL a second request with the same limit sees exactly the
      entries the first one computed, whatever happened to the tables. */
  lemma RepeatWithinTtl(snaps: Snapshots, t: Tables, t': Tables, scope: Scope, limit: int,
                        todayUtc: Day, now: Millis, later: Millis)
    requires !scope.InPool? && 0 <= limit <= SnapshotLimit
    requires !(KeyFor(scope, todayUtc) in snaps && Fresh(scope, snaps[KeyFor(scope, todayUtc)], now))
    requires now <= later <= now + Ttl(scope)
    ensures var first := WithSnapshot(snaps, t, scope, Some(limit), todayUtc, now);
            var second := WithSnapshot(first.0, t', scope, Some(limit), todayUtc, later);
            second == (first.0, first.1)
  {
    var first := WithSnapshot(snaps, t, scope, Some(limit), todayUtc, now);
    var key := KeyFor(scope, todayUtc);
    assert Min(limit, SnapshotLimit) == limit;
    var v := Ranking(t, scope, limit, todayUtc, now);
    assert first == (snaps[key := Snapshot(now, v)], Ok(v));
    assert Fresh(scope, first.0[key], later);
    assert JsSlice(v, Some(limit)) == v;
  }

  /** The scope parameter of `GET /leaderboards` (`global` when absent). */
  function ScopeOf(name: string, pool: Option<PoolId>): (r: Result<Scope>)
    ensures name == "global" <==> r == Ok(Global)
    ensures name == "weekly" <==> r == Ok(Weekly)
    ensures name == "pool" && pool.Some? <==> r.Ok? && r.value.InPool?
    ensures r.Ok? && r.value.InPool? ==> pool == Some(r.value.pool)
    ensures name == "pool" && pool.None? <==> r == Err("missing_pool_id")
    ensures name != "global" && name != "weekly" && name != "pool" <==> r == Err("invalid_scope")
  {
    if name == "global" then Ok(Global)
    else if name == "weekly" then Ok(Weekly)
    else if name != "pool" then Err("invalid_scope")
    else if pool.None? then Err("missing_pool_id")
    else Ok(InPool(pool.value))
  }

  /** The limit the route hands on: `Math.min(parseInt(limit), 50)`, NaN
      staying NaN. */
  function Capped(limit: Option<int>): (r: Option<int>)
    ensures r.None? <==> limit.None?
    ensures limit.Some? ==> r.value <= SnapshotLimit && r.value <= limit.value
    ensures limit.Some? ==> r.value == limit.value || r.value == SnapshotLimit
  {
    if limit.Some? then Some(Min(limit.value, SnapshotLimit)) else None
  }

  /** The `GET /leaderboards` request: a scope name, an optional pool id and
      the limit `parseInt` reads (an absent parameter reads as 10; `None` is
      NaN). */
  function Leaderboards(snaps: Snapshots, t: Tables, scope: string, pool: Option<PoolId>, limit: Option<int>,
                        todayUtc: Day, now: Millis): (r: (Snapshots, Result<seq<Entry>>))
    ensures ScopeOf(scope, pool).Err? ==> r == (snaps, Err(ScopeOf(scope, pool).error))
    ensures ScopeOf(scope, pool).Ok? ==> r == WithSnapshot(snaps, t, ScopeOf(scope, pool).value, Capped(limit), todayUtc, now)
  {
    match ScopeOf(scope, pool)
    case Err(m) => (snaps, Err(m))
    case Ok(s) => WithSnapshot(snaps, t, s, Capped(limit), todayUtc, now)
  }

  /** Whatever the snapshots hold, a board never has more entries than a
      non-negative limit asks for. */
  lemma WithinLimit(snaps: Snapshots, t: Tables, scope: Scope, limit: int, todayUtc: Day, now: Millis)
    requires limit >= 0
    ensures var r := WithSnapshot(snaps, t, scope, Some(limit), todayUtc, now);
            r.1.Ok? ==> |r.1.value| <= limit
  {
  }

  /** The route never serves more than 50 entries, nor more than asked. */
  lemma RouteWithinLimit(snaps: Snapshots, t: Tables, scope: string, pool: Option<PoolId>, limit: int,
                         todayUtc: Day, now: Millis)
    requires limit >= 0
    ensures var r := Leaderboards(snaps, t, scope, pool, Some(limit), todayUtc, now);
            r.1.Ok? ==> |r.1.value| <= Min(limit, SnapshotLimit)
  {
    if ScopeOf(scope, pool).Ok? {
      WithinLimit(snaps, t, ScopeOf(scope, pool).value, Min(limit, SnapshotLimit), todayUtc, now);
    }
  }
}

=== FILE: leitner.dfy ===
/** The Leitner scheduler of index.js: study sets of boxes 1 to 5 with
    `POST /leitner/seed`, `GET /leitner/due`, `POST /leitner/answer` (box
    move, due date, activity ledger, XP and the per-set study statistics) and
    `POST /leitner/check-milestone`. */
module Leitner {
  import opened Common
  import Progress

  type SetId = int

  /** `simple` sets ignore due dates; `classic` sets schedule by interval. */
  datatype Mode = Simple | Classic

  /** A `learning_box_sets` row. */
  datatype BoxSet = BoxSet(owner: UserId, pool: PoolId, mode: Mode)

  datatype ItemKey = ItemKey(setId: SetId, user: UserId, question: QuestionId)

  /** A `learning_box_items` row: the box and, in classic mode, when the item is due. */
  datatype Item = Item(box: int, dueAt: Option<Millis>)

  datatype StatsKey = StatsKey(user: UserId, setId: SetId)

  /** A `leitner_stats` row; `lastActivity` is a UTC day. */
  datatype Stats = Stats(sessionCount: nat, totalCorrect: nat, totalWrong: nat, lastActivity: Day,
                         currentStreak: nat, longestStreak: nat, startedAt: Option<Millis>)

  datatype MilestoneKey = MilestoneKey(user: UserId, setId: SetId, milestone: int)

  /** A `leitner_milestones` row: the snapshot taken when the milestone was reached. */
  datatype MilestoneRow = MilestoneRow(totalQuestions: int, masteredCount: int,
                                       sessionCount: nat, daysTaken: int)

  datatype Boxes = Boxes(sets: map<SetId, BoxSet>, items: map<ItemKey, Item>,
                         stats: map<StatsKey, Stats>, milestones: map<MilestoneKey, MilestoneRow>)

  const FirstBox: int := 1
  const LastBox: int := 5

  /** `LEARNING_BOX_INTERVALS_DAYS[box] || 1`: the review interval of a box in days. */
  function IntervalDays(box: int): (d: nat)
    ensures d >= 1
    ensures box < FirstBox || box > LastBox ==> d == 1
  {
    if box == 1 then 1
    else if box == 2 then 2
    else if box == 3 then 5
    else if box == 4 then 8
    else if box == 5 then 14
    else 1
  }

  /** Higher boxes wait longer: the intervals 1, 2, 5, 8, 14 strictly increase. */
  lemma IntervalsIncrease(a: int, b: int)
    requires FirstBox <= a < b <= LastBox
    ensures IntervalDays(a) < IntervalDays(b)
  {
  }

  /** `itemRows[0]?.box || 1`: a question without an item (or with box 0) is in box 1. */
  function CurrentBox(items: map<ItemKey, Item>, k: ItemKey): int {
    if k in items && items[k].box != 0 then items[k].box else FirstBox
  }

  /** One step up on a correct answer, one step down on a wrong one, within [1, 5]. */
  function NextBox(current: int, correct: bool): (b: int)
    ensures correct ==> b == Min(current + 1, LastBox)
    ensures !correct ==> b == Max(current - 1, FirstBox)
  {
    if correct then Min(current + 1, LastBox) else Max(current - 1, FirstBox)
  }

  /** A box in [1, 5] stays in [1, 5], moving by one except at the ends. */
  lemma NextBoxInRange(current: int, correct: bool)
    requires FirstBox <= current <= LastBox
    ensures FirstBox <= NextBox(current, correct) <= LastBox
    ensures correct && current < LastBox ==> NextBox(current, correct) == current + 1
    ensures !correct && current > FirstBox ==> NextBox(current, correct) == current - 1
    ensures correct && current == LastBox ==> NextBox(current, correct) == LastBox
    ensures !correct && current == FirstBox ==> NextBox(current, correct) == FirstBox
  {
  }

  /** Four correct answers in a row carry a fresh question from box 1 to box 5,
      and one wrong answer there moves it back to box 4. */
  lemma FourCorrectReachLastBox()
    ensures NextBox(NextBox(NextBox(NextBox(FirstBox, true), true), true), true) == LastBox
    ensures NextBox(LastBox, false) == 4
  {
  }

  /** The `due_at` the answer writes: `now() + interval` in classic mode, null in simple mode. */
  function DueAt(mode: Mode, box: int, now: Millis): (r: Option<Millis>)
    ensures r.None? <==> mode.Simple?
    ensures r.Some? ==> r.value == now + IntervalDays(box) * MsPerDay
    ensures r.Some? ==> r.value >= now + MsPerDay
  {
    DaysInMs(IntervalDays(box));
    if mode.Classic? then Some(now + IntervalDays(box) * MsPerDay) else None
  }

  lemma DaysInMs(d: nat)
    requires d >= 1
    ensures d * MsPerDay >= MsPerDay
  {
    assert d * MsPerDay == (d - 1) * MsPerDay + MsPerDay;
  }

  /** The set `id`, when it exists and belongs to `u` (`WHERE id=$1 AND user_id=$2`). */
  function OwnSet(l: Boxes, id: Option<SetId>, u: UserId): Option<BoxSet> {
    if id.Some? && id.value in l.sets && l.sets[id.value].owner == u then Some(l.sets[id.value]) else None
  }

  // ------------------------------------------------------------ seeding

  /** The pool's questions (in one language when a language is given) that
      have no item in the set yet. */
  function Unseeded(l: Boxes, cat: Catalog, id: SetId, u: UserId, pool: PoolId, lang: string): set<QuestionId> {
    set q | q in cat.questions && cat.questions[q].pool == pool
                               && (lang == "" || cat.questions[q].lang == lang)
                               && ItemKey(id, u, q) !in l.items
  }

  datatype SeedStep = SeedStep(store: Boxes, reply: Result<nat>)

  /** `POST /leitner/seed`: insert a box-1 item for every question of the
      set's pool that has none (due now in classic mode, never in simple
      mode) and reply with the number inserted. */
  function Seed(l: Boxes, cat: Catalog, u: UserId, id: Option<SetId>, lang: string, now: Millis): (r: SeedStep)
    ensures id.None? ==> r.reply == Err("invalid")
    ensures id.Some? && OwnSet(l, id, u).None? ==> r.reply == Err("set_not_found")
    ensures r.reply.Err? ==> r.store == l
    ensures r.reply.Ok? ==>
              var s := OwnSet(l, id, u).value;
              var added := Unseeded(l, cat, id.value, u, s.pool, lang);
              && r.reply.value == |added|
              && r.store.sets == l.sets && r.store.stats == l.stats && r.store.milestones == l.milestones
              && (forall k | k in l.items :: k in r.store.items && r.store.items[k] == l.items[k])
              && (forall k | k in r.store.items && k !in l.items ::
                    k.setId == id.value && k.user == u && k.question in added
                    && r.store.items[k] == Item(FirstBox, if s.mode.Classic? then Some(now) else None))
              && (forall q | q in added :: ItemKey(id.value, u, q) in r.store.items)
  {
    if id.None? then SeedStep(l, Err("invalid"))
    else if OwnSet(l, id, u).None? then SeedStep(l, Err("set_not_found"))
    else
      var s := OwnSet(l, id, u).value;
      var added := Unseeded(l, cat, id.value, u, s.pool, lang);
      var item := Item(FirstBox, if s.mode.Classic? then Some(now) else None);
      var items := map k | k in l.items.Keys + (set q | q in added :: ItemKey(id.value, u, q)) ::
                     if k in l.items then l.items[k] else item;
      SeedStep(l.(items := items), Ok(|added|))
  }

  /** Seeding is idempotent: a second seed inserts nothing and changes nothing,
      whenever it runs. */
  lemma SeedIsIdempotent(l: Boxes, cat: Catalog, u: UserId, id: Option<SetId>, lang: string, now: Millis, later: Millis)
    ensures var once := Seed(l, cat, u, id, lang, now);
            var twice := Seed(once.store, cat, u, id, lang, later);
            once.reply.Ok? ==> twice.reply == Ok(0) && twice.store == once.store
  {
    var once := Seed(l, cat, u, id, lang, now);
    if once.reply.Ok? {
      var s := OwnSet(l, id, u).value;
      assert OwnSet(once.store, id, u) == Some(s);
      assert Unseeded(once.store, cat, id.value, u, s.pool, lang) == {};
      var twice := Seed(once.store, cat, u, id, lang, later);
      assert twice.store.items == once.store.items;
    }
  }

  // ------------------------------------------------------------ due items

  /** The `boxes` query parameter after `parseInt` and the [1, 5] filter:
      unreadable (`None`) and out-of-range entries are dropped. */
  function BoxFilter(requested: seq<Option<int>>): (r: set<int>)
    ensures forall b | b in r :: FirstBox <= b <= LastBox && Some(b) in requested
    ensures forall i | 0 <= i < |requested| && requested[i].Some?
              && FirstBox <= requested[i].value <= LastBox :: requested[i].value in r
  {
    set i | 0 <= i < |requested| && requested[i].Some? && FirstBox <= requested[i].value <= LastBox
          :: requested[i].value
  }

  /** The `WHERE` of the due query for one item. */
  predicate IsDue(s: BoxSet, it: Item, filter: set<int>, now: Millis) {
    && (s.mode.Simple? || it.dueAt.None? || it.dueAt.value <= now)
    && (filter == {} || it.box in filter)
  }

  /** `GET /leitner/due`: the questions of the caller's items in the set that
      are due, kept only when the question exists in the requested language. */
  function Due(l: Boxes, cat: Catalog, u: UserId, id: Option<SetId>, requested: seq<Option<int>>,
               lang: string, now: Millis): (r: Result<set<QuestionId>>)
    ensures id.None? ==> r == Err("missing_set_id")
    ensures id.Some? && OwnSet(l, id, u).None? ==> r == Err("set_not_found")
    ensures r.Ok? ==> OwnSet(l, id, u).Some?
    ensures r.Ok? ==> forall q | q in r.value ::
              var k := ItemKey(id.value, u, q);
              && k in l.items && IsDue(OwnSet(l, id, u).value, l.items[k], BoxFilter(requested), now)
              && q in cat.questions && (lang == "" || cat.questions[q].lang == lang)
    ensures r.Ok? ==> forall k | k in l.items && k.setId == id.value && k.user == u
              && IsDue(OwnSet(l, id, u).value, l.items[k], BoxFilter(requested), now)
              && k.question in cat.questions && (lang == "" || cat.questions[k.question].lang == lang)
              :: k.question in r.value
  {
    if id.None? then Err("missing_set_id")
    else if OwnSet(l, id, u).None? then Err("set_not_found")
    else
      var s := OwnSet(l, id, u).value;
      var filter := BoxFilter(requested);
      Ok(set k | k in l.items && k.setId == id.value && k.user == u && IsDue(s, l.items[k], filter, now)
                 && k.question in cat.questions && (lang == "" || cat.questions[k.question].lang == lang)
               :: k.question)
  }

  /** In classic mode nothing stops being due as time passes; in simple mode
      the clock does not matter at all. */
  lemma DueOverTime(l: Boxes, cat: Catalog, u: UserId, id: Option<SetId>, requested: seq<Option<int>>,
                    lang: string, now: Millis, later: Millis)
    requires now <= later
    ensures var a := Due(l, cat, u, id, requested, lang, now);
            var b := Due(l, cat, u, id, requested, lang, later);
            a.Ok? ==> b.Ok? && a.value <= b.value
                      && (OwnSet(l, id, u).value.mode.Simple? ==> a.value == b.value)
  {
  }

  // ------------------------------------------------------------ answers

  /** The study streak an answer on UTC day `today` leaves: one more after
      yesterday, unchanged on the same day, else a new streak of one. */
  function NextStreak(prev: Stats, today: Day): (n: nat)
    ensures prev.lastActivity == today - 1 ==> n == prev.currentStreak + 1
    ensures prev.lastActivity == today ==> n == prev.currentStreak
    ensures prev.lastActivity != today - 1 && prev.lastActivity != today ==> n == 1
  {
    if prev.lastActivity == today - 1 then prev.currentStreak + 1
    else if prev.lastActivity == today then prev.currentStreak
    else 1
  }

  /** The streak columns of a freshly inserted `leitner_stats` row, which the
      insert leaves to their column defaults. */
  const NewRowStreakDays: nat := 0

  /** The `started_at` of a freshly inserted `leitner_stats` row: the insert
      leaves it to its column default, taken here to be the time of the
      insert. */
  function NewRowStartedAt(now: Millis): Option<Millis> {
    Some(now)
  }

  /** The `leitner_stats` upsert of one answer. */
  function UpdateStats(stats: map<StatsKey, Stats>, k: StatsKey, correct: bool, today: Day, now: Millis)
    : (r: map<StatsKey, Stats>)
    ensures r.Keys == stats.Keys + {k}
    ensures forall j | j in stats && j != k :: r[j] == stats[j]
    ensures r[k].sessionCount == (if k in stats then stats[k].sessionCount else 0) + 1
    ensures r[k].totalCorrect == (if k in stats then stats[k].totalCorrect else 0) + (if correct then 1 else 0)
    ensures r[k].totalWrong == (if k in stats then stats[k].totalWrong else 0) + (if correct then 0 else 1)
    ensures r[k].lastActivity == today
    ensures k in stats ==> r[k].currentStreak == NextStreak(stats[k], today)
                           && r[k].longestStreak == Max(stats[k].longestStreak, r[k].currentStreak)
                           && r[k].startedAt == stats[k].startedAt
    ensures k !in stats ==> r[k].currentStreak == NewRowStreakDays
                            && r[k].longestStreak == NewRowStreakDays
                            && r[k].startedAt == NewRowStartedAt(now)
  {
    var c, w := if correct then 1 else 0, if correct then 0 else 1;
    if k !in stats then
      stats[k := Stats(1, c, w, today, NewRowStreakDays, NewRowStreakDays, NewRowStartedAt(now))]
    else
      var p := stats[k];
      var cur := NextStreak(p, today);
      var longest := if p.longestStreak >= cur then p.longestStreak else cur;
      stats[k := Stats(p.sessionCount + 1, p.totalCorrect + c, p.totalWrong + w, today, cur, longest, p.startedAt)]
  }

  /** The current study streak never exceeds the longest one. */
  predicate StreaksConsistent(stats: map<StatsKey, Stats>) {
    forall k | k in stats :: stats[k].currentStreak <= stats[k].longestStreak
  }

  lemma UpdateKeepsStreaksConsistent(stats: map<StatsKey, Stats>, k: StatsKey, correct: bool, today: Day, now: Millis)
    requires StreaksConsistent(stats)
    ensures StreaksConsistent(UpdateStats(stats, k, correct, today, now))
  {
  }

  /** Studying on consecutive days grows the streak by one a day, and a
      missed day starts it over. */
  lemma StreakAcrossDays(stats: map<StatsKey, Stats>, k: StatsKey, c1: bool, c2: bool, day: Day,
                         t1: Millis, t2: Millis)
    requires k in stats && stats[k].lastActivity == day - 1
    ensures var s1 := UpdateStats(stats, k, c1, day, t1);
            var s2 := UpdateStats(s1, k, c2, day + 1, t2);
            && s1[k].currentStreak == stats[k].currentStreak + 1
            && s2[k].currentStreak == stats[k].currentStreak + 2
            && UpdateStats(s1, k, c2, day + 2, t2)[k].currentStreak == 1
  {
  }

  /** The store side of an answer by `u` to question `q` of set `id`: move
      the item to its next box with its new due date and update the set's
      statistics. */
  function Study(l: Boxes, s: BoxSet, id: SetId, u: UserId, q: QuestionId, ok: bool,
                 utcDay: Day, now: Millis): (r: Boxes)
    ensures var k := ItemKey(id, u, q);
            var box := NextBox(CurrentBox(l.items, k), ok);
            && r.items == l.items[k := Item(box, DueAt(s.mode, box, now))]
            && r.stats == UpdateStats(l.stats, StatsKey(u, id), ok, utcDay, now)
            && r.sets == l.sets && r.milestones == l.milestones
  {
    var k := ItemKey(id, u, q);
    var box := NextBox(CurrentBox(l.items, k), ok);
    l.(items := l.items[k := Item(box, DueAt(s.mode, box, now))],
       stats := UpdateStats(l.stats, StatsKey(u, id), ok, utcDay, now))
  }

  datatype LeitnerReply = LeitnerReply(box: int, xpAwarded: nat, xp: nat, level: nat)

  datatype AnswerStep = AnswerStep(progress: Progress.Progress, store: Boxes, reply: Result<LeitnerReply>)

  /** `POST /leitner/answer`. `correct` is `None` unless `result` is
      'correct' or 'wrong'; `localDay` is the player's day for the ledger and
      `utcDay` the day the statistics use. */
  function Answer(p: Progress.Progress, l: Boxes, cat: Catalog, u: UserId, question: Option<QuestionId>,
                  correct: Option<bool>, id: Option<SetId>, localDay: Day, utcDay: Day, now: Millis)
    : (r: AnswerStep)
    ensures r.reply.Err? ==> r.progress == p && r.store == l
    ensures question.None? || id.None? || correct.None? ==> r.reply == Err("invalid")
    ensures question.Some? && id.Some? && correct.Some? && question.value !in cat.questions ==>
              r.reply == Err("question_not_found")
    ensures (question.Some? && id.Some? && correct.Some? && question.value in cat.questions
             && OwnSet(l, id, u).None?) ==> r.reply == Err("set_not_found")
    ensures r.reply.Ok? ==>
              && question.Some? && correct.Some? && question.value in cat.questions && OwnSet(l, id, u).Some?
    ensures r.reply.Ok? ==>
              var k := ItemKey(id.value, u, question.value);
              var box := NextBox(CurrentBox(l.items, k), correct.value);
              var pool := cat.questions[question.value].pool;
              var award := Progress.UpdateGamification(p.accounts, u, r.reply.value.xpAwarded, now);
              && r.reply.value.box == box
              && r.store == Study(l, OwnSet(l, id, u).value, id.value, u, question.value, correct.value, utcDay, now)
              && r.reply.value.xpAwarded == (if correct.value then Progress.LeitnerCorrectXp else 0)
              && r.progress.accounts == award.accounts
              && r.reply.value.xp == award.xp && r.reply.value.level == award.level
              && Progress.XpOf(r.progress.accounts, u) == Progress.XpOf(p.accounts, u) + r.reply.value.xpAwarded
              && r.progress.ledger == Progress.RecordDailyActivity(p.ledger, u, pool, localDay,
                   Progress.Delta(None, None, Some(if correct.value then 1 else 0), None, None, Some(1)))
              && Progress.Row(r.progress.ledger, Progress.LedgerKey(u, pool, localDay)).leitnerCorrect
                 == Progress.Row(p.ledger, Progress.LedgerKey(u, pool, localDay)).leitnerCorrect
                    + (if correct.value then 1 else 0)
              && Progress.Row(r.progress.ledger, Progress.LedgerKey(u, pool, localDay)).totalAnswered
                 == Progress.Row(p.ledger, Progress.LedgerKey(u, pool, localDay)).totalAnswered + 1
  {
    if question.None? || id.None? || correct.None? then AnswerStep(p, l, Err("invalid"))
    else if question.value !in cat.questions then AnswerStep(p, l, Err("question_not_found"))
    else if OwnSet(l, id, u).None? then AnswerStep(p, l, Err("set_not_found"))
    else
      var s := OwnSet(l, id, u).value;
      var ok := correct.value;
      var k := ItemKey(id.value, u, question.value);
      var box := NextBox(CurrentBox(l.items, k), ok);
      var pool := cat.questions[question.value].pool;
      var ledger := Progress.RecordDailyActivity(p.ledger, u, pool, localDay,
        Progress.Delta(None, None, Some(if ok then 1 else 0), None, None, Some(1)));
      var xpDelta := if ok then Progress.LeitnerCorrectXp else 0;
      var award := Progress.UpdateGamification(p.accounts, u, xpDelta, now);
      AnswerStep(Progress.Progress(award.accounts, ledger),
                 Study(l, s, id.value, u, question.value, ok, utcDay, now),
                 Ok(LeitnerReply(box, xpDelta, award.xp, award.level)))
  }

  /** Every item's box is in [1, 5]. */
  predicate BoxesInRange(items: map<ItemKey, Item>) {
    forall k | k in items :: FirstBox <= items[k].box <= LastBox
  }

  /** Seeding keeps every box in [1, 5]: new items start in box 1. */
  lemma SeedKeepsBoxesInRange(l: Boxes, cat: Catalog, u: UserId, id: Option<SetId>, lang: string, now: Millis)
    requires BoxesInRange(l.items)
    ensures BoxesInRange(Seed(l, cat, u, id, lang, now).store.items)
  {
  }

  /** Answering keeps every box in [1, 5]. */
  lemma StudyKeepsBoxesInRange(l: Boxes, s: BoxSet, id: SetId, u: UserId, q: QuestionId, ok: bool,
                               utcDay: Day, now: Millis)
    requires BoxesInRange(l.items)
    ensures BoxesInRange(Study(l, s, id, u, q, ok, utcDay, now).items)
  {
    NextBoxInRange(CurrentBox(l.items, ItemKey(id, u, q)), ok);
  }

  /** In a classic set, an answered question leaves the due list until its
      box's interval has passed (at least a day). */
  lemma AnsweredIsNotDueYet(l: Boxes, cat: Catalog, id: SetId, u: UserId, q: QuestionId, ok: bool,
                            utcDay: Day, now: Millis, requested: seq<Option<int>>, lang: string, later: Millis)
    requires OwnSet(l, Some(id), u).Some? && OwnSet(l, Some(id), u).value.mode.Classic?
    requires later < now + MsPerDay
    ensures var d := Due(Study(l, OwnSet(l, Some(id), u).value, id, u, q, ok, utcDay, now),
                         cat, u, Some(id), requested, lang, later);
            d.Ok? && q !in d.value
  {
    var s := OwnSet(l, Some(id), u).value;
    var l' := Study(l, s, id, u, q, ok, utcDay, now);
    var k := ItemKey(id, u, q);
    assert OwnSet(l', Some(id), u) == Some(s);
    assert !IsDue(s, l'.items[k], BoxFilter(requested), later);
  }

  // ------------------------------------------------------------ milestones

  const Milestones: seq<int> := [25, 50, 75, 100]

  /** `list.find(m => pct >= m)`: the first entry the mastery reaches. */
  function FindReached(list: seq<int>, pct: real): (r: Option<int>)
    ensures r.Some? ==> r.value in list && pct >= r.value as real
    ensures r.None? <==> forall m | m in list :: pct < m as real
    ensures r.Some? && (forall i, j | 0 <= i < j < |list| :: list[i] > list[j]) ==>
              forall m | m in list && pct >= m as real :: m <= r.value
  {
    if list == [] then None
    else
      assert forall m | m in list :: m == list[0] || m in list[1..];
      if pct >= list[0] as real then Some(list[0])
      else FindReached(list[1..], pct)
  }

  /** The milestone selection as written: `find` over the ascending list,
      which stops at 25 whenever any milestone is reached. */
  function FirstReached(pct: real): (r: Option<int>)
    ensures r.Some? <==> pct >= 25.0
    ensures r.Some? ==> r.value == 25
  {
    FindReached(Milestones, pct)
  }

  /** With the selection as written, a mastery of 80% still yields 25, so 50,
      75 and 100 are never selected. */
  lemma FirstReachedNeverPassesQuarter(pct: real)
    ensures FirstReached(80.0) == Some(25)
    ensures FirstReached(pct) != Some(50) && FirstReached(pct) != Some(75) && FirstReached(pct) != Some(100)
  {
  }

  /** The milestone evidently meant: the highest one the mastery reaches, the
      same `find` over the list from the top. */
  function HighestReached(pct: real): (r: Option<int>)
    ensures r.Some? <==> pct >= 25.0
    ensures r.Some? ==> r.value in Milestones && pct >= r.value as real
    ensures r.Some? ==> forall m | m in Milestones && pct >= m as real :: m <= r.value
  {
    var top := [100, 75, 50, 25];
    assert forall i, j | 0 <= i < j < |top| :: top[i] > top[j];
    assert forall m :: m in top <==> m in Milestones;
    assert 25 in top;
    FindReached(top, pct)
  }

  /** Every milestone is the answer for the masteries at and above it, up to
      the next one. */
  lemma EveryMilestoneReachable(i: nat, pct: real)
    requires i < |Milestones|
    requires pct >= Milestones[i] as real
    requires i + 1 < |Milestones| ==> pct < Milestones[i + 1] as real
    ensures HighestReached(pct) == Some(Milestones[i])
  {
    var r := HighestReached(pct);
    assert Milestones[i] in Milestones;
    assert r.Some? && Milestones[i] <= r.value;
  }

  /** `Math.ceil(x / d)` for a whole number of milliseconds and a positive divisor. */
  function CeilDiv(x: int, d: int): (q: int)
    requires d > 0
    ensures d * (q - 1) < x <= d * q
  {
    -((-x) / d)
  }

  /** The `stats` of a reply that records a milestone. */
  datatype MilestoneStats = MilestoneStats(sessionCount: nat, daysTaken: int)

  datatype MilestoneReply = MilestoneReply(milestone: Option<int>, alreadyRecorded: bool,
                                           stats: Option<MilestoneStats>)

  datatype MilestoneStep = MilestoneStep(store: Boxes, reply: Result<MilestoneReply>)

  /** The tail of `POST /leitner/check-milestone` once a milestone has been
      selected: nothing when none is reached, an `alreadyRecorded` reply when
      this player has it for the set, and otherwise a new row with the
      client's counts, the set's session count and the days since its first
      study session. */
  function RecordReached(l: Boxes, u: UserId, id: SetId, reached: Option<int>,
                         totalQuestions: int, masteredCount: int, now: Millis): (r: MilestoneStep)
    ensures r.reply.Ok?
    ensures r.store.sets == l.sets && r.store.items == l.items && r.store.stats == l.stats
    ensures reached.None? ==> r.store == l && r.reply == Ok(MilestoneReply(None, false, None))
    ensures reached.Some? && MilestoneKey(u, id, reached.value) in l.milestones ==>
              r.store == l && r.reply == Ok(MilestoneReply(None, true, None))
    ensures reached.Some? && MilestoneKey(u, id, reached.value) !in l.milestones ==>
              var k := MilestoneKey(u, id, reached.value);
              var sk := StatsKey(u, id);
              && k in r.store.milestones
              && r.store.milestones == l.milestones[k := r.store.milestones[k]]
              && r.store.milestones[k].totalQuestions == totalQuestions
              && r.store.milestones[k].masteredCount == masteredCount
              && r.store.milestones[k].sessionCount == (if sk in l.stats then l.stats[sk].sessionCount else 0)
              && (sk in l.stats && l.stats[sk].startedAt.Some? ==>
                    var elapsed := now - l.stats[sk].startedAt.value;
                    MsPerDay * (r.store.milestones[k].daysTaken - 1) < elapsed <= MsPerDay * r.store.milestones[k].daysTaken)
              && (sk !in l.stats || l.stats[sk].startedAt.None? ==> r.store.milestones[k].daysTaken == 0)
              && r.reply == Ok(MilestoneReply(reached, false,
                   Some(MilestoneStats(r.store.milestones[k].sessionCount, r.store.milestones[k].daysTaken))))
  {
    if reached.None? then MilestoneStep(l, Ok(MilestoneReply(None, false, None)))
    else
      var k := MilestoneKey(u, id, reached.value);
      if k in l.milestones then MilestoneStep(l, Ok(MilestoneReply(None, true, None)))
      else
        var sk := StatsKey(u, id);
        var started := if sk in l.stats then l.stats[sk].startedAt else None;
        var daysTaken := if started.Some? then CeilDiv(now - started.value, MsPerDay) else 0;
        var sessions := if sk in l.stats then l.stats[sk].sessionCount else 0;
        var row := MilestoneRow(totalQuestions, masteredCount, sessions, daysTaken);
        MilestoneStep(l.(milestones := l.milestones[k := row]),
                      Ok(MilestoneReply(reached, false, Some(MilestoneStats(sessions, daysTaken)))))
  }

  /** `POST /leitner/check-milestone` with the intended milestone selection:
      record the milestone the client's mastery reaches unless this player
      already has it for the set, with the session count and the days since
      the set's first study session. */
  function CheckMilestone(l: Boxes, u: UserId, id: Option<SetId>, pct: Option<real>,
                          totalQuestions: int, masteredCount: int, now: Millis): (r: MilestoneStep)
    ensures id.None? || pct.None? ==> r.reply == Err("invalid_params")
    ensures r.reply.Err? ==> id.None? || pct.None?
    ensures r.store.sets == l.sets && r.store.items == l.items && r.store.stats == l.stats
    ensures r.store.milestones.Keys >= l.milestones.Keys
    ensures forall k | k in l.milestones :: r.store.milestones[k] == l.milestones[k]
    ensures r.reply.Ok? && r.reply.value.milestone.None? ==> r.store == l
    ensures r.reply.Ok? && r.reply.value.milestone.Some? ==>
              var k := MilestoneKey(u, id.value, r.reply.value.milestone.value);
              var sk := StatsKey(u, id.value);
              && HighestReached(pct.value) == r.reply.value.milestone
              && k !in l.milestones && k in r.store.milestones
              && r.store.milestones == l.milestones[k := r.store.milestones[k]]
              && r.store.milestones[k].totalQuestions == totalQuestions
              && r.store.milestones[k].masteredCount == masteredCount
              && r.store.milestones[k].sessionCount == (if sk in l.stats then l.stats[sk].sessionCount else 0)
              && (sk in l.stats && l.stats[sk].startedAt.Some? ==>
                    var elapsed := now - l.stats[sk].startedAt.value;
                    MsPerDay * (r.store.milestones[k].daysTaken - 1) < elapsed <= MsPerDay * r.store.milestones[k].daysTaken)
              && (sk !in l.stats || l.stats[sk].startedAt.None? ==> r.store.milestones[k].daysTaken == 0)
              && r.reply.value.stats
                 == Some(MilestoneStats(r.store.milestones[k].sessionCount, r.store.milestones[k].daysTaken))
    ensures r.reply.Ok? && r.reply.value.alreadyRecorded ==>
              HighestReached(pct.value).Some? && MilestoneKey(u, id.value, HighestReached(pct.value).value) in l.milestones
  {
    if id.None? || pct.None? then MilestoneStep(l, Err("invalid_params"))
    else RecordReached(l, u, id.value, HighestReached(pct.value), totalQuestions, masteredCount, now)
  }

  /** `POST /leitner/check-milestone` as written, selecting with `find` over
      the ascending list: the only milestone it ever records is 25, and the
      only one it ever reports is 25. */
  function CheckMilestoneAsWritten(l: Boxes, u: UserId, id: Option<SetId>, pct: Option<real>,
                                   totalQuestions: int, masteredCount: int, now: Millis): (r: MilestoneStep)
    ensures id.None? || pct.None? ==> r.reply == Err("invalid_params")
    ensures r.reply.Err? ==> id.None? || pct.None?
    ensures r.store.sets == l.sets && r.store.items == l.items && r.store.stats == l.stats
    ensures r.store.milestones.Keys >= l.milestones.Keys
    ensures forall k | k in l.milestones :: r.store.milestones[k] == l.milestones[k]
    ensures forall k | k in r.store.milestones && k !in l.milestones ::
              id.Some? && k == MilestoneKey(u, id.value, 25)
    ensures r.reply.Ok? && r.reply.value.milestone.Some? ==> r.reply.value.milestone == Some(25)
    ensures r.reply.Ok? && r.reply.value.alreadyRecorded ==> MilestoneKey(u, id.value, 25) in l.milestones
  {
    if id.None? || pct.None? then MilestoneStep(l, Err("invalid_params"))
    else RecordReached(l, u, id.value, FirstReached(pct.value), totalQuestions, masteredCount, now)
  }

  /** Once a player's 25 is recorded for a set, the handler as written never
      writes again for that set: every later call leaves the store as it is
      and, at 25% or more, answers that the milestone is already recorded. */
  lemma AsWrittenStuckAfterQuarter(l: Boxes, u: UserId, id: SetId, pct: real,
                                   totalQuestions: int, masteredCount: int, now: Millis)
    requires MilestoneKey(u, id, 25) in l.milestones
    ensures var r := CheckMilestoneAsWritten(l, u, Some(id), Some(pct), totalQuestions, masteredCount, now);
            && r.store == l
            && (pct >= 25.0 ==> r.reply == Ok(MilestoneReply(None, true, None)))
            && (pct < 25.0 ==> r.reply == Ok(MilestoneReply(None, false, None)))
  {
  }

  /** One client request to the milestone endpoint. */
  datatype MilestoneCall = MilestoneCall(pct: Option<real>, totalQuestions: int, masteredCount: int, now: Millis)

  /** The store after a player's requests for one set, handled as written. */
  function ReplayAsWritten(l: Boxes, u: UserId, id: SetId, calls: seq<MilestoneCall>): (r: Boxes)
    ensures r.sets == l.sets && r.items == l.items && r.stats == l.stats
    decreases |calls|
  {
    if calls == [] then l
    else
      var c := calls[0];
      ReplayAsWritten(CheckMilestoneAsWritten(l, u, Some(id), c.pct, c.totalQuestions, c.masteredCount, c.now).store,
                      u, id, calls[1..])
  }

  /** The player's recorded milestones for one set. */
  function RecordedFor(l: Boxes, u: UserId, id: SetId): set<int> {
    set k | k in l.milestones && k.user == u && k.setId == id :: k.milestone
  }

  /** Whatever the masteries a player reports, the handler as written adds no
      milestone for the set but 25. */
  lemma {:induction false} ReplayAsWrittenOnlyQuarter(l: Boxes, u: UserId, id: SetId, calls: seq<MilestoneCall>)
    ensures RecordedFor(ReplayAsWritten(l, u, id, calls), u, id) <= RecordedFor(l, u, id) + {25}
    decreases |calls|
  {
    if calls != [] {
      var c := calls[0];
      var l' := CheckMilestoneAsWritten(l, u, Some(id), c.pct, c.totalQuestions, c.masteredCount, c.now).store;
      assert RecordedFor(l', u, id) <= RecordedFor(l, u, id) + {25};
      ReplayAsWrittenOnlyQuarter(l', u, id, calls[1..]);
    }
  }

  /** A player who reports 30% and then 80%: the handler as written records
      25 and then reports it as already recorded. */
  lemma AsWrittenQuarterThenEighty(l: Boxes, u: UserId, id: SetId, tq: int, mc: int, t1: Millis, t2: Millis)
    requires forall k | k in l.milestones :: k.user != u || k.setId != id
    ensures var w1 := CheckMilestoneAsWritten(l, u, Some(id), Some(30.0), tq, mc, t1);
            var w2 := CheckMilestoneAsWritten(w1.store, u, Some(id), Some(80.0), tq, mc, t2);
            && w1.reply.Ok? && w1.reply.value.milestone == Some(25) && !w1.reply.value.alreadyRecorded
            && w2.reply == Ok(MilestoneReply(None, true, None)) && w2.store == w1.store
  {
    var w1 := CheckMilestoneAsWritten(l, u, Some(id), Some(30.0), tq, mc, t1);
    AsWrittenStuckAfterQuarter(w1.store, u, id, 80.0, tq, mc, t2);
  }

  /** The same two requests with the intended selection record 25 and then 75. */
  lemma QuarterThenEighty(l: Boxes, u: UserId, id: SetId, tq: int, mc: int, t1: Millis, t2: Millis)
    requires forall k | k in l.milestones :: k.user != u || k.setId != id
    ensures var c1 := CheckMilestone(l, u, Some(id), Some(30.0), tq, mc, t1);
            var c2 := CheckMilestone(c1.store, u, Some(id), Some(80.0), tq, mc, t2);
            && c1.reply.Ok? && c1.reply.value.milestone == Some(25) && !c1.reply.value.alreadyRecorded
            && c2.reply.Ok? && c2.reply.value.milestone == Some(75) && !c2.reply.value.alreadyRecorded
            && MilestoneKey(u, id, 75) in c2.store.milestones
  {
    EveryMilestoneReachable(0, 30.0);
    EveryMilestoneReachable(2, 80.0);
    IntendedRecords(l, u, id, 30.0, 25, tq, mc, t1);
    var c1 := CheckMilestone(l, u, Some(id), Some(30.0), tq, mc, t1);
    IntendedRecords(c1.store, u, id, 80.0, 75, tq, mc, t2);
  }

  lemma IntendedRecords(l: Boxes, u: UserId, id: SetId, pct: real, m: int, tq: int, mc: int, now: Millis)
    requires HighestReached(pct) == Some(m) && MilestoneKey(u, id, m) !in l.milestones
    ensures var r := CheckMilestone(l, u, Some(id), Some(pct), tq, mc, now);
            && r.reply.Ok? && r.reply.value.milestone == Some(m) && !r.reply.value.alreadyRecorded
            && r.store.milestones.Keys == l.milestones.Keys + {MilestoneKey(u, id, m)}
  {
  }

  /** A milestone is recorded at most once: asking again changes nothing and
      reports it as already recorded. */
  lemma MilestoneRecordedOnce(l: Boxes, u: UserId, id: Option<SetId>, pct: Option<real>,
                              totalQuestions: int, masteredCount: int, now: Millis,
                              tq: int, mc: int, later: Millis)
    ensures var once := CheckMilestone(l, u, id, pct, totalQuestions, masteredCount, now);
            var twice := CheckMilestone(once.store, u, id, pct, tq, mc, later);
            once.reply.Ok? && once.reply.value.milestone.Some? ==>
              twice.store == once.store && twice.reply == Ok(MilestoneReply(None, true, None))
  {
  }
}

=== FILE: parsing.dfy ===
/** The small text parsers of index.js: JavaScript `trim` and `split`, the
    cookie lookup `getCookie`, the refresh-cookie lifetime read from a
    `"<n>[smhd]"` duration, and the `parseCsvLine` scanner used by the CSV
    question import. */
module Parsing {
  import opened Common

  // ------------------------------------------------------------ trim and split

  /** The WhiteSpace and LineTerminator code points of ECMAScript, which both
      `String.prototype.trim` and the regular-expression class `\s` use. */
  predicate IsJsSpace(c: char) {
    var n := c as int;
    || (9 <= n <= 13) || n == 0x20 || n == 0xA0 || n == 0x1680 || (0x2000 <= n <= 0x200A)
    || n == 0x2028 || n == 0x2029 || n == 0x202F || n == 0x205F || n == 0x3000 || n == 0xFEFF
  }

  predicate AllSpace(s: string) {
    forall i | 0 <= i < |s| :: IsJsSpace(s[i])
  }

  /** No white space at either end. */
  predicate Clean(s: string) {
    s == [] || (!IsJsSpace(s[0]) && !IsJsSpace(s[|s| - 1]))
  }

  /** The number of white-space characters `s` starts with. */
  function LeadLength(s: string): (n: nat)
    ensures n <= |s|
    ensures forall i | 0 <= i < n :: IsJsSpace(s[i])
    ensures n < |s| ==> !IsJsSpace(s[n])
  {
    if s == [] || !IsJsSpace(s[0]) then 0
    else
      var n := LeadLength(s[1..]);
      assert forall i | 1 <= i < n + 1 :: s[i] == s[1..][i - 1];
      n + 1
  }

  /** The number of white-space characters `s` ends with. */
  function TrailLength(s: string): (n: nat)
    ensures n <= |s|
    ensures forall i | |s| - n <= i < |s| :: IsJsSpace(s[i])
    ensures n < |s| ==> !IsJsSpace(s[|s| - n - 1])
  {
    if s == [] || !IsJsSpace(s[|s| - 1]) then 0
    else
      var n := TrailLength(s[..|s| - 1]);
      assert forall i | |s| - n - 1 <= i < |s| - 1 :: s[i] == s[..|s| - 1][i];
      n + 1
  }

  /** `String.prototype.trim`: the string without white space at its ends. */
  function Trim(s: string): (r: string)
    ensures Clean(r)
    ensures |r| <= |s|
    ensures forall c | c in r :: c in s
  {
    var a := LeadLength(s);
    var t := s[a..];
    var b := |t| - TrailLength(t);
    assert b > 0 ==> t[0] == s[a];
    t[..b]
  }

  /** Trimming removes exactly the padding around a clean string. */
  lemma TrimPadded(pre: string, x: string, post: string)
    requires AllSpace(pre) && AllSpace(post) && Clean(x)
    ensures Trim(pre + x + post) == x
  {
    var s := pre + x + post;
    assert forall i | 0 <= i < |pre| :: s[i] == pre[i];
    assert forall i | 0 <= i < |x| :: s[|pre| + i] == x[i];
    assert forall i | 0 <= i < |post| :: s[|pre| + |x| + i] == post[i];
    var a := LeadLength(s);
    if x == [] {
      assert AllSpace(s);
      assert a == |s|;
    } else {
      assert a == |pre|;
      var t := s[a..];
      assert t == x + post;
      assert forall i | 0 <= i < |post| :: t[|x| + i] == post[i];
      assert TrailLength(t) == |post|;
    }
  }

  /** `s.split(sep)` for a one-character separator: the pieces between the
      separators, so there is always at least one. */
  function SplitOn(s: string, sep: char): (r: seq<string>)
    ensures |r| >= 1
    ensures forall k | 0 <= k < |r| :: sep !in r[k]
  {
    if s == [] then [""]
    else
      var rest := SplitOn(s[1..], sep);
      if s[0] == sep then [""] + rest
      else
        assert forall k | 1 <= k < |rest| :: ([[s[0]] + rest[0]] + rest[1..])[k] == rest[k];
        [[s[0]] + rest[0]] + rest[1..]
  }

  /** `parts.join(sep)`. */
  function JoinWith(parts: seq<string>, sep: char): string {
    if parts == [] then ""
    else if |parts| == 1 then parts[0]
    else parts[0] + [sep] + JoinWith(parts[1..], sep)
  }

  /** Joining the pieces gives the string back. */
  lemma {:induction false} JoinSplit(s: string, sep: char)
    ensures JoinWith(SplitOn(s, sep), sep) == s
  {
    if s != [] {
      JoinSplit(s[1..], sep);
      var rest := SplitOn(s[1..], sep);
      if s[0] == sep {
        assert s == [sep] + s[1..];
      } else {
        var r := [[s[0]] + rest[0]] + rest[1..];
        assert r[1..] == rest[1..];
        if |rest| == 1 {
          assert s == [s[0]] + rest[0];
        } else {
          assert rest == [rest[0]] + rest[1..];
          assert JoinWith(rest, sep) == rest[0] + [sep] + JoinWith(rest[1..], sep);
          assert s == [s[0]] + s[1..];
        }
      }
    }
  }

  lemma {:induction false} SplitPiece(a: string, b: string, sep: char)
    requires sep !in a
    ensures SplitOn(a + [sep] + b, sep) == [a] + SplitOn(b, sep)
  {
    if a == [] {
      assert a + [sep] + b == [sep] + b;
      assert ([sep] + b)[1..] == b;
    } else {
      assert (a + [sep] + b)[1..] == a[1..] + [sep] + b;
      SplitPiece(a[1..], b, sep);
      assert [a[0]] + a[1..] == a;
    }
  }

  lemma {:induction false} SplitLast(a: string, sep: char)
    requires sep !in a
    ensures SplitOn(a, sep) == [a]
  {
    if a != [] {
      SplitLast(a[1..], sep);
      assert [a[0]] + a[1..] == a;
    }
  }

  /** Splitting a join of separator-free pieces gives the pieces back. */
  lemma {:induction false} SplitJoin(parts: seq<string>, sep: char)
    requires |parts| >= 1 && forall k | 0 <= k < |parts| :: sep !in parts[k]
    ensures SplitOn(JoinWith(parts, sep), sep) == parts
  {
    if |parts| == 1 {
      SplitLast(parts[0], sep);
    } else {
      SplitJoin(parts[1..], sep);
      SplitPiece(parts[0], JoinWith(parts[1..], sep), sep);
      assert parts == [parts[0]] + parts[1..];
    }
  }

  /** `s.indexOf(c)`: the first position of `c`, or -1. */
  function IndexOf(s: string, c: char): (i: int)
    ensures i >= -1
    ensures i == -1 <==> c !in s
    ensures i >= 0 ==> i < |s| && s[i] == c && c !in s[..i]
  {
    if s == [] then -1
    else if s[0] == c then 0
    else
      var i := IndexOf(s[1..], c);
      if i == -1 then -1
      else
        assert s[..i + 1] == [s[0]] + s[1..][..i];
        i + 1
  }

  // ------------------------------------------------------------ cookies

  /** What one trimmed `name=value` piece of a Cookie header yields for
      `name`: its value when the text before the first `=`, trimmed, is the
      name. The value is returned as sent; percent-decoding is left to the
      caller. */
  function PartValue(part: string, name: string): (r: Option<string>)
    ensures r.Some? ==> '=' in part && r.value == part[IndexOf(part, '=') + 1..]
    ensures r.Some? <==> '=' in part && Trim(part[..IndexOf(part, '=')]) == name
    ensures r.Some? ==> forall c | c in r.value :: c in part
  {
    if part == "" then None
    else
      var idx := IndexOf(part, '=');
      if idx == -1 then None
      else if Trim(part[..idx]) == name then
        SuffixChars(part, idx + 1);
        Some(part[idx + 1..])
      else None
  }

  lemma SuffixChars(s: string, i: nat)
    requires i <= |s|
    ensures forall c | c in s[i..] :: c in s
  {
    forall c | c in s[i..] ensures c in s {
      var k :| 0 <= k < |s[i..]| && s[i..][k] == c;
      assert s[i + k] == c;
    }
  }

  /** The first answer in a list of lookups: nothing only when every lookup
      came back empty, else the earliest value. */
  function FirstSome(xs: seq<Option<string>>): (r: Option<string>)
    ensures r.None? <==> forall k | 0 <= k < |xs| :: xs[k].None?
    ensures r.Some? ==> exists k | 0 <= k < |xs| :: xs[k] == r && forall j | 0 <= j < k :: xs[j].None?
  {
    if xs == [] then None
    else if xs[0].Some? then xs[0]
    else
      var r := FirstSome(xs[1..]);
      assert forall k | 1 <= k < |xs| :: xs[1..][k - 1] == xs[k];
      assert r.Some? ==> exists k | 1 <= k < |xs| :: xs[k] == r && forall j | 0 <= j < k :: xs[j].None?;
      r
  }

  /** The lookup of `name` in each trimmed piece. */
  function Lookups(parts: seq<string>, name: string): (xs: seq<Option<string>>)
    ensures |xs| == |parts|
    ensures forall k | 0 <= k < |parts| :: xs[k] == PartValue(Trim(parts[k]), name)
  {
    seq(|parts|, k requires 0 <= k < |parts| => PartValue(Trim(parts[k]), name))
  }

  /** `getCookie`: no header or an empty one yields nothing; otherwise the
      value of the first `;`-separated piece naming the cookie, which never
      holds a `;`. */
  function GetCookie(header: Option<string>, name: string): (r: Option<string>)
    ensures header.None? || header == Some("") ==> r.None?
    ensures r.Some? ==> ';' !in r.value
  {
    if header.None? || header.value == "" then None
    else
      var parts := SplitOn(header.value, ';');
      NoSeparatorInValue(parts, name);
      FirstSome(Lookups(parts, name))
  }

  lemma NoSeparatorInValue(parts: seq<string>, name: string)
    requires forall k | 0 <= k < |parts| :: ';' !in parts[k]
    ensures FirstSome(Lookups(parts, name)).Some? ==> ';' !in FirstSome(Lookups(parts, name)).value
  {
    var xs := Lookups(parts, name);
    var r := FirstSome(xs);
    if r.Some? {
      var k :| 0 <= k < |xs| && xs[k] == r;
      assert forall c | c in Trim(parts[k]) :: c in parts[k];
    }
  }

  /** A cookie a browser sends: `name=value`. */
  datatype Cookie = Cookie(name: string, value: string)

  /** A name and a value `getCookie` can read back: no separator in either,
      no `=` and no surrounding white space in the name, no trailing white
      space in the value. */
  predicate Sendable(c: Cookie) {
    && ';' !in c.name && '=' !in c.name && Clean(c.name)
    && ';' !in c.value && (c.value == [] || !IsJsSpace(c.value[|c.value| - 1]))
  }

  /** The pieces of the header a browser builds, `a=1; b=2`, between the `;`. */
  function HeaderParts(cs: seq<Cookie>): (parts: seq<string>)
    ensures |parts| == |cs|
  {
    seq(|cs|, k requires 0 <= k < |cs| => (if k == 0 then "" else " ") + cs[k].name + "=" + cs[k].value)
  }

  function CookieHeader(cs: seq<Cookie>): string {
    JoinWith(HeaderParts(cs), ';')
  }

  /** The value sent first under `name`. */
  function FirstValue(cs: seq<Cookie>, name: string): Option<string> {
    if cs == [] then None
    else if cs[0].name == name then Some(cs[0].value)
    else FirstValue(cs[1..], name)
  }

  /** For each cookie sent, its value when it carries `name`. */
  function Offers(cs: seq<Cookie>, name: string): (xs: seq<Option<string>>)
    ensures |xs| == |cs|
  {
    seq(|cs|, k requires 0 <= k < |cs| => if cs[k].name == name then Some(cs[k].value) else None)
  }

  lemma {:induction false} FirstOffer(cs: seq<Cookie>, name: string)
    ensures FirstSome(Offers(cs, name)) == FirstValue(cs, name)
  {
    if cs != [] && cs[0].name != name {
      FirstOffer(cs[1..], name);
      assert Offers(cs, name)[1..] == Offers(cs[1..], name);
    }
  }

  lemma CleanTrims(x: string)
    requires Clean(x)
    ensures Trim(x) == x
  {
    TrimPadded([], x, []);
    assert [] + x + [] == x;
  }

  lemma SplitAtEquals(nm: string, v: string)
    requires '=' !in nm
    ensures var p := nm + "=" + v;
            IndexOf(p, '=') == |nm| && p[..|nm|] == nm && p[|nm| + 1..] == v
  {
    var p := nm + "=" + v;
    assert p[|nm|] == '=';
    assert p[..|nm|] == nm;
    var i := IndexOf(p, '=');
    if i < |nm| { assert false; }
    if i > |nm| { assert false; }
  }

  /** A piece of the header, trimmed, yields the cookie's value under its own
      name and nothing under any other. */
  lemma PieceReads(c: Cookie, lead: string, name: string)
    requires Sendable(c) && AllSpace(lead)
    ensures PartValue(Trim(lead + c.name + "=" + c.value), name) == (if c.name == name then Some(c.value) else None)
  {
    var p := c.name + "=" + c.value;
    assert lead + c.name + "=" + c.value == lead + p + [];
    assert Clean(p) by {
      if c.name == [] { assert p[0] == '='; } else { assert p[0] == c.name[0]; }
      if c.value == [] { assert p[|p| - 1] == '='; } else { assert p[|p| - 1] == c.value[|c.value| - 1]; }
    }
    TrimPadded(lead, p, []);
    SplitAtEquals(c.name, c.value);
    CleanTrims(c.name);
  }

  /** `getCookie` reads back the first value a browser sent under the name. */
  lemma GetCookieRoundTrip(cs: seq<Cookie>, name: string)
    requires forall k | 0 <= k < |cs| :: Sendable(cs[k])
    ensures GetCookie(Some(CookieHeader(cs)), name) == FirstValue(cs, name)
  {
    var parts := HeaderParts(cs);
    if cs != [] {
      assert forall k | 0 <= k < |parts| :: ';' !in parts[k];
      SplitJoin(parts, ';');
      forall k | 0 <= k < |cs| ensures Lookups(parts, name)[k] == Offers(cs, name)[k] {
        PieceReads(cs[k], if k == 0 then "" else " ", name);
      }
      assert Lookups(parts, name) == Offers(cs, name);
      FirstOffer(cs, name);
      assert CookieHeader(cs) != "" by {
        assert '=' in parts[0];
        if |parts| == 1 { assert CookieHeader(cs) == parts[0]; }
        else { assert CookieHeader(cs) == parts[0] + [';'] + JoinWith(parts[1..], ';'); }
      }
    }
  }

  // ------------------------------------------------------------ refresh max-age

  /** `REFRESH_COOKIE_MAX_AGE_MS` when the setting cannot be read: seven days. */
  const DefaultRefreshMaxAge: int := 7 * MsPerDay

  predicate IsDigit(c: char) { '0' <= c <= '9' }

  predicate AllDigits(s: string) {
    forall i | 0 <= i < |s| :: IsDigit(s[i])
  }

  /** `parseInt(digits, 10)`. */
  function DecimalValue(s: string): nat
    requires AllDigits(s)
  {
    if s == [] then 0 else 10 * DecimalValue(s[..|s| - 1]) + (s[|s| - 1] as int - '0' as int)
  }

  /** The decimal spelling of `n`. */
  function DecimalDigits(n: nat): (s: string)
    ensures |s| >= 1 && AllDigits(s) && !IsJsSpace(s[0])
    ensures DecimalValue(s) == n
  {
    var d := ['0' + ((n % 10) as char)];
    if n < 10 then d
    else
      var p := DecimalDigits(n / 10);
      var s := p + d;
      assert s[..|s| - 1] == p;
      s
  }

  /** The duration unit, case-insensitively, in milliseconds. */
  function UnitMs(c: char): (ms: Option<nat>)
    ensures ms.Some? ==> !IsJsSpace(c) && !IsDigit(c)
  {
    if c == 's' || c == 'S' then Some(MsPerSecond)
    else if c == 'm' || c == 'M' then Some(MsPerMinute)
    else if c == 'h' || c == 'H' then Some(MsPerHour)
    else if c == 'd' || c == 'D' then Some(MsPerDay)
    else None
  }

  /** Length of the longest prefix of `s` made of characters that satisfy `digits` (digits) or not (white space). */
  function RunLength(s: string, digits: bool): (k: nat)
    ensures k <= |s|
    ensures forall i | 0 <= i < k :: if digits then IsDigit(s[i]) else IsJsSpace(s[i])
    ensures k < |s| ==> !(if digits then IsDigit(s[k]) else IsJsSpace(s[k]))
  {
    if s == [] || !(if digits then IsDigit(s[0]) else IsJsSpace(s[0])) then 0
    else 1 + RunLength(s[1..], digits)
  }

  /** The shape `/^(\d+)\s*([smhd])$/i`: digits, white space, one unit letter. */
  predicate DurationSyntax(s: string, k: nat, w: nat) {
    && 0 < k && k + w + 1 == |s|
    && AllDigits(s[..k]) && AllSpace(s[k..k + w]) && UnitMs(s[k + w]).Some?
  }

  /** The match of `/^(\d+)\s*([smhd])$/i`: the number and the unit in
      milliseconds. Greedy matching has one way to split the string, because
      a unit letter is neither a digit nor white space. */
  function MatchDuration(s: string): (r: Option<(nat, nat)>)
    ensures r.Some? <==> exists k: nat, w: nat :: DurationSyntax(s, k, w)
    ensures forall k: nat, w: nat | DurationSyntax(s, k, w) ::
              r == Some((DecimalValue(s[..k]), UnitMs(s[k + w]).value))
  {
    var k := RunLength(s, true);
    var w := RunLength(s[k..], false);
    GreedySplit(s, k, w);
    if 0 < k && k + w + 1 == |s| && UnitMs(s[k + w]).Some? then
      Some((DecimalValue(s[..k]), UnitMs(s[k + w]).value))
    else
      None
  }

  /** The greedy runs are the one split the syntax admits, when there is one. */
  lemma GreedySplit(s: string, k: nat, w: nat)
    requires k == RunLength(s, true) && w == RunLength(s[k..], false)
    ensures forall k': nat, w': nat | DurationSyntax(s, k', w') :: k' == k && w' == w
    ensures (0 < k && k + w + 1 == |s| && UnitMs(s[k + w]).Some?) ==> DurationSyntax(s, k, w)
  {
    forall k': nat, w': nat | DurationSyntax(s, k', w')
      ensures k' == k && w' == w
    {
      SplitIsUnique(s, k', w', k, w);
    }
    if 0 < k && k + w + 1 == |s| && UnitMs(s[k + w]).Some? {
      GreedyMatches(s, k, w);
    }
  }

  lemma GreedyMatches(s: string, k: nat, w: nat)
    requires k == RunLength(s, true) && w == RunLength(s[k..], false)
    requires 0 < k && k + w + 1 == |s| && UnitMs(s[k + w]).Some?
    ensures DurationSyntax(s, k, w)
  {
    DigitRun(s);
    SpaceRun(s[k..]);
    assert s[k..k + w] == s[k..][..w];
  }

  lemma DigitRun(s: string)
    ensures AllDigits(s[..RunLength(s, true)])
  {
    var k := RunLength(s, true);
    assert forall i | 0 <= i < k :: s[..k][i] == s[i];
  }

  lemma SpaceRun(s: string)
    ensures AllSpace(s[..RunLength(s, false)])
  {
    var k := RunLength(s, false);
    assert forall i | 0 <= i < k :: s[..k][i] == s[i];
  }

  lemma ShapeFacts(s: string, k: nat, w: nat)
    requires DurationSyntax(s, k, w)
    ensures forall i | 0 <= i < k :: IsDigit(s[i])
    ensures forall i | k <= i < k + w :: IsJsSpace(s[i]) && !IsDigit(s[i])
    ensures !IsDigit(s[k + w]) && !IsJsSpace(s[k + w])
    ensures !IsDigit(s[k])
  {
    assert forall i | 0 <= i < k :: s[..k][i] == s[i];
    assert forall i | k <= i < k + w :: s[k..k + w][i - k] == s[i];
  }

  lemma SplitIsUnique(s: string, k': nat, w': nat, k: nat, w: nat)
    requires DurationSyntax(s, k', w')
    requires k == RunLength(s, true) && w == RunLength(s[k..], false)
    ensures k' == k && w' == w
  {
    ShapeFacts(s, k', w');
    if k < k' { assert false; }
    if k' < k { assert false; }
    var rest := s[k..];
    assert forall i | 0 <= i < |rest| :: rest[i] == s[k + i];
    if w < w' { assert false; }
    if w' < w { assert false; }
  }

  /** `REFRESH_COOKIE_MAX_AGE_MS`: the trimmed setting read as a duration,
      seven days when it does not have that shape. */
  function RefreshMaxAge(raw: string): (ms: nat)
    ensures MatchDuration(Trim(raw)).None? ==> ms == DefaultRefreshMaxAge
  {
    match MatchDuration(Trim(raw))
    case None => DefaultRefreshMaxAge
    case Some((n, unit)) => n * unit
  }

  /** A written duration, with any padding, is read back as its number of
      milliseconds. */
  lemma RefreshMaxAgeRoundTrip(n: nat, unit: char, pre: string, mid: string, post: string)
    requires UnitMs(unit).Some? && AllSpace(pre) && AllSpace(mid) && AllSpace(post)
    ensures RefreshMaxAge(pre + DecimalDigits(n) + mid + [unit] + post) == n * UnitMs(unit).value
  {
    var d := DecimalDigits(n);
    var x := d + mid + [unit];
    assert pre + d + mid + [unit] + post == pre + x + post;
    TrimPadded(pre, x, post);
    assert x[..|d|] == d;
    assert x[|d|..|d| + |mid|] == mid;
    assert DurationSyntax(x, |d|, |mid|);
  }

  /** The seven-day default as a setting reads as itself. */
  lemma DefaultSettingIsSevenDays()
    ensures RefreshMaxAge("7d") == DefaultRefreshMaxAge
  {
    RefreshMaxAgeRoundTrip(7, 'd', "", "", "");
    assert "" + DecimalDigits(7) + "" + ['d'] + "" == "7d";
  }

  // ------------------------------------------------------------ CSV lines

  datatype CsvState = CsvState(out: seq<string>, cur: string, inQuotes: bool)

  /** The `parseCsvLine` loop from `st` over the rest `s` of the line: a
      doubled quote adds one quote character (inside quotes or not), a single
      quote toggles quoting, an unquoted comma ends a field, anything else is
      field text. */
  function Scan(s: string, st: CsvState): CsvState {
    if s == [] then st
    else if s[0] == '"' && |s| > 1 && s[1] == '"' then Scan(s[2..], st.(cur := st.cur + "\""))
    else if s[0] == '"' then Scan(s[1..], st.(inQuotes := !st.inQuotes))
    else if s[0] == ',' && !st.inQuotes then Scan(s[1..], CsvState(st.out + [st.cur], "", false))
    else Scan(s[1..], st.(cur := st.cur + [s[0]]))
  }

  /** The same loop with the escape read only inside quotes, as RFC 4180
      section 2 has it. */
  function ScanQuoted(s: string, st: CsvState): CsvState {
    if s == [] then st
    else if s[0] == '"' && st.inQuotes && |s| > 1 && s[1] == '"' then ScanQuoted(s[2..], st.(cur := st.cur + "\""))
    else if s[0] == '"' then ScanQuoted(s[1..], st.(inQuotes := !st.inQuotes))
    else if s[0] == ',' && !st.inQuotes then ScanQuoted(s[1..], CsvState(st.out + [st.cur], "", false))
    else ScanQuoted(s[1..], st.(cur := st.cur + [s[0]]))
  }

  function TrimAll(fields: seq<string>): (r: seq<string>)
    ensures |r| == |fields|
    ensures forall k | 0 <= k < |r| :: r[k] == Trim(fields[k])
  {
    seq(|fields|, k requires 0 <= k < |fields| => Trim(fields[k]))
  }

  /** `parseCsvLine` as written. */
  function ParseCsvLine(line: string): (r: seq<string>)
    ensures |r| >= 1
    ensures forall k | 0 <= k < |r| :: Clean(r[k])
  {
    var st := Scan(line, CsvState([], "", false));
    TrimAll(st.out + [st.cur])
  }

  /** `parseCsvLine` with the escape read only inside quotes. */
  function ParseCsvLineFixed(line: string): (r: seq<string>)
    ensures |r| >= 1
    ensures forall k | 0 <= k < |r| :: Clean(r[k])
  {
    var st := ScanQuoted(line, CsvState([], "", false));
    TrimAll(st.out + [st.cur])
  }

  /** A field as a CSV writer quotes it: in quotes, inner quotes doubled. */
  function Escape(f: string): string {
    if f == [] then []
    else (if f[0] == '"' then "\"\"" else [f[0]]) + Escape(f[1..])
  }

  function Quote(f: string): string {
    "\"" + Escape(f) + "\""
  }

  function EncodeCsv(fields: seq<string>): string
    requires |fields| >= 1
  {
    if |fields| == 1 then Quote(fields[0]) else Quote(fields[0]) + "," + EncodeCsv(fields[1..])
  }

  lemma ScanPair(e: string, st: CsvState)
    requires |e| > 1 && e[0] == '"' && e[1] == '"'
    ensures Scan(e, st) == Scan(e[2..], st.(cur := st.cur + "\""))
  {
  }

  lemma ScanText(e: string, st: CsvState)
    requires e != [] && e[0] != '"' && (e[0] != ',' || st.inQuotes)
    ensures Scan(e, st) == Scan(e[1..], st.(cur := st.cur + [e[0]]))
  {
  }

  lemma ScanComma(e: string, st: CsvState)
    requires e != [] && e[0] == ',' && !st.inQuotes
    ensures Scan(e, st) == Scan(e[1..], CsvState(st.out + [st.cur], "", false))
  {
  }

  lemma ScanToggle(e: string, st: CsvState)
    requires e != [] && e[0] == '"' && (|e| == 1 || e[1] != '"')
    ensures Scan(e, st) == Scan(e[1..], st.(inQuotes := !st.inQuotes))
  {
  }

  lemma QuotedPair(e: string, st: CsvState)
    requires |e| > 1 && e[0] == '"' && e[1] == '"' && st.inQuotes
    ensures ScanQuoted(e, st) == ScanQuoted(e[2..], st.(cur := st.cur + "\""))
  {
  }

  lemma QuotedText(e: string, st: CsvState)
    requires e != [] && e[0] != '"' && (e[0] != ',' || st.inQuotes)
    ensures ScanQuoted(e, st) == ScanQuoted(e[1..], st.(cur := st.cur + [e[0]]))
  {
  }

  lemma QuotedComma(e: string, st: CsvState)
    requires e != [] && e[0] == ',' && !st.inQuotes
    ensures ScanQuoted(e, st) == ScanQuoted(e[1..], CsvState(st.out + [st.cur], "", false))
  {
  }

  lemma QuotedToggle(e: string, st: CsvState)
    requires e != [] && e[0] == '"' && (|e| == 1 || e[1] != '"' || !st.inQuotes)
    ensures ScanQuoted(e, st) == ScanQuoted(e[1..], st.(inQuotes := !st.inQuotes))
  {
  }

  /** Inside quotes both scanners read an escaped field body back and leave
      quoting at its closing quote. */
  lemma {:induction false} BodyReads(f: string, rest: string, out: seq<string>, cur: string)
    requires rest == [] || rest[0] != '"'
    ensures Scan(Escape(f) + "\"" + rest, CsvState(out, cur, true)) == Scan(rest, CsvState(out, cur + f, false))
  {
    var e := Escape(f) + "\"" + rest;
    if f == [] {
      assert e == ['"'] + rest;
      ScanToggle(e, CsvState(out, cur, true));
      assert e[1..] == rest && cur + f == cur;
    } else {
      var e' := Escape(f[1..]) + "\"" + rest;
      BodyReads(f[1..], rest, out, cur + [f[0]]);
      EscapeCons(f, rest);
      if f[0] == '"' {
        ScanPair(e, CsvState(out, cur, true));
      } else {
        ScanText(e, CsvState(out, cur, true));
      }
      ExtendCur(cur, f);
    }
  }

  lemma {:induction false} BodyReadsQuoted(f: string, rest: string, out: seq<string>, cur: string)
    requires rest == [] || rest[0] != '"'
    ensures ScanQuoted(Escape(f) + "\"" + rest, CsvState(out, cur, true)) == ScanQuoted(rest, CsvState(out, cur + f, false))
  {
    var e := Escape(f) + "\"" + rest;
    if f == [] {
      assert e == ['"'] + rest;
      QuotedToggle(e, CsvState(out, cur, true));
      assert e[1..] == rest && cur + f == cur;
    } else {
      var e' := Escape(f[1..]) + "\"" + rest;
      BodyReadsQuoted(f[1..], rest, out, cur + [f[0]]);
      EscapeCons(f, rest);
      if f[0] == '"' {
        QuotedPair(e, CsvState(out, cur, true));
      } else {
        QuotedText(e, CsvState(out, cur, true));
      }
      ExtendCur(cur, f);
    }
  }

  lemma EscapeCons(f: string, rest: string)
    requires f != []
    ensures var e := Escape(f) + "\"" + rest;
            var e' := Escape(f[1..]) + "\"" + rest;
            if f[0] == '"' then |e| > 1 && e[0] == '"' && e[1] == '"' && e[2..] == e'
            else e != [] && e[0] == f[0] && e[1..] == e'
  {
    var e' := Escape(f[1..]) + "\"" + rest;
    if f[0] == '"' {
      assert Escape(f) + "\"" + rest == "\"\"" + e';
    } else {
      assert Escape(f) + "\"" + rest == [f[0]] + e';
    }
  }

  lemma ExtendCur(cur: string, f: string)
    requires f != []
    ensures cur + [f[0]] + f[1..] == cur + f
  {
    assert [f[0]] + f[1..] == f;
  }

  /** One quoted field, as written: read back when it starts with neither a
      quote nor nothing. */
  lemma FieldReads(f: string, rest: string, out: seq<string>)
    requires f != [] && f[0] != '"' && (rest == [] || rest[0] == ',')
    ensures Scan(Quote(f) + rest, CsvState(out, "", false)) == Scan(rest, CsvState(out, f, false))
  {
    var e := Quote(f) + rest;
    EscapeHead(f);
    OpenQuote(f, rest);
    ScanToggle(e, CsvState(out, "", false));
    BodyReads(f, rest, out, "");
    assert "" + f == f;
  }

  lemma EscapeHead(f: string)
    requires f != [] && f[0] != '"'
    ensures Escape(f) != [] && Escape(f)[0] == f[0]
  {
    assert Escape(f) == [f[0]] + Escape(f[1..]);
  }

  /** An encoded field opens with a quote followed by its escaped body. */
  lemma OpenQuote(f: string, rest: string)
    ensures var e := Quote(f) + rest;
            e != [] && e[0] == '"' && e[1..] == Escape(f) + "\"" + rest
  {
    assert Quote(f) + rest == ['"'] + (Escape(f) + "\"" + rest);
  }

  /** One quoted field, corrected: always read back. */
  lemma FieldReadsQuoted(f: string, rest: string, out: seq<string>)
    requires rest == [] || rest[0] == ','
    ensures ScanQuoted(Quote(f) + rest, CsvState(out, "", false)) == ScanQuoted(rest, CsvState(out, f, false))
  {
    var e := Quote(f) + rest;
    OpenQuote(f, rest);
    QuotedToggle(e, CsvState(out, "", false));
    BodyReadsQuoted(f, rest, out, "");
    assert "" + f == f;
  }

  lemma FieldsConcat(fields: seq<string>, out: seq<string>)
    requires |fields| >= 2
    ensures EncodeCsv(fields) == Quote(fields[0]) + ("," + EncodeCsv(fields[1..]))
    ensures out + [fields[0]] + fields[1..][..|fields| - 2] == out + fields[..|fields| - 1]
  {
    EncodeFirst(fields);
    FieldsPrefix(fields, out);
  }

  lemma EncodeFirst(fields: seq<string>)
    requires |fields| >= 2
    ensures EncodeCsv(fields) == Quote(fields[0]) + ("," + EncodeCsv(fields[1..]))
  {
    var a, c := Quote(fields[0]), EncodeCsv(fields[1..]);
    assert EncodeCsv(fields) == a + "," + c;
    Assoc(a, ",", c);
  }

  lemma Assoc(a: string, b: string, c: string)
    ensures a + b + c == a + (b + c)
  {
  }

  lemma FieldsPrefix(fields: seq<string>, out: seq<string>)
    requires |fields| >= 2
    ensures out + [fields[0]] + fields[1..][..|fields| - 2] == out + fields[..|fields| - 1]
  {
    assert fields[..|fields| - 1] == [fields[0]] + fields[1..][..|fields| - 2];
  }

  /** The corrected scanner reads an encoded line field by field. */
  lemma {:induction false} FixedReadsFields(fields: seq<string>, out: seq<string>)
    requires |fields| >= 1
    ensures ScanQuoted(EncodeCsv(fields), CsvState(out, "", false))
            == CsvState(out + fields[..|fields| - 1], fields[|fields| - 1], false)
  {
    var f := fields[0];
    if |fields| == 1 {
      FieldReadsQuoted(f, [], out);
      assert Quote(f) + [] == EncodeCsv(fields);
    } else {
      var tail := EncodeCsv(fields[1..]);
      FieldsConcat(fields, out);
      FieldReadsQuoted(f, "," + tail, out);
      QuotedComma("," + tail, CsvState(out, f, false));
      assert ("," + tail)[1..] == tail;
      FixedReadsFields(fields[1..], out + [f]);
    }
  }

  /** Corrected: every list of trimmed fields survives writing and reading. */
  lemma FixedCsvRoundTrip(fields: seq<string>)
    requires |fields| >= 1 && forall k | 0 <= k < |fields| :: Clean(fields[k])
    ensures ParseCsvLineFixed(EncodeCsv(fields)) == fields
  {
    FixedReadsFields(fields, []);
    LastSplit(fields);
    TrimAllClean(fields);
  }

  lemma LastSplit(fields: seq<string>)
    requires |fields| >= 1
    ensures [] + fields[..|fields| - 1] + [fields[|fields| - 1]] == fields
  {
  }

  lemma TrimAllClean(fields: seq<string>)
    requires forall k | 0 <= k < |fields| :: Clean(fields[k])
    ensures TrimAll(fields) == fields
  {
    forall k | 0 <= k < |fields| ensures Trim(fields[k]) == fields[k] {
      CleanTrims(fields[k]);
    }
  }

  /** As written, a quoted field reads back when it does not start with a
      quote character (an empty field does). */
  lemma {:induction false} AsWrittenReadsFields(fields: seq<string>, out: seq<string>)
    requires |fields| >= 1 && forall k | 0 <= k < |fields| :: fields[k] != [] && fields[k][0] != '"'
    ensures Scan(EncodeCsv(fields), CsvState(out, "", false))
            == CsvState(out + fields[..|fields| - 1], fields[|fields| - 1], false)
  {
    var f := fields[0];
    if |fields| == 1 {
      FieldReads(f, [], out);
      assert Quote(f) + [] == EncodeCsv(fields);
    } else {
      var tail := EncodeCsv(fields[1..]);
      FieldsConcat(fields, out);
      FieldReads(f, "," + tail, out);
      ScanComma("," + tail, CsvState(out, f, false));
      assert ("," + tail)[1..] == tail;
      AsWrittenReadsFields(fields[1..], out + [f]);
    }
  }

  lemma AsWrittenCsvRoundTrip(fields: seq<string>)
    requires |fields| >= 1
    requires forall k | 0 <= k < |fields| :: Clean(fields[k]) && fields[k] != [] && fields[k][0] != '"'
    ensures ParseCsvLine(EncodeCsv(fields)) == fields
  {
    AsWrittenReadsFields(fields, []);
    LastSplit(fields);
    TrimAllClean(fields);
  }

  /** As written, the quoted empty field `""` reads as one quote character. */
  lemma EmptyQuotedFieldGainsAQuote()
    ensures EncodeCsv([""]) == "\"\""
    ensures ParseCsvLine(EncodeCsv([""])) == ["\""]
    ensures ParseCsvLineFixed(EncodeCsv([""])) == [""]
  {
    EncodeEmpty();
    ReadPairAsWritten();
    FixedCsvRoundTrip([""]);
  }

  lemma EncodeEmpty()
    ensures EncodeCsv([""]) == "\"\""
  {
    assert Escape("") == [];
  }

  lemma ReadPairAsWritten()
    ensures ParseCsvLine("\"\"") == ["\""]
  {
    var e := "\"\"";
    ScanPair(e, CsvState([], "", false));
    assert e[2..] == [];
    var st := Scan(e, CsvState([], "", false));
    assert st == CsvState([], "\"", false);
    TrimOne('"');
    assert st.out + [st.cur] == ["\""];
  }

  lemma TrimOne(c: char)
    requires !IsJsSpace(c)
    ensures Trim([c]) == [c]
  {
    TrimPadded([], [c], []);
    assert [] + [c] + [] == [c];
  }

  /** Without quote characters a line is split at its commas. */
  lemma {:induction false} PlainScan(s: string, out: seq<string>, cur: string)
    requires '"' !in s
    ensures var p := SplitOn(s, ',');
            var st := Scan(s, CsvState(out, cur, false));
            st.out + [st.cur] == out + [cur + p[0]] + p[1..]
  {
    if s == [] {
      assert cur + "" == cur;
    } else {
      var p := SplitOn(s[1..], ',');
      assert '"' !in s[1..] by { assert forall c | c in s[1..] :: c in s; }
      var P := SplitOn(s, ',');
      if s[0] == ',' {
        ScanComma(s, CsvState(out, cur, false));
        PlainScan(s[1..], out + [cur], "");
        SplitAtSeparator(s, ',');
        CommaStep(out, cur, p, P);
      } else {
        ScanText(s, CsvState(out, cur, false));
        PlainScan(s[1..], out, cur + [s[0]]);
        SplitInsidePiece(s, ',');
        assert cur + [s[0]] + p[0] == cur + P[0];
      }
    }
  }

  lemma SplitAtSeparator(s: string, sep: char)
    requires s != [] && s[0] == sep
    ensures SplitOn(s, sep) == [""] + SplitOn(s[1..], sep)
  {
  }

  lemma SplitInsidePiece(s: string, sep: char)
    requires s != [] && s[0] != sep
    ensures var p := SplitOn(s[1..], sep);
            var P := SplitOn(s, sep);
            P[0] == [s[0]] + p[0] && P[1..] == p[1..]
  {
    var p := SplitOn(s[1..], sep);
    assert SplitOn(s, sep) == [[s[0]] + p[0]] + p[1..];
  }

  lemma CommaStep(out: seq<string>, cur: string, p: seq<string>, P: seq<string>)
    requires |p| >= 1 && P == [""] + p
    ensures out + [cur] + ["" + p[0]] + p[1..] == out + [cur + P[0]] + P[1..]
  {
    assert "" + p[0] == p[0] && cur + "" == cur;
    assert [p[0]] + p[1..] == p;
  }

  /** A line with no quote character is the trimmed comma split. */
  lemma PlainLine(line: string)
    requires '"' !in line
    ensures ParseCsvLine(line) == TrimAll(SplitOn(line, ','))
  {
    var p := SplitOn(line, ',');
    var st := Scan(line, CsvState([], "", false));
    PlainScan(line, [], "");
    FirstPiece(p);
    assert st.out + [st.cur] == p;
  }

  lemma FirstPiece(p: seq<string>)
    requires |p| >= 1
    ensures [] + ["" + p[0]] + p[1..] == p
  {
    assert "" + p[0] == p[0];
    assert [p[0]] + p[1..] == p;
  }
}

=== FILE: progress.dfy ===
/** The XP/level account and the daily activity ledger: the two stores every
    scoring path writes (index.js, `XP_RULES`, `calcLevel`,
    `updateGamification`, `recordDailyActivity`). XP is stored as
    `numeric(10,2)`; the model keeps it in integer hundredths so that the
    0.25 XP of a wrong training answer is exact. */
module Progress {
  import opened Common

  // ------------------------------------------------------------ rule tables

  /** `XP_RULES`, in hundredths of a point. */
  const TrainingCorrectXp: nat := 100
  const TrainingWrongXp: nat := 25
  const LeitnerCorrectXp: nat := 200
  const ExamCorrectXp: nat := 500
  const ExamBonusXp: nat := 1000

  /** `DUEL_XP`, in hundredths of a point. */
  const DuelWinXp: nat := 2000
  const DuelLossXp: nat := 500
  const DuelDrawXp: nat := 1000
  const DuelExpiredXp: nat := 500

  /** `STREAK_RULES`. */
  const DailyMinQuestions: nat := 10
  const WeeklyActiveDays: nat := 4

  // ------------------------------------------------------------ levels

  /** `calcLevel(xp) = floor(sqrt(max(0, xp) / 10))`. With xp = h / 100 this is
      the n with n*n <= h / 1000 < (n+1)*(n+1), computed without floats. */
  function CalcLevel(h: int): (n: nat)
    ensures 1000 * n * n <= Max(0, h)
    ensures Max(0, h) < 1000 * (n + 1) * (n + 1)
  {
    LevelFrom(Max(0, h), 0)
  }

  function LevelFrom(h: nat, n: nat): (r: nat)
    requires 1000 * n * n <= h
    ensures 1000 * r * r <= h < 1000 * (r + 1) * (r + 1)
    decreases h - 1000 * n * n
  {
    if 1000 * (n + 1) * (n + 1) <= h then
      assert 1000 * n * n < 1000 * (n + 1) * (n + 1);
      LevelFrom(h, n + 1)
    else n
  }

  lemma SquareMonotone(a: nat, b: nat)
    requires a <= b
    ensures a * a <= b * b
  {
    assert a * a <= a * b <= b * b;
  }

  /** Level thresholds are ordered like the levels. */
  lemma SquareOrder(a: nat, b: nat)
    ensures a < b <==> 1000 * a * a < 1000 * b * b
  {
    if a < b {
      SquareMonotone(a + 1, b);
      assert a * a < (a + 1) * (a + 1);
    } else {
      SquareMonotone(b, a);
    }
  }

  /** The level never falls when XP grows. */
  lemma LevelMonotone(h1: int, h2: int)
    requires h1 <= h2
    ensures CalcLevel(h1) <= CalcLevel(h2)
  {
    var n1, n2 := CalcLevel(h1), CalcLevel(h2);
    SquareOrder(n1, n2 + 1);
  }

  /** Level 1 starts at 10 XP, level 2 at 40 XP, level 10 at 1000 XP. */
  lemma LevelThresholds()
    ensures CalcLevel(999) == 0 && CalcLevel(1000) == 1
    ensures CalcLevel(3999) == 1 && CalcLevel(4000) == 2
    ensures CalcLevel(100000) == 10
  {
    assert LevelFrom(999, 0) == 0;
    assert LevelFrom(1000, 0) == 1 by { assert LevelFrom(1000, 1) == 1; }
    assert LevelFrom(3999, 1) == 1;
    assert LevelFrom(4000, 2) == 2;
    assert LevelFrom(100000, 10) == 10;
    LevelUnique(999, 0);
    LevelUnique(1000, 1);
    LevelUnique(3999, 1);
    LevelUnique(4000, 2);
    LevelUnique(100000, 10);
  }

  /** The bracketing in `CalcLevel`'s contract pins the level down. */
  lemma LevelUnique(h: nat, n: nat)
    requires 1000 * n * n <= h < 1000 * (n + 1) * (n + 1)
    ensures CalcLevel(h) == n
  {
    var m := CalcLevel(h);
    SquareOrder(n, m + 1);
    SquareOrder(m, n + 1);
  }

  // ------------------------------------------------------------ accounts

  /** A `user_gamification` row; `xp` in hundredths. */
  datatype Account = Account(xp: nat, level: nat, lastAwardedAt: Option<Millis>)

  type Accounts = map<UserId, Account>

  /** XP of a user, zero when the user has no account yet. */
  function XpOf(acc: Accounts, u: UserId): nat {
    if u in acc then acc[u].xp else 0
  }

  /** Every stored level is the level of the stored XP. */
  predicate LevelsConsistent(acc: Accounts) {
    forall u :: u in acc ==> acc[u].level == CalcLevel(acc[u].xp)
  }

  /** The accounts after an award, and the `{xp, level}` it reports. */
  datatype Award = Award(accounts: Accounts, xp: nat, level: nat)

  /** `updateGamification`: an upsert that adds `max(0, delta)` to the user's XP
      (creating the row at that amount), stamps `last_awarded_at`, then stores
      the level of the new XP. */
  function UpdateGamification(acc: Accounts, u: UserId, delta: int, now: Millis): (r: Award)
    ensures r.xp == XpOf(acc, u) + Max(0, delta)
    ensures r.level == CalcLevel(r.xp)
    ensures u in r.accounts && r.accounts[u] == Account(r.xp, r.level, Some(now))
    ensures forall v :: v != u ==> (v in r.accounts <==> v in acc)
    ensures forall v :: v != u && v in acc ==> r.accounts[v] == acc[v]
  {
    var xp := XpOf(acc, u) + Max(0, delta);
    var level := CalcLevel(xp);
    Award(acc[u := Account(xp, level, Some(now))], xp, level)
  }

  /** XP is append-only: an award never lowers anyone's XP or level, and keeps
      stored levels consistent. */
  lemma AwardMonotone(acc: Accounts, u: UserId, delta: int, now: Millis, v: UserId)
    requires LevelsConsistent(acc)
    ensures var r := UpdateGamification(acc, u, delta, now);
      XpOf(acc, v) <= XpOf(r.accounts, v)
      && (v in acc ==> acc[v].level <= r.accounts[v].level)
      && LevelsConsistent(r.accounts)
  {
    var r := UpdateGamification(acc, u, delta, now);
    if v == u && v in acc {
      LevelMonotone(acc[v].xp, r.xp);
    }
  }

  /** Two awards add up: `award(u, d1)` then `award(u, d2)` leaves
      xp0 + d1 + d2 (negative deltas count as zero). */
  lemma AwardsAdd(acc: Accounts, u: UserId, d1: int, d2: int, t1: Millis, t2: Millis)
    ensures var r1 := UpdateGamification(acc, u, d1, t1);
      var r2 := UpdateGamification(r1.accounts, u, d2, t2);
      r2.xp == XpOf(acc, u) + Max(0, d1) + Max(0, d2)
      && r2.level == CalcLevel(XpOf(acc, u) + Max(0, d1) + Max(0, d2))
  {
  }

  // ------------------------------------------------------------ ledger

  /** The counters of one `user_activity_daily` row. */
  datatype Counters = Counters(trainingCorrect: int, trainingWrong: int, leitnerCorrect: int,
                               examCorrect: int, examTotal: int, totalAnswered: int)

  const Zero: Counters := Counters(0, 0, 0, 0, 0, 0)

  /** The delta object handed to `recordDailyActivity`; an absent field counts 0. */
  datatype Delta = Delta(trainingCorrect: Option<int>, trainingWrong: Option<int>,
                         leitnerCorrect: Option<int>, examCorrect: Option<int>,
                         examTotal: Option<int>, totalAnswered: Option<int>)

  function OrZero(x: Option<int>): int { if x.Some? then x.value else 0 }

  function Normalize(d: Delta): Counters {
    Counters(OrZero(d.trainingCorrect), OrZero(d.trainingWrong), OrZero(d.leitnerCorrect),
             OrZero(d.examCorrect), OrZero(d.examTotal), OrZero(d.totalAnswered))
  }

  function Plus(a: Counters, b: Counters): Counters {
    Counters(a.trainingCorrect + b.trainingCorrect, a.trainingWrong + b.trainingWrong,
             a.leitnerCorrect + b.leitnerCorrect, a.examCorrect + b.examCorrect,
             a.examTotal + b.examTotal, a.totalAnswered + b.totalAnswered)
  }

  /** Every counter of `a` is at most the same counter of `b`. */
  predicate Below(a: Counters, b: Counters) {
    && a.trainingCorrect <= b.trainingCorrect && a.trainingWrong <= b.trainingWrong
    && a.leitnerCorrect <= b.leitnerCorrect && a.examCorrect <= b.examCorrect
    && a.examTotal <= b.examTotal && a.totalAnswered <= b.totalAnswered
  }

  predicate NonNegative(c: Counters) { Below(Zero, c) }

  /** Primary key of the ledger: user, pool and the local calendar day. */
  datatype LedgerKey = LedgerKey(user: UserId, pool: PoolId, day: Day)

  type Ledger = map<LedgerKey, Counters>

  function Row(l: Ledger, k: LedgerKey): Counters {
    if k in l then l[k] else Zero
  }

  /** `recordDailyActivity`: insert the (user, pool, local day) row with the
      delta, or add the delta to each counter of the existing row. The local
      day is the caller's "today" in the user's time zone. */
  function RecordDailyActivity(l: Ledger, u: UserId, pool: PoolId, localDay: Day, d: Delta): (r: Ledger)
    ensures LedgerKey(u, pool, localDay) in r
    ensures r[LedgerKey(u, pool, localDay)] == Plus(Row(l, LedgerKey(u, pool, localDay)), Normalize(d))
    ensures forall k :: k != LedgerKey(u, pool, localDay) ==> (k in r <==> k in l)
    ensures forall k :: k != LedgerKey(u, pool, localDay) && k in l ==> r[k] == l[k]
  {
    var k := LedgerKey(u, pool, localDay);
    l[k := Plus(Row(l, k), Normalize(d))]
  }

  /** Sum of a list of deltas, counter by counter. */
  function SumDeltas(ds: seq<Delta>): Counters
    decreases |ds|
  {
    if |ds| == 0 then Zero else Plus(SumDeltas(ds[..|ds| - 1]), Normalize(ds[|ds| - 1]))
  }

  /** Replays a list of deltas against one key. */
  function RecordAll(l: Ledger, k: LedgerKey, ds: seq<Delta>): Ledger
    decreases |ds|
  {
    if |ds| == 0 then l
    else RecordDailyActivity(RecordAll(l, k, ds[..|ds| - 1]), k.user, k.pool, k.day, ds[|ds| - 1])
  }

  /** After any number of events on one (user, pool, day) the row holds the
      counter-wise sum of the deltas on top of what it held before. */
  lemma {:induction false} LedgerSums(l: Ledger, k: LedgerKey, ds: seq<Delta>)
    ensures Row(RecordAll(l, k, ds), k) == Plus(Row(l, k), SumDeltas(ds))
    decreases |ds|
  {
    if |ds| > 0 {
      var prefix := ds[..|ds| - 1];
      var last := Normalize(ds[|ds| - 1]);
      LedgerSums(l, k, prefix);
      var before := RecordAll(l, k, prefix);
      assert Row(RecordAll(l, k, ds), k) == Plus(Row(before, k), last);
      PlusAssoc(Row(l, k), SumDeltas(prefix), last);
    }
  }

  /** ... and no other row moves. */
  lemma {:induction false} LedgerOtherRowsUntouched(l: Ledger, k: LedgerKey, ds: seq<Delta>, j: LedgerKey)
    requires j != k
    ensures Row(RecordAll(l, k, ds), j) == Row(l, j)
    decreases |ds|
  {
    if |ds| > 0 {
      LedgerOtherRowsUntouched(l, k, ds[..|ds| - 1], j);
    }
  }

  lemma PlusAssoc(a: Counters, b: Counters, c: Counters)
    ensures Plus(Plus(a, b), c) == Plus(a, Plus(b, c))
  {
  }

  /** One bump of row `k` by counters `c`, written on the map itself. */
  function Bump(l: Ledger, k: LedgerKey, c: Counters): Ledger {
    l[k := Plus(Row(l, k), c)]
  }

  lemma BumpsOnOneRowCommute(l: Ledger, k: LedgerKey, c1: Counters, c2: Counters)
    ensures Bump(Bump(l, k, c1), k, c2) == Bump(Bump(l, k, c2), k, c1)
  {
    assert Plus(Plus(Row(l, k), c1), c2) == Plus(Plus(Row(l, k), c2), c1);
  }

  lemma BumpsOnTwoRowsCommute(l: Ledger, k1: LedgerKey, c1: Counters, k2: LedgerKey, c2: Counters)
    requires k1 != k2
    ensures Bump(Bump(l, k1, c1), k2, c2) == Bump(Bump(l, k2, c2), k1, c1)
  {
    assert Row(Bump(l, k1, c1), k2) == Row(l, k2);
    assert Row(Bump(l, k2, c2), k1) == Row(l, k1);
  }

  /** The order in which two events land does not matter. */
  lemma RecordingCommutes(l: Ledger, k1: LedgerKey, d1: Delta, k2: LedgerKey, d2: Delta)
    ensures RecordDailyActivity(RecordDailyActivity(l, k1.user, k1.pool, k1.day, d1), k2.user, k2.pool, k2.day, d2)
         == RecordDailyActivity(RecordDailyActivity(l, k2.user, k2.pool, k2.day, d2), k1.user, k1.pool, k1.day, d1)
  {
    var c1, c2 := Normalize(d1), Normalize(d2);
    assert forall m: Ledger, k: LedgerKey, d: Delta ::
      RecordDailyActivity(m, k.user, k.pool, k.day, d) == Bump(m, k, Normalize(d));
    if k1 == k2 {
      BumpsOnOneRowCommute(l, k1, c1, c2);
    } else {
      BumpsOnTwoRowsCommute(l, k1, c1, k2, c2);
    }
  }

  /** Counters only grow when every delta is non-negative, as all callers' are. */
  lemma RecordingGrows(l: Ledger, u: UserId, pool: PoolId, day: Day, d: Delta, k: LedgerKey)
    requires NonNegative(Normalize(d))
    ensures Below(Row(l, k), Row(RecordDailyActivity(l, u, pool, day, d), k))
  {
  }

  // ------------------------------------------------------------ training

  /** The account and ledger stores, written together in one transaction. */
  datatype Progress = Progress(accounts: Accounts, ledger: Ledger)

  datatype TrainingReply = TrainingReply(correct: bool, xpAwarded: nat, xp: nat, level: nat)

  datatype TrainingStep = TrainingStep(state: Progress, reply: Result<TrainingReply>)

  /** `POST /training/answer`, restricted to the progression writes: the answer
      is checked by exact-set match, the ledger gets one training answer on
      the question's pool, and the account gets 1 XP when correct, 0.25 when
      wrong. Per-question statistics tables are not modelled. */
  function TrainingAnswer(p: Progress, cat: Catalog, u: UserId, questionId: Option<QuestionId>,
                          selected: Option<seq<AnswerId>>, localDay: Day, now: Millis): (r: TrainingStep)
    ensures r.reply.Err? ==> r.state == p
    ensures questionId.None? || selected.None? ==> r.reply == Err("invalid")
    ensures questionId.Some? && selected.Some? && questionId.value !in cat.questions ==>
              r.reply == Err("question_not_found")
    ensures r.reply.Ok? ==> questionId.Some? && selected.Some? && questionId.value in cat.questions
    ensures r.reply.Ok? ==>
              var q := cat.questions[questionId.value];
              var ok := Elements(selected.value) == q.correct;
              var award := UpdateGamification(p.accounts, u, r.reply.value.xpAwarded, now);
              && r.reply.value.correct == ok
              && r.reply.value.xpAwarded == (if ok then TrainingCorrectXp else TrainingWrongXp)
              && r.state.accounts == award.accounts
              && r.reply.value.xp == award.xp && r.reply.value.level == award.level
              && XpOf(r.state.accounts, u) == XpOf(p.accounts, u) + r.reply.value.xpAwarded
              && r.state.ledger == RecordDailyActivity(p.ledger, u, q.pool, localDay,
                   Delta(Some(if ok then 1 else 0), Some(if ok then 0 else 1), None, None, None, Some(1)))
              && Row(r.state.ledger, LedgerKey(u, q.pool, localDay)).totalAnswered
                 == Row(p.ledger, LedgerKey(u, q.pool, localDay)).totalAnswered + 1
  {
    if questionId.None? || selected.None? then TrainingStep(p, Err("invalid"))
    else if questionId.value !in cat.questions then TrainingStep(p, Err("question_not_found"))
    else
      var q := cat.questions[questionId.value];
      var ok := IsCorrectSelection(q.correct, selected.value);
      var ledger := RecordDailyActivity(p.ledger, u, q.pool, localDay,
        Delta(Some(if ok then 1 else 0), Some(if ok then 0 else 1), None, None, None, Some(1)));
      var xpDelta := if ok then TrainingCorrectXp else TrainingWrongXp;
      var award := UpdateGamification(p.accounts, u, xpDelta, now);
      TrainingStep(Progress(award.accounts, ledger),
                   Ok(TrainingReply(ok, xpDelta, award.xp, award.level)))
  }
}

=== FILE: ratelimit.dfy ===
/** The two fixed-window request limiters (rateLimit.js and roleRateLimit.js).
    Each keeps one module-level map from a key to a bucket `{count, start}`;
    every limiter instance created by the factory shares that map. A request
    first restarts the window when it has lapsed, is refused when the count has
    reached the instance's maximum, and otherwise bumps the count by one.
    Timers become an explicit sweep function with `now` as a parameter. */
module RateLimit {
  import opened Common

  /** A bucket: requests admitted in the current window and when it opened
      (`first` in rateLimit.js, `start` in roleRateLimit.js). */
  datatype Entry = Entry(count: int, start: Millis)

  type Buckets = map<string, Entry>

  /** The bucket map after a request, and whether the request went through
      (`next()`) or was answered with 429. */
  datatype Decision = Decision(buckets: Buckets, admitted: bool)

  const LoginWindowDefault: int := 10 * MsPerMinute
  const LoginMaxDefault: int := 5
  const LoginStaleAfter: int := 30 * MsPerMinute
  const RoleWindowDefault: int := 60000
  const AdminMaxDefault: int := 120
  const UserMaxDefault: int := 60
  const RoleStaleAfter: int := 5 * MsPerMinute

  /** JavaScript `a || fallback` for an optional string: a missing value and
      the empty string are both falsy. */
  function OrElse(a: Option<string>, fallback: string): (r: string)
    ensures a.Some? && a.value != "" ==> r == a.value
    ensures a.None? || a.value == "" ==> r == fallback
  {
    if a.Some? && a.value != "" then a.value else fallback
  }

  /** The count a request is judged against: the stored count while its window
      is open, zero for a missing bucket or a lapsed window. */
  function CountInWindow(b: Buckets, key: string, now: Millis, windowMs: int): int {
    if key in b && now - b[key].start <= windowMs then b[key].count else 0
  }

  /** The step both middlewares perform. The bucket object is read from the
      map (or made fresh), reset in place when its window lapsed, and only
      written back on admission; a refused request therefore leaves a missing
      key missing but does keep the in-place reset of an existing bucket. */
  function Admit(b: Buckets, key: string, now: Millis, windowMs: int, max: int): (d: Decision)
    ensures d.admitted <==> CountInWindow(b, key, now, windowMs) < max
    ensures d.admitted ==>
              key in d.buckets && d.buckets[key].count == CountInWindow(b, key, now, windowMs) + 1
    ensures !d.admitted ==> (key in d.buckets <==> key in b)
    ensures !d.admitted && key in b ==> d.buckets[key].count == CountInWindow(b, key, now, windowMs)
    ensures key in d.buckets ==>
              d.buckets[key].start == (if key in b && now - b[key].start <= windowMs then b[key].start else now)
    ensures forall k :: k != key ==> (k in d.buckets <==> k in b)
    ensures forall k :: k != key && k in b ==> d.buckets[k] == b[k]
  {
    var entry := if key in b then b[key] else Entry(0, now);
    var current := if now - entry.start > windowMs then Entry(0, now) else entry;
    if current.count >= max then
      Decision(if key in b then b[key := current] else b, false)
    else
      Decision(b[key := Entry(current.count + 1, current.start)], true)
  }

  // ---------------------------------------------------------------- rateLimit.js

  /** `req.ip || req.connection.remoteAddress || 'unknown'`. */
  function LoginKey(ip: Option<string>, remoteAddress: Option<string>): string {
    OrElse(ip, OrElse(remoteAddress, "unknown"))
  }

  /** One request through a `loginRateLimit({windowMs, max})` instance. */
  function LoginRateLimit(b: Buckets, windowMs: int, max: int, ip: Option<string>,
                          remoteAddress: Option<string>, now: Millis): (d: Decision)
    ensures d.admitted <==> CountInWindow(b, LoginKey(ip, remoteAddress), now, windowMs) < max
    ensures forall k :: k != LoginKey(ip, remoteAddress) && k in b ==> k in d.buckets && d.buckets[k] == b[k]
  {
    Admit(b, LoginKey(ip, remoteAddress), now, windowMs, max)
  }

  // ------------------------------------------------------------ roleRateLimit.js

  /** `${req.user?.sub || 'anon'}:${req.ip || 'unknown'}`. */
  function RoleKey(sub: Option<string>, ip: Option<string>): string {
    OrElse(sub, "anon") + ":" + OrElse(ip, "unknown")
  }

  /** The instance maximum: `adminMax` for the admin role, `userMax` otherwise. */
  function RoleMax(role: Option<string>, adminMax: int, userMax: int): (m: int)
    ensures role == Some("admin") ==> m == adminMax
    ensures role != Some("admin") ==> m == userMax
  {
    if role == Some("admin") then adminMax else userMax
  }

  /** One request through a `roleRateLimit({adminMax, userMax, windowMs})` instance. */
  function RoleRateLimit(b: Buckets, adminMax: int, userMax: int, windowMs: int,
                         sub: Option<string>, role: Option<string>, ip: Option<string>,
                         now: Millis): (d: Decision)
    ensures d.admitted <==> CountInWindow(b, RoleKey(sub, ip), now, windowMs) < RoleMax(role, adminMax, userMax)
    ensures forall k :: k != RoleKey(sub, ip) && k in b ==> k in d.buckets && d.buckets[k] == b[k]
  {
    Admit(b, RoleKey(sub, ip), now, windowMs, RoleMax(role, adminMax, userMax))
  }

  // ---------------------------------------------------------------- sweeps

  /** The body of the cleanup timers: drop every bucket whose window opened more
      than `staleAfter` ms before `now` (30 minutes for logins, 5 for roles). */
  function Sweep(b: Buckets, now: Millis, staleAfter: int): (r: Buckets)
    ensures forall k :: k in r <==> k in b && now - b[k].start <= staleAfter
    ensures forall k :: k in r ==> r[k] == b[k]
  {
    map k | k in b && !(now - b[k].start > staleAfter) :: b[k]
  }

  /** A sweep run at or before a request never changes that request's fate or
      the count it leaves behind, as long as the instance's window is no longer
      than the sweep's staleness bound (10 <= 30 and 15 <= 30 minutes for the
      login routes, 1 <= 5 minutes for the role limiter). */
  lemma SweepKeepsDecisions(b: Buckets, sweptAt: Millis, staleAfter: int, key: string,
                            now: Millis, windowMs: int, max: int)
    requires sweptAt <= now && windowMs <= staleAfter
    ensures Admit(Sweep(b, sweptAt, staleAfter), key, now, windowMs, max).admitted
         == Admit(b, key, now, windowMs, max).admitted
    ensures CountInWindow(Sweep(b, sweptAt, staleAfter), key, now, windowMs)
         == CountInWindow(b, key, now, windowMs)
  {
  }

  // ---------------------------------------------------------------- bounds

  /** Every bucket's count lies in [0, max]. */
  predicate Bounded(b: Buckets, max: int) {
    forall k :: k in b ==> 0 <= b[k].count <= max
  }

  /** Counts never exceed the largest maximum of the instances that share the
      map: an instance with a smaller maximum can refuse, but never pushes a
      bucket above `bound`. (Instances with different maxima do not each keep
      their own bound: three admissions by a `max: 10` route fill the counter a
      `max: 3` route reads.) */
  lemma AdmitKeepsBound(b: Buckets, key: string, now: Millis, windowMs: int, max: int, bound: int)
    requires Bounded(b, bound) && max <= bound && 0 <= bound
    ensures Bounded(Admit(b, key, now, windowMs, max).buckets, bound)
  {
  }

  /** Replays requests with one key through one instance; returns the final map
      and how many were admitted. */
  function Replay(b: Buckets, key: string, times: seq<Millis>, windowMs: int, max: int): (Buckets, nat)
    decreases |times|
  {
    if |times| == 0 then (b, 0)
    else
      var d := Admit(b, key, times[0], windowMs, max);
      var rest := Replay(d.buckets, key, times[1..], windowMs, max);
      (rest.0, rest.1 + if d.admitted then 1 else 0)
  }

  /** Within one window at most `max - count` further requests pass a bucket
      that already holds `count`. */
  lemma {:induction false} ReplayWithinWindow(b: Buckets, key: string, times: seq<Millis>,
                                              windowMs: int, max: int)
    requires key in b && 0 <= b[key].count
    requires forall i :: 0 <= i < |times| ==> times[i] - b[key].start <= windowMs
    ensures var (b', n) := Replay(b, key, times, windowMs, max);
      key in b' && b'[key].start == b[key].start && n <= Max(0, max - b[key].count)
      && b'[key].count == b[key].count + n
    decreases |times|
  {
    if |times| > 0 {
      var d := Admit(b, key, times[0], windowMs, max);
      assert d.buckets[key].start == b[key].start;
      ReplayWithinWindow(d.buckets, key, times[1..], windowMs, max);
    }
  }

  /** Starting from no bucket, at most `max` requests with one key pass during
      the window the first of them opens. */
  lemma AtMostMaxPerWindow(b: Buckets, key: string, times: seq<Millis>, windowMs: int, max: int)
    requires key !in b && 0 <= windowMs && 0 <= max && |times| > 0
    requires forall i :: 0 <= i < |times| ==> times[0] <= times[i] <= times[0] + windowMs
    ensures Replay(b, key, times, windowMs, max).1 <= max
  {
    var d := Admit(b, key, times[0], windowMs, max);
    if max == 0 {
      assert !d.admitted && key !in d.buckets;
      NoBucketNoAdmission(d.buckets, key, times[1..], windowMs);
    } else {
      assert d.admitted && d.buckets[key] == Entry(1, times[0]);
      ReplayWithinWindow(d.buckets, key, times[1..], windowMs, max);
    }
  }

  /** With `max` zero nothing is ever admitted and the key never appears. */
  lemma {:induction false} NoBucketNoAdmission(b: Buckets, key: string, times: seq<Millis>, windowMs: int)
    requires key !in b
    ensures Replay(b, key, times, windowMs, 0).1 == 0
    decreases |times|
  {
    if |times| > 0 {
      NoBucketNoAdmission(Admit(b, key, times[0], windowMs, 0).buckets, key, times[1..], windowMs);
    }
  }

  /** The login limiter's map is shared: a request admitted by one route (say
      `/auth/login`, 10 minutes / 5) is counted by every other route that reads
      the same IP (say `/auth/forgot`, 15 minutes / 5), provided the bucket's
      window is still open for the second route. */
  lemma LoginRoutesShareCounter(b: Buckets, ip: Option<string>, remote: Option<string>, now: Millis,
                                w1: int, m1: int, w2: int)
    requires 0 <= w1 && 0 <= w2
    requires var k := LoginKey(ip, remote); k in b && now - b[k].start <= w1 ==> now - b[k].start <= w2
    ensures var d := LoginRateLimit(b, w1, m1, ip, remote, now);
      d.admitted ==> CountInWindow(d.buckets, LoginKey(ip, remote), now, w2)
                     == CountInWindow(b, LoginKey(ip, remote), now, w1) + 1
  {
  }

  // ---------------------------------------------------------------- keys

  /** Position of the first occurrence of `c` in `s`, or `|s|`. */
  function FirstIndexOf(s: string, c: char): (i: nat)
    ensures i <= |s|
    ensures forall j :: 0 <= j < i ==> s[j] != c
    ensures i < |s| ==> s[i] == c
  {
    if |s| == 0 then 0
    else if s[0] == c then 0
    else 1 + FirstIndexOf(s[1..], c)
  }

  /** The role key separates user and address with a colon. Since user ids
      (uuids, or `anon`) contain no colon, the key determines both parts:
      two different users behind one address own two different buckets. */
  lemma RoleKeyInjective(sub1: Option<string>, ip1: Option<string>, sub2: Option<string>, ip2: Option<string>)
    requires ':' !in OrElse(sub1, "anon") && ':' !in OrElse(sub2, "anon")
    requires RoleKey(sub1, ip1) == RoleKey(sub2, ip2)
    ensures OrElse(sub1, "anon") == OrElse(sub2, "anon")
    ensures OrElse(ip1, "unknown") == OrElse(ip2, "unknown")
  {
    var u1, u2 := OrElse(sub1, "anon"), OrElse(sub2, "anon");
    var a1, a2 := OrElse(ip1, "unknown"), OrElse(ip2, "unknown");
    var k := RoleKey(sub1, ip1);
    ColonSplit(u1, a1);
    ColonSplit(u2, a2);
    assert k[..|u1|] == u1 && k[..|u2|] == u2;
    assert k[|u1| + 1..] == a1 && k[|u2| + 1..] == a2;
  }

  lemma ColonSplit(u: string, a: string)
    requires ':' !in u
    ensures FirstIndexOf(u + ":" + a, ':') == |u|
    ensures (u + ":" + a)[..|u|] == u && (u + ":" + a)[|u| + 1..] == a
  {
    var k := u + ":" + a;
    assert k[|u|] == ':';
  }

  /** Requests of one user never touch another user's bucket on the same address. */
  lemma UsersBehindOneAddressIndependent(b: Buckets, adminMax: int, userMax: int, windowMs: int,
                                         sub: Option<string>, other: Option<string>,
                                         role: Option<string>, ip: Option<string>, now: Millis)
    requires ':' !in OrElse(sub, "anon") && ':' !in OrElse(other, "anon")
    requires OrElse(sub, "anon") != OrElse(other, "anon")
    requires RoleKey(other, ip) in b
    ensures var d := RoleRateLimit(b, adminMax, userMax, windowMs, sub, role, ip, now);
      RoleKey(other, ip) in d.buckets && d.buckets[RoleKey(other, ip)] == b[RoleKey(other, ip)]
  {
    if RoleKey(other, ip) == RoleKey(sub, ip) {
      RoleKeyInjective(sub, ip, other, ip);
    }
  }
}

=== FILE: streaks.dfy ===
/** Daily and weekly streaks (index.js `computeDailyStreak`,
    `computeWeeklyStreak`). Both take the per-day answer totals of one player
    (`loadDayTotals`): a map from day to the number of questions answered that
    day. Day keys `"YYYY-MM-DD"` sort like their day numbers, so the string
    sort of the source is the numeric sort here. */
module Streaks {
  import opened Common
  import opened Calendar
  import Progress

  type DayTotals = map<Day, int>

  // ------------------------------------------------------------ sorting

  predicate Descending(s: seq<int>) {
    forall i, j | 0 <= i < j < |s| :: s[i] > s[j]
  }

  /** Some element of a non-empty set. */
  ghost function Pick(s: set<int>): (x: int)
    requires s != {}
    ensures x in s
  {
    NonEmptyHasElement(s);
    var x :| x in s;
    x
  }

  ghost function MaxOf(s: set<int>): (m: int)
    requires s != {}
    ensures m in s && forall y | y in s :: y <= m
    decreases |s|
  {
    var x := Pick(s);
    var rest := s - {x};
    assert forall y | y in s :: y == x || y in rest;
    if rest == {} then x
    else
      var r := MaxOf(rest);
      if r < x then x else r
  }

  /** `.sort().reverse()`: the elements of `s`, largest first. The head of a
      non-empty result is the maximum of `s`. */
  ghost function SortedDesc(s: set<int>): (r: seq<int>)
    ensures forall x :: x in r <==> x in s
    ensures |r| == |s|
    ensures s != {} ==> r[0] in s && forall x | x in s :: x <= r[0]
    decreases |s|
  {
    if s == {} then []
    else
      assert MaxOf(s) in s;
      var m :| m in s && forall x | x in s :: x <= m;
      var rest := SortedDesc(s - {m});
      SortedCons(m, rest, s);
      [m] + rest
  }

  lemma SortedCons(m: int, rest: seq<int>, s: set<int>)
    requires m in s
    requires forall x :: x in rest <==> x in s - {m}
    requires |rest| == |s - {m}|
    ensures forall x :: x in [m] + rest <==> x in s
    ensures |[m] + rest| == |s|
    ensures ([m] + rest)[0] == m
  {
  }

  /** After the maximum come the other elements, sorted the same way. */
  lemma SortedDescTail(s: set<int>)
    requires s != {}
    ensures SortedDesc(s)[1..] == SortedDesc(s - {SortedDesc(s)[0]})
  {
  }

  /** The result is strictly decreasing. */
  lemma {:induction false} SortedDescDescends(s: set<int>)
    ensures Descending(SortedDesc(s))
    decreases |s|
  {
    if s != {} {
      var r := SortedDesc(s);
      var top := r[0];
      var rest := SortedDesc(s - {top});
      SortedDescTail(s);
      SortedDescDescends(s - {top});
      assert r == [top] + rest;
      forall x | x in rest
        ensures x < top
      {
        assert x in s - {top};
        assert x in s && x != top;
        assert s != {};
        assert top in s;
        assert x <= top;
      }
      DescendingCons(top, rest);
    }
  }

  lemma DescendingCons(m: int, rest: seq<int>)
    requires Descending(rest)
    requires forall x | x in rest :: x < m
    ensures Descending([m] + rest)
  {
    var r := [m] + rest;
    forall i, j | 0 <= i < j < |r|
      ensures r[i] > r[j]
    {
      assert r[j] == rest[j - 1] && rest[j - 1] in rest;
      if i > 0 {
        assert r[i] == rest[i - 1];
      }
    }
  }

  // ------------------------------------------------------------ daily

  /** A day counts towards a streak when at least the daily minimum of
      questions was answered on it. */
  predicate Qualifies(t: DayTotals, d: Day) {
    d in t && t[d] >= Progress.DailyMinQuestions
  }

  /** The loop of `computeDailyStreak` from the day `cursor` on: walk the
      remaining keys largest first, stop at the first one that is not the
      cursor or misses the minimum, otherwise count it and move the cursor to
      the previous day. */
  function DailyLoop(days: seq<Day>, t: DayTotals, cursor: Day): (n: nat)
    ensures n <= |days|
  {
    if days == [] then 0
    else if days[0] != cursor then 0
    else if !Qualifies(t, days[0]) then 0
    else 1 + DailyLoop(days[1..], t, cursor - 1)
  }

  /** `computeDailyStreak(dayTotals)` with `today` as the current day. */
  ghost function DailyStreak(t: DayTotals, today: Day): (n: nat)
    ensures n <= |t|
  {
    DailyLoop(SortedDesc(t.Keys), t, today)
  }

  /** The `n` days ending at `cursor` qualify and the day before them does not. */
  predicate RunEndsAt(t: DayTotals, cursor: Day, n: nat) {
    (forall d | cursor - n < d <= cursor :: Qualifies(t, d)) && !Qualifies(t, cursor - n)
  }

  lemma RunExtends(t: DayTotals, cursor: Day, n: nat)
    requires Qualifies(t, cursor) && RunEndsAt(t, cursor - 1, n)
    ensures RunEndsAt(t, cursor, n + 1)
  {
    assert cursor - (n + 1) == (cursor - 1) - n;
  }

  /** One turn of the loop over sorted keys, stated on the key set. */
  lemma DailyLoopTurn(s: set<Day>, t: DayTotals, cursor: Day)
    requires s != {}
    ensures var top := SortedDesc(s)[0];
            DailyLoop(SortedDesc(s), t, cursor)
            == if top == cursor && Qualifies(t, cursor)
               then 1 + DailyLoop(SortedDesc(s - {cursor}), t, cursor - 1)
               else 0
  {
    var days := SortedDesc(s);
    SortedDescTail(s);
    assert days != [];
  }

  /** `s` holds exactly the keys of `t` up to `cursor`. */
  predicate KeysUpTo(s: set<Day>, t: DayTotals, cursor: Day) {
    (forall d | d in s :: d in t && d <= cursor) && (forall d | d in t && d <= cursor :: d in s)
  }

  /** Past a key that is the cursor, the rest are the keys up to the day before. */
  lemma KeysUpToShift(s: set<Day>, t: DayTotals, cursor: Day)
    requires KeysUpTo(s, t, cursor) && cursor in s
    ensures KeysUpTo(s - {cursor}, t, cursor - 1)
  {
    forall d | d in s - {cursor}
      ensures d in t && d <= cursor - 1
    {
      assert d in s && d != cursor;
    }
  }

  /** The walk stops at once when no key is left, when the largest key is not
      the cursor (the cursor is then no key at all), or when the cursor misses
      the minimum. */
  lemma DailyLoopStops(s: set<Day>, t: DayTotals, cursor: Day)
    requires KeysUpTo(s, t, cursor)
    requires s == {} || SortedDesc(s)[0] != cursor || !Qualifies(t, cursor)
    ensures RunEndsAt(t, cursor, DailyLoop(SortedDesc(s), t, cursor))
  {
    if s == {} {
      assert cursor !in t;
    } else {
      DailyLoopTurn(s, t, cursor);
      var top := SortedDesc(s)[0];
      assert top in s;
      assert cursor in t ==> cursor in s;
      assert cursor in s ==> cursor <= top;
    }
    assert DailyLoop(SortedDesc(s), t, cursor) == 0;
  }

  /** A matching qualifying cursor adds one day to the run of the rest. */
  lemma DailyLoopGoesOn(s: set<Day>, t: DayTotals, cursor: Day)
    requires s != {} && SortedDesc(s)[0] == cursor && Qualifies(t, cursor)
    requires RunEndsAt(t, cursor - 1, DailyLoop(SortedDesc(s - {cursor}), t, cursor - 1))
    ensures RunEndsAt(t, cursor, DailyLoop(SortedDesc(s), t, cursor))
  {
    var n' := DailyLoop(SortedDesc(s - {cursor}), t, cursor - 1);
    DailyLoopStep(s, t, cursor);
    RunExtends(t, cursor, n');
  }

  lemma DailyLoopStep(s: set<Day>, t: DayTotals, cursor: Day)
    requires s != {} && SortedDesc(s)[0] == cursor && Qualifies(t, cursor)
    ensures DailyLoop(SortedDesc(s), t, cursor) == 1 + DailyLoop(SortedDesc(s - {cursor}), t, cursor - 1)
  {
    DailyLoopTurn(s, t, cursor);
  }

  /** Walking the sorted keys `s` counts the run of qualifying days ending at
      the cursor, as long as `s` holds exactly the keys up to the cursor. */
  lemma {:induction false} DailyLoopCounts(s: set<Day>, t: DayTotals, cursor: Day)
    requires KeysUpTo(s, t, cursor)
    ensures RunEndsAt(t, cursor, DailyLoop(SortedDesc(s), t, cursor))
    decreases |s|
  {
    if s == {} || SortedDesc(s)[0] != cursor || !Qualifies(t, cursor) {
      DailyLoopStops(s, t, cursor);
    } else {
      assert cursor in s;
      KeysUpToShift(s, t, cursor);
      DailyLoopCounts(s - {cursor}, t, cursor - 1);
      DailyLoopGoesOn(s, t, cursor);
    }
  }

  /** The daily streak is the number of consecutive qualifying days ending
      today. A key after today (a clock that went backwards, or a local date
      ahead of the server's) ends the walk before it starts. */
  lemma DailyStreakCounts(t: DayTotals, today: Day)
    ensures (exists d | d in t :: d > today) ==> DailyStreak(t, today) == 0
    ensures (forall d | d in t :: d <= today) ==> RunEndsAt(t, today, DailyStreak(t, today))
  {
    if forall d | d in t :: d <= today {
      assert KeysUpTo(t.Keys, t, today);
      DailyLoopCounts(t.Keys, t, today);
    }
  }

  /** Today 12 answers, yesterday 15, the day before 5: a streak of two. */
  lemma DailyStreakExample(today: Day)
    ensures DailyStreak(map[today := 12, today - 1 := 15, today - 2 := 5], today) == 2
  {
    var t := map[today := 12, today - 1 := 15, today - 2 := 5];
    DailyStreakCounts(t, today);
    assert Qualifies(t, today) && Qualifies(t, today - 1) && !Qualifies(t, today - 2);
  }

  /** Twenty answers logged for tomorrow wipe out today's streak. */
  lemma DailyStreakFutureKey(today: Day)
    ensures DailyStreak(map[today := 20, today + 1 := 20], today) == 0
  {
    var t := map[today := 20, today + 1 := 20];
    assert today + 1 in t;
    DailyStreakCounts(t, today);
  }

  // ------------------------------------------------------------ weekly

  function Get(m: map<int, int>, k: int): int {
    if k in m then m[k] else 0
  }

  /** The first loop of `computeWeeklyStreak`: per key, the number of
      qualifying days among `days`, each day filed under `key(d)`. The entries
      are visited in no particular order; counting does not depend on it. */
  function Tally(days: seq<Day>, t: DayTotals, key: Day -> int): map<int, int> {
    if days == [] then map[]
    else
      var m := Tally(days[1..], t, key);
      var d := days[0];
      if !Qualifies(t, d) then m else m[key(d) := Get(m, key(d)) + 1]
  }

  /** The qualifying days among `s` filed under `k`. */
  function DaysWithKey(s: set<Day>, t: DayTotals, key: Day -> int, k: int): set<Day> {
    set d | d in s && Qualifies(t, d) && key(d) == k
  }

  /** One turn of the counting loop over sorted days, read back through `Get`. */
  lemma TallyTurn(s: set<Day>, t: DayTotals, key: Day -> int, k: int)
    requires s != {}
    ensures var d := SortedDesc(s)[0];
            Get(Tally(SortedDesc(s), t, key), k)
            == Get(Tally(SortedDesc(s - {d}), t, key), k) + (if Qualifies(t, d) && key(d) == k then 1 else 0)
  {
    var days := SortedDesc(s);
    SortedDescTail(s);
    assert days != [];
    assert days[1..] == SortedDesc(s - {days[0]});
  }

  /** Removing one day from a set removes at most that day from its key. */
  lemma DaysWithKeyTurn(s: set<Day>, t: DayTotals, key: Day -> int, k: int, d: Day)
    requires d in s
    ensures |DaysWithKey(s, t, key, k)|
            == |DaysWithKey(s - {d}, t, key, k)| + (if Qualifies(t, d) && key(d) == k then 1 else 0)
  {
    var before := DaysWithKey(s - {d}, t, key, k);
    assert d !in before;
    if Qualifies(t, d) && key(d) == k {
      assert DaysWithKey(s, t, key, k) == before + {d};
    } else {
      assert DaysWithKey(s, t, key, k) == before;
    }
  }

  /** The tally of the sorted days counts, per key, the qualifying days filed
      under it. */
  lemma {:induction false} TallyCounts(s: set<Day>, t: DayTotals, key: Day -> int, k: int)
    ensures Get(Tally(SortedDesc(s), t, key), k) == |DaysWithKey(s, t, key, k)|
    decreases |s|
  {
    if s == {} {
      assert SortedDesc(s) == [];
      assert DaysWithKey(s, t, key, k) == {};
    } else {
      var d := SortedDesc(s)[0];
      assert d in s;
      TallyCounts(s - {d}, t, key, k);
      TallyTurn(s, t, key, k);
      DaysWithKeyTurn(s, t, key, k, d);
    }
  }

  /** The week keys with at least the weekly minimum of qualifying days. */
  ghost function ActiveWeeks(t: DayTotals): set<int> {
    var tally := Tally(SortedDesc(t.Keys), t, WeekKey);
    set wk | wk in tally && tally[wk] >= Progress.WeeklyActiveDays
  }

  /** The qualifying days of `t` in the week `wk`. */
  function DaysInWeek(t: DayTotals, wk: int): set<Day> {
    DaysWithKey(t.Keys, t, WeekKey, wk)
  }

  /** Reference definition: a week is active when at least four of its days
      qualify. */
  lemma ActiveWeeksCount(t: DayTotals, wk: int)
    ensures wk in ActiveWeeks(t) <==> |DaysInWeek(t, wk)| >= Progress.WeeklyActiveDays
  {
    TallyCounts(t.Keys, t, WeekKey, wk);
  }

  /** Every active week is the week of one of the player's qualifying days. */
  lemma ActiveWeekHasDay(t: DayTotals, wk: int)
    requires wk in ActiveWeeks(t)
    ensures exists d | d in t && Qualifies(t, d) :: WeekKey(d) == wk
  {
    ActiveWeeksCount(t, wk);
    var s := DaysInWeek(t, wk);
    assert |s| != 0;
    NonEmptyHasElement(s);
    var d :| d in s;
  }

  // ------------------------------------------------------------ runs of weeks

  /** The second loop of `computeWeeklyStreak`: walk the keys largest first,
      stop at the first one that is not the cursor, otherwise count it and
      step the cursor back with `prev`, stopping too when that gives `null`. */
  function RunLength(keys: seq<int>, cursor: int, prev: int -> Option<int>): (n: nat)
    ensures n <= |keys|
  {
    if keys == [] || keys[0] != cursor then 0
    else
      match prev(cursor)
      case None => 1
      case Some(p) => 1 + RunLength(keys[1..], p, prev)
  }

  /** `computeWeeklyStreak(dayTotals)`. */
  ghost function WeeklyStreak(t: DayTotals): (n: nat)
    ensures n <= |ActiveWeeks(t)|
    ensures n == 0 <==> ActiveWeeks(t) == {}
  {
    var weeks := SortedDesc(ActiveWeeks(t));
    if |weeks| == 0 then 0 else RunLength(weeks, weeks[0], PrevWeekKey)
  }

  ghost predicate Increasing(key: int -> int) {
    forall i, j | i < j :: key(i) < key(j)
  }

  /** A numbering of weeks: `key` gives strictly increasing keys to
      consecutive week indices, and from week `lo` on `prev` steps a key back
      to the key of the week before. */
  ghost predicate Numbering(key: int -> int, prev: int -> Option<int>, lo: int) {
    Increasing(key) &&
    (forall i | i >= lo :: prev(key(i)) == Some(key(i - 1)))
  }

  /** Every key in `w` names a week from `lo` on. */
  ghost predicate KeysFrom(w: set<int>, key: int -> int, lo: int) {
    forall k | k in w :: exists i | i >= lo :: key(i) == k
  }

  /** The keys of the `n` weeks ending with week `e` are in `w`; the key of
      the week before them is not. */
  ghost predicate KeyRunEndsAt(w: set<int>, key: int -> int, e: int, n: nat) {
    (forall i | e - n < i <= e :: key(i) in w) && key(e - n) !in w
  }

  /** `s` holds exactly the keys of `w` up to `k`. */
  predicate KeysUpToKey(s: set<int>, w: set<int>, k: int) {
    (forall x | x in s :: x in w && x <= k) && (forall x | x in w && x <= k :: x in s)
  }

  /** One turn of the walk, stated on the key set. */
  lemma RunLengthTurn(s: set<int>, cursor: int, prev: int -> Option<int>)
    requires s != {}
    ensures SortedDesc(s)[0] != cursor ==> RunLength(SortedDesc(s), cursor, prev) == 0
    ensures SortedDesc(s)[0] == cursor && prev(cursor).Some? ==>
              RunLength(SortedDesc(s), cursor, prev)
              == 1 + RunLength(SortedDesc(s - {cursor}), prev(cursor).value, prev)
  {
    var keys := SortedDesc(s);
    SortedDescTail(s);
    assert keys != [];
  }

  lemma KeyRunExtends(w: set<int>, key: int -> int, e: int, n: nat)
    requires key(e) in w && KeyRunEndsAt(w, key, e - 1, n)
    ensures KeyRunEndsAt(w, key, e, n + 1)
  {
    assert e - (n + 1) == (e - 1) - n;
  }

  /** The walk stops at once when no key is left or the largest is not the
      cursor; the cursor's key is then not in `w`. */
  lemma RunStops(s: set<int>, w: set<int>, key: int -> int, prev: int -> Option<int>, e: int)
    requires KeysUpToKey(s, w, key(e))
    requires s == {} || SortedDesc(s)[0] != key(e)
    ensures KeyRunEndsAt(w, key, e, RunLength(SortedDesc(s), key(e), prev))
  {
    var cursor := key(e);
    if s == {} {
      assert cursor !in w;
    } else {
      RunLengthTurn(s, cursor, prev);
      var top := SortedDesc(s)[0];
      assert top in s;
      assert cursor in w ==> cursor in s;
      assert cursor in s ==> cursor <= top;
    }
    assert RunLength(SortedDesc(s), cursor, prev) == 0;
  }

  /** Past the key of week `e`, the rest are the keys up to the week before. */
  lemma KeysUpToKeyShift(s: set<int>, w: set<int>, key: int -> int, lo: int, e: int)
    requires Increasing(key) && KeysFrom(w, key, lo)
    requires KeysUpToKey(s, w, key(e)) && key(e) in s
    ensures KeysUpToKey(s - {key(e)}, w, key(e - 1))
  {
    forall x | x in s - {key(e)}
      ensures x in w && x <= key(e - 1)
    {
      assert x in w && x < key(e);
      var i :| i >= lo && key(i) == x;
      assert i < e;
      assert i < e - 1 ==> key(i) < key(e - 1);
    }
    assert key(e - 1) < key(e);
  }

  /** A matching cursor adds one week to the run of the rest. */
  lemma RunGoesOn(s: set<int>, w: set<int>, key: int -> int, prev: int -> Option<int>, e: int)
    requires s != {} && SortedDesc(s)[0] == key(e) && key(e) in w
    requires prev(key(e)) == Some(key(e - 1))
    requires KeyRunEndsAt(w, key, e - 1, RunLength(SortedDesc(s - {key(e)}), key(e - 1), prev))
    ensures KeyRunEndsAt(w, key, e, RunLength(SortedDesc(s), key(e), prev))
  {
    var n' := RunLength(SortedDesc(s - {key(e)}), key(e - 1), prev);
    RunLengthTurn(s, key(e), prev);
    assert RunLength(SortedDesc(s), key(e), prev) == n' + 1;
    KeyRunExtends(w, key, e, n');
  }

  /** Walking the sorted keys `s` from the key of week `e` counts the run of
      weeks of `w` ending with week `e`, as long as `s` holds exactly the
      keys of `w` up to that key. */
  lemma {:induction false} RunCounts(s: set<int>, w: set<int>, key: int -> int,
                                     prev: int -> Option<int>, lo: int, e: int)
    requires Numbering(key, prev, lo) && KeysFrom(w, key, lo)
    requires KeysUpToKey(s, w, key(e))
    ensures KeyRunEndsAt(w, key, e, RunLength(SortedDesc(s), key(e), prev))
    decreases |s|
  {
    if s == {} || SortedDesc(s)[0] != key(e) {
      RunStops(s, w, key, prev, e);
    } else {
      assert key(e) in s && key(e) in w;
      var i :| i >= lo && key(i) == key(e);
      assert i == e;
      assert prev(key(e)) == Some(key(e - 1));
      KeysUpToKeyShift(s, w, key, lo, e);
      RunCounts(s - {key(e)}, w, key, prev, lo, e - 1);
      RunGoesOn(s, w, key, prev, e);
    }
  }

  /** ISO week keys with `prevWeekKey` number the weeks from ISO year 1 on. */
  lemma IsoNumbering()
    ensures Numbering(KeyOfWeek, PrevWeekKey, FirstWeek)
  {
    forall i, j | i < j
      ensures KeyOfWeek(i) < KeyOfWeek(j)
    {
      KeyOfWeekIncreasing(i, j);
    }
    forall i | i >= FirstWeek
      ensures PrevWeekKey(KeyOfWeek(i)) == Some(KeyOfWeek(i - 1))
    {
      KeyOfWeekStep(i);
    }
  }

  /** The active weeks of a player whose days lie in ISO year 1 or later are
      weeks from `FirstWeek` on. */
  lemma ActiveWeeksFrom(t: DayTotals)
    requires forall d | d in t :: WeekYear(d) >= 1
    ensures KeysFrom(ActiveWeeks(t), KeyOfWeek, FirstWeek)
  {
    forall k | k in ActiveWeeks(t)
      ensures exists i | i >= FirstWeek :: KeyOfWeek(i) == k
    {
      ActiveWeekHasDay(t, k);
      var d :| d in t && Qualifies(t, d) && WeekKey(d) == k;
      KeyOfWeekIndex(d);
      DatedWeekIndex(d);
    }
  }

  /** Walking all keys of `w` from the largest, the week `e`, counts the run
      of weeks ending with `e`. */
  lemma RunFromLatest(w: set<int>, key: int -> int, prev: int -> Option<int>, lo: int, e: int)
    requires Numbering(key, prev, lo) && KeysFrom(w, key, lo)
    requires key(e) in w && forall k | k in w :: k <= key(e)
    ensures SortedDesc(w) != [] && SortedDesc(w)[0] == key(e)
    ensures KeyRunEndsAt(w, key, e, RunLength(SortedDesc(w), SortedDesc(w)[0], prev))
  {
    var weeks := SortedDesc(w);
    assert weeks[0] in w;
    assert weeks[0] == key(e);
    assert KeysUpToKey(w, w, key(e));
    RunCounts(w, w, key, prev, lo, e);
  }

  /** The weekly streak is the number of consecutive active weeks ending with
      the latest active week, the week of `top`. */
  lemma WeeklyStreakCounts(t: DayTotals, top: Day)
    requires forall d | d in t :: WeekYear(d) >= 1
    requires WeekKey(top) in ActiveWeeks(t)
    requires forall k | k in ActiveWeeks(t) :: k <= WeekKey(top)
    ensures KeyRunEndsAt(ActiveWeeks(t), KeyOfWeek, WeekIndex(top), WeeklyStreak(t))
  {
    KeyOfWeekIndex(top);
    IsoNumbering();
    ActiveWeeksFrom(t);
    RunFromLatest(ActiveWeeks(t), KeyOfWeek, PrevWeekKey, FirstWeek, WeekIndex(top));
  }
}
